=== FILE: README.md ===
# KieApp operator core, modelled in Dafny

This project models the core of the KieApp operator, a Kubernetes/OpenShift operator that deploys KIE
(business central, KIE servers, smart router) environments from a `KieApp` custom resource. The model
covers five parts of the operator:

- **Custom-object merge.** `merge.go` merges the objects of a "baseline" environment template with
  an "overwrite" template, kind by kind:
  - an overwrite object with the same name is deep-merged into its baseline counterpart;
  - an overwrite object annotated `delete: "true"` removes its counterpart;
  - unmatched live overwrite objects are appended.

  The merge writes into a slice of the size `combinedSize` predicts. It tags every consumed overwrite
  object with `delete: "true"`, which changes the caller's overwrite slice in place.
- **Reconciliation helper.** `helper/reconciliation.go` compares the objects that exist in the
  cluster with the requested objects, type by type. Each type yields created, updated and deleted
  lists, which are then applied one by one, stopping at the first client error. The `created`
  list of line 180 is built differently from what the code evidently intends (see "Findings"), so
  the per-type changes, `compare` and `Reconcile` take an `asWritten` flag that selects the loop as
  written or as intended; the consequences of the written form are proved at the `Reconcile` level.
- **Upgrade checks.** `defaults/upgrade.go` holds the supported-version checks, the
  major/minor/micro split of a product version, and the upgrade decision. It also files the
  embedded config maps by version and detects user changes to live config maps that would conflict
  with an upgrade.
- **Defaults.** `defaults/defaults.go` builds the console template and the KIE server templates
  (common or per-set), the build template and its webhook secrets. It fills empty passwords and
  application constants, names config maps after their file paths, and decides whether embedded
  files are used.
- **Controller.** `kieapp_controller.go` contributes its pure slices:
  - the ordered flattening of custom objects into Kubernetes resources;
  - the namespace stamping of requested resources;
  - the secret comparator that ignores data values;
  - the spec-change test;
  - the local image-tag URL computation;
  - the keystore-secret generation of `setEnvironmentProperties`;
  - the config-map creation and backup plan of `CreateConfigMaps`.

Modules:

- **`Wrappers`**: `Option` and `Result`.
- **`Strings`**: `Split` and `Join` on a separator, with their round-trip lemmas, plus digits and
  decimal printing.
- **`KieTypes`**: the resource, custom-object, environment, spec and constants records.
- **`Merge`, `Reconciliation`, `Defaults`, `Upgrade` and `Controller`**: one module per source file.

Where the source mutates a slice in place (the merge's `slice`, its tagging of `overwrite`, the
controller's `env.Servers` and requested resources), the model uses a Dafny `array` and a `modifies`
clause. Each such method is proved against a specification function on sequences, and the
properties are proved about that function.

How the model treats Go semantics:

- **Panics.** Index out of range, an unknown list type and a nil comparator become explicit outcomes
  (`ok = false`, `None`, `Panicked`), not preconditions.
- **Map iteration.** Go's random map iteration order becomes either an arbitrary choice (`:|`) in
  the loop or an explicit `order` parameter.
- **Collaborators as parameters.** The following enter the model as parameters:
  - the constants package, as a `Constants` record;
  - `mergo.Merge`, modelled as `Merge.DeepMerge`;
  - `cmp.Diff`, as a `diff` function;
  - the Kubernetes client calls, the packr box (`hasDir` and `cmList`) and
    `GetRouteHost`/`GenerateKeystore`;
  - `GeneratePassword`, as a `generate` function or a pre-drawn value;
  - the `REGISTRY`, `INSECURE`, `WATCH_NAMESPACE` and `OPERATOR_NAME` environment variables.

## Model

| member | source | states |
|---|---|---|
| Merge.TagDeleted | pkg/controller/kieapp/defaults/merge.go:209-213 | the consumed overwrite object is delete-tagged; its name, labels and body are unchanged; its annotations gain exactly `delete`, and other annotations keep their values |
| Merge.DeepMerge | pkg/controller/kieapp/defaults/merge.go:203 | mergo with override: a non-empty overwrite name wins; label and field maps are unioned, with the overwrite's values winning on shared keys and the baseline's kept elsewhere |
| Merge.IndexOfName | pkg/controller/kieapp/defaults/merge.go:224-231 | the result is the FIRST index whose name matches, or none when no element has that name |
| Merge.FindOpenShiftObject | pkg/controller/kieapp/defaults/merge.go:224-231 | returns the first matching index and its object, or -1 and nil when the name is absent |
| Merge.CombinedSize | pkg/controller/kieapp/defaults/merge.go:177-191 | the count is the baseline length plus unmatched live overwrites minus matched tombstones |
| Merge.CombinedCountIsSize | pkg/controller/kieapp/defaults/merge.go:177-191 | with unique names, the predicted size equals the length of the merge result, both declarative and operational |
| Merge.MergeBaseline | pkg/controller/kieapp/defaults/merge.go:196-215 | the first loop succeeds iff its output fits the slice; it then writes exactly the baseline pass's output at the front, and leaves baseline and overwrite as the pass leaves them (merged objects, tagged overwrites); when a write panics, the failing round's baseline object is already merged but its match is not yet tagged |
| Merge.AppendUntagged | pkg/controller/kieapp/defaults/merge.go:216-221 | the second loop succeeds iff the untagged overwrites fit; it writes exactly them after `start` and leaves the rest of the slice untouched |
| Merge.MergeObjects | pkg/controller/kieapp/defaults/merge.go:193-222 | succeeds iff the merged objects fit the slice; the slice's prefix is then the merge result and its suffix is unchanged; baseline and overwrite end as the source leaves them, after the whole first loop or at the write that panics |
| Merge.RoundsWithinIs | pkg/controller/kieapp/defaults/merge.go:196-215 | the rounds of the first loop that complete are exactly those before the first round whose write overflows the slice |
| Merge.BaselinePassIsDeclarative | pkg/controller/kieapp/defaults/merge.go:196-215 | with unique names, the first loop's output is the survivors (baseline objects not tombstoned, deep-merged with their match), and the overwrite slice ends with exactly the matched live objects tagged |
| Merge.UntaggedTagMatches | pkg/controller/kieapp/defaults/merge.go:216-221 | the objects the second loop appends are exactly the overwrites with no baseline match and no tombstone |
| Merge.MergedObjectsIsDeclarative | pkg/controller/kieapp/defaults/merge.go:193-222 | with unique names, the merge is survivors followed by additions, a definition that does not depend on the loop's tagging |
| Merge.SurvivorsCount | pkg/controller/kieapp/defaults/merge.go:184-189 | the survivors number the baseline objects minus the matched tombstones |
| Merge.AdditionsCount | pkg/controller/kieapp/defaults/merge.go:181-183 | the additions number the unmatched live overwrites |
| Merge.NoTombstoneInAdditions | pkg/controller/kieapp/defaults/merge.go:217 | a tombstone is never appended, so the additions are strictly fewer than the overwrites |
| Merge.MergedListIsDeclarative | pkg/controller/kieapp/defaults/merge.go:24-36 | for non-empty lists with unique names, the per-kind merge never panics and yields the declarative merge |
| Merge.DuplicateOverwriteNamesPanic | pkg/controller/kieapp/defaults/merge.go:177-222 | two overwrites sharing a baseline name make the size prediction too small, so the slice write panics |
| Merge.EmptyBaselineKeepsTombstones | pkg/controller/kieapp/defaults/merge.go:27-28 | with an empty baseline, the overwrite is returned as is, tombstones included, unlike the declarative merge |
| Merge.MergeList | pkg/controller/kieapp/defaults/merge.go:24-36 | empty overwrite returns the baseline itself; empty baseline returns the overwrite itself; otherwise a fresh slice holds the merge, the baseline array holds the merged objects and the overwrite array is left tagged; on a panic, a negative size leaves both arrays unchanged and an overflowing write leaves them as the first loop had them at that write |
| Merge.MergeBoth | pkg/controller/kieapp/defaults/merge.go:29-34 | with both lists non-empty: a fresh slice of `combinedSize` slots holding the merge, with baseline merged and overwrite tagged; on a panic, the arrays as they stood when it happened |
| Merge.MergeKind | pkg/controller/kieapp/defaults/merge.go:134-145 | the value-level per-kind wrapper succeeds iff the merge does, and returns the merge and the tagged overwrite |
| Merge.Merge | pkg/controller/kieapp/defaults/merge.go:14-22 | all seven kinds are merged independently; no other field of the baseline changes, and the overwrite's lists end up tagged |
| Merge.MergeServicesScenario | pkg/controller/kieapp/defaults/merge_test.go:13-59 | the service merge example yields three services: the matched service carries the union of both label sets with the overwrite's `source`; the unmatched baseline service stays; the tombstoned one is removed; the new overwrite service is appended |
| Merge.ScenarioMergedLabels | pkg/controller/kieapp/defaults/merge_test.go:13-59 | in the same example, the merged labels are exactly `source=overwrite`, `baseline=true` and `overwrite=true` |
| Reconciliation.New | pkg/controller/kieapp/helper/reconciliation.go:15-49 | fails iff the client is nil; otherwise each missing option is replaced by its documented default (empty list, "Name", "Namespace", client create/update/delete), and given options are kept |
| Reconciliation.ListObject | pkg/controller/kieapp/helper/reconciliation.go:83-93 | Pod, DeploymentConfig and BuildConfig each map to their list type; every other type is the panic case |
| Reconciliation.MatchExisting | pkg/controller/kieapp/helper/reconciliation.go:162-177 | the inner loop panics iff a name matches and there is no comparator; otherwise it marks exactly the same-named requests as found and records exactly those the comparator calls different |
| Reconciliation.FoundExactly | pkg/controller/kieapp/helper/reconciliation.go:161-173 | a request is found iff some existing object has its name |
| Reconciliation.DeletedExactly | pkg/controller/kieapp/helper/reconciliation.go:174-176 | an existing object is deleted iff no request has its name |
| Reconciliation.UpdatedExactly | pkg/controller/kieapp/helper/reconciliation.go:164-172 | a request is updated iff some same-named existing object compares unequal to it |
| Reconciliation.CreatedExactly | pkg/controller/kieapp/helper/reconciliation.go:178-182 | with the evident intent, a request is created iff no existing object has its name |
| Reconciliation.CreatedLoop | pkg/controller/kieapp/helper/reconciliation.go:178-182 | the corrected created loop yields exactly the unfound requests, in request order |
| Reconciliation.CreatedLoopAsWritten | pkg/controller/kieapp/helper/reconciliation.go:178-182 | the loop as written computes the as-written function |
| Reconciliation.CreatedAsWrittenShape | pkg/controller/kieapp/helper/reconciliation.go:180 | as written, `created` is empty iff every request was found, and otherwise it is the deleted list plus only the last unfound request |
| Reconciliation.CreatedAsWrittenCounterexample | pkg/controller/kieapp/helper/reconciliation.go:180 | existing [a] against requested [b, c] creates [a, c] as written, where [b, c] is intended |
| Reconciliation.CounterexampleClassified | pkg/controller/kieapp/helper/reconciliation.go:160-176 | with existing [a] and requested [b, c], nothing is found or updated and [a] is deleted |
| Reconciliation.TypeChangesOf | pkg/controller/kieapp/helper/reconciliation.go:160-183 | one type's changes are the created/updated/deleted lists of the specification, or the panic; `asWritten` selects the `created` loop of line 180 as written or as intended |
| Reconciliation.TypeChangesAsWrittenShape | pkg/controller/kieapp/helper/reconciliation.go:160-183 | as written, one type's `created` is empty iff every request was found, and otherwise holds the whole deleted list followed by one more object |
| Reconciliation.NothingToDoWhenInSync | pkg/controller/kieapp/helper/reconciliation.go:160-183 | when existing equals requested (distinct names, reflexive comparator), no type change is planned, as written and as intended |
| Reconciliation.EveryRequestFound | pkg/controller/kieapp/helper/reconciliation.go:161-173 | when the cluster holds exactly the requested objects, every request is found |
| Reconciliation.EqualPairsNotUpdated | pkg/controller/kieapp/helper/reconciliation.go:169-171 | a comparator that always says equal yields no updates |
| Reconciliation.Compare | pkg/controller/kieapp/helper/reconciliation.go:149-186 | the compare loop computes the specification, with `created` as written or as intended: the first list error or panic stops it, otherwise every type's changes are collected |
| Reconciliation.CompareAsWrittenShape | pkg/controller/kieapp/helper/reconciliation.go:149-186 | as written, every change set compare returns has a `created` list that starts with the whole deleted list |
| Reconciliation.CompareKeys | pkg/controller/kieapp/helper/reconciliation.go:151-185 | a successful compare has changes for exactly the requested object types |
| Reconciliation.FailureSticks | pkg/controller/kieapp/helper/reconciliation.go:155-157 | once a type fails, the types after it do not change the outcome |
| Reconciliation.TypePlan | pkg/controller/kieapp/helper/reconciliation.go:127-144 | the per-type plan has one operation per created, updated and deleted object |
| Reconciliation.TypePlanAt | pkg/controller/kieapp/helper/reconciliation.go:127-144 | the plan runs creates, then updates, then deletes, each in list order |
| Reconciliation.ApplyStopsAtFirstError | pkg/controller/kieapp/helper/reconciliation.go:127-144 | applying a plan runs a prefix of it; the error is the outcome of the last operation run, and there is no error iff every operation succeeded |
| Reconciliation.ApplyAfterError | pkg/controller/kieapp/helper/reconciliation.go:129-131 | after an error, later operations are never run |
| Reconciliation.ApplyChanges | pkg/controller/kieapp/helper/reconciliation.go:126-144 | the three apply loops for one type compute exactly the application of its plan |
| Reconciliation.CreateLoop | pkg/controller/kieapp/helper/reconciliation.go:127-132 | the creation loop performs the plan's creations; on an error it has performed exactly what the whole plan performs |
| Reconciliation.UpdateLoop | pkg/controller/kieapp/helper/reconciliation.go:133-138 | after the creations, the update loop performs the plan up to its last update, or stops as the whole plan stops |
| Reconciliation.DeleteLoop | pkg/controller/kieapp/helper/reconciliation.go:139-144 | after the creations and updates, the deletion loop completes the application of the plan |
| Reconciliation.Reconcile | pkg/controller/kieapp/helper/reconciliation.go:120-147 | it panics iff compare does; a list error is returned with nothing applied; otherwise the types are applied in the given map order, stopping at the first error; `asWritten` selects compare as written or as intended |
| Reconciliation.PlanContains | pkg/controller/kieapp/helper/reconciliation.go:125-145 | every call planned for a type in the map order is in the whole plan |
| Reconciliation.ReconcileAsWrittenRecreatesDeleted | pkg/controller/kieapp/helper/reconciliation.go:120-182 | as written, when a type has an existing object nobody requested and a request that does not exist yet, an error-free run calls create on the very object it also deletes |
| Reconciliation.TypePlanRecreates | pkg/controller/kieapp/helper/reconciliation.go:127-144 | when `created` starts with the whole deleted list, the type's calls create every object they delete |
| Reconciliation.ReconcileAsWrittenCounterexample | pkg/controller/kieapp/helper/reconciliation.go:120-182 | with "a" in the cluster and "b", "c" requested, as written the calls are create a, create c, delete a; as intended create b, create c, delete a |
| Reconciliation.CounterexampleChanges | pkg/controller/kieapp/helper/reconciliation.go:160-182 | for that input, the Pod changes are created [a, c] as written and [b, c] as intended, nothing updated, [a] deleted |
| Reconciliation.CounterexamplePlan | pkg/controller/kieapp/helper/reconciliation.go:125-145 | with callbacks that always succeed, the plan of a single type runs in full |
| Reconciliation.PlanSplits | pkg/controller/kieapp/helper/reconciliation.go:125-145 | the whole plan is the concatenation of the per-type plans in map order |
| Defaults.GetConsoleTemplate | pkg/controller/kieapp/defaults/defaults.go:97-107 | an unknown environment gives the empty template; otherwise prefix, image and probe page come from the environment's constants |
| Defaults.GetDefaultKieServerImage | pkg/controller/kieapp/defaults/defaults.go:173-183 | an explicit `from` is returned unchanged; otherwise the image stream tag is product+version `-kieserver-openshift:` tag, in the image stream namespace |
| Defaults.GetKieServerImageForBuild | pkg/controller/kieapp/defaults/defaults.go:185-192 | the build image is the `latest` tag of an image stream named like the default server ID of that index for the application, in the CR's own namespace (empty namespace) |
| Defaults.BuildImagesDistinct | pkg/controller/kieapp/defaults/defaults.go:185-192 | different server indices get different build images |
| Defaults.KieServerIDInjective | pkg/controller/kieapp/defaults/defaults.go:141 | the default server ID `<cr>-kieserver-<i>` determines its index |
| Defaults.GetWebhookSecret | pkg/controller/kieapp/defaults/defaults.go:214-221 | the secret of the FIRST webhook of the type, or the generated password when there is none |
| Defaults.GetBuildConfig | pkg/controller/kieapp/defaults/defaults.go:157-171 | no build gives the empty template; otherwise its fields are copied, with GitHub and Generic secrets looked up and the default server image |
| Defaults.CommonServerTemplates | pkg/controller/kieapp/defaults/defaults.go:133-151 | a missing `server` is defaulted to the default deployment count; one template per deployment, with the `i`-th default ID and image |
| Defaults.ServerSetTemplates | pkg/controller/kieapp/defaults/defaults.go:116-132 | one template per server set, in order, with a named set's name as ID and a build or explicit image |
| Defaults.GetServersConfigAsWritten | pkg/controller/kieapp/defaults/defaults.go:111-153 | as written, any non-empty `servers` list is an error and only the common-server path runs |
| Defaults.ServersListAloneRefusedAsWritten | pkg/controller/kieapp/defaults/defaults.go:113-115 | a spec giving only `servers` is rejected as written, although the message says either one may be given |
| Defaults.GetServersConfig | pkg/controller/kieapp/defaults/defaults.go:111-153 | corrected: the spec is rejected iff it gives both `server` and `servers`; a `servers` list yields its set templates, and otherwise the common templates |
| Defaults.CommonServerIDsDistinct | pkg/controller/kieapp/defaults/defaults.go:139-150 | the common templates have pairwise distinct server IDs |
| Defaults.ServerImage | pkg/controller/kieapp/defaults/defaults.go:125-130 | a set with a build uses the per-index build image; otherwise its explicit image, with an empty build template |
| Defaults.SetPassword | pkg/controller/kieapp/defaults/defaults.go:195-200 | writes exactly one of the five password fields and nothing else |
| Defaults.SetPasswords | pkg/controller/kieapp/defaults/defaults.go:194-212 | the loop fills the passwords as the fill function does |
| Defaults.PasswordsFilled | pkg/controller/kieapp/defaults/defaults.go:202-211 | afterwards every password is non-empty, and a password already set is kept |
| Defaults.SetPasswordsIdempotent | pkg/controller/kieapp/defaults/defaults.go:194-212 | filling twice changes nothing the second time, whatever is generated |
| Defaults.SetAppConstants | pkg/controller/kieapp/defaults/defaults.go:333-352 | the in-place update produces the app-constants function's result |
| Defaults.AppConstantsOnlyFillEmpty | pkg/controller/kieapp/defaults/defaults.go:333-352 | an environment without constants leaves the spec unchanged; otherwise only empty version, tag, product and maven repo are filled, with the digits of the product version, the image stream tag and the environment's product and maven repo; every other field of the spec and of its common configuration is unchanged; applying it twice is the same as once |
| Defaults.ConvertToConfigMapName | pkg/controller/kieapp/defaults/defaults.go:264-273 | the loop computes the config-map name function |
| Defaults.TopLevelConfigMap | pkg/controller/kieapp/defaults/defaults.go:264-273 | a file without directories belongs to the prefix config map under its own name |
| Defaults.ConfigMapNameRecoversPath | pkg/controller/kieapp/defaults/defaults.go:264-273 | the directories plus the returned file name rebuild the path; without `-` in the pieces, the map name splits back into the prefix and the directories |
| Defaults.UseEmbeddedFiles | pkg/controller/kieapp/defaults/defaults.go:323-330 | embedded files are used iff this is a mock service or either variable is empty; the name and namespace are passed through |
| Upgrade.CheckVersion | pkg/controller/kieapp/defaults/upgrade.go:120-127 | a version is supported iff it is in the supported list |
| Upgrade.MajorMinorMicro | pkg/controller/kieapp/defaults/upgrade.go:136-142 | the loop pads the dotted split with "0" to at least three parts and returns the first three |
| Upgrade.VersionPartsOfDotted | pkg/controller/kieapp/defaults/upgrade.go:136-142 | for a dotted version with at least three parts, the parts are recovered exactly |
| Upgrade.VersionPartsOfMajorMinor | pkg/controller/kieapp/defaults/upgrade.go:136-142 | a two-part version gets micro "0" |
| Upgrade.GetMinorImageVersion | pkg/controller/kieapp/defaults/upgrade.go:130-133 | the minor image version is major followed by minor |
| Upgrade.MinorImageVersion751 | pkg/controller/kieapp/defaults/upgrade.go:130-133 | "7.5.1" gives "75" |
| Upgrade.CheckProductUpgrade | pkg/controller/kieapp/defaults/upgrade.go:106-117 | error iff the version is unsupported; micro iff supported, not current and enabled; minor iff micro and minor upgrades are allowed |
| Upgrade.SchemaUpgradeGate | pkg/controller/kieapp/defaults/upgrade.go:29-44 | it continues iff the v1 resource exists with an empty or supported version; not-found and unsupported stop quietly; other lookup errors stop with requeue and the error |
| Upgrade.ConfigDiffs | pkg/controller/kieapp/defaults/upgrade.go:201-212 | the loop computes the diff map of names present in both lists with a non-empty diff |
| Upgrade.ConfigDiffsAreChanges | pkg/controller/kieapp/defaults/upgrade.go:201-212 | with a faithful diff, a name has a diff iff it is in both lists with different data |
| Upgrade.SameDiffsIff | pkg/controller/kieapp/defaults/upgrade.go:170 | two from-lists with the same names give equal diff maps iff every shared name's diff text agrees |
| Upgrade.OriginalNameRoundTrip | pkg/controller/kieapp/defaults/upgrade.go:154-155 | rebuilding `<first>-<version>-<rest>` from a filed name gives back the config map's name |
| Upgrade.ConfigKeyInjective | pkg/controller/kieapp/defaults/upgrade.go:186-187 | the corrected filing never files two config maps under the same name and version |
| Upgrade.ConfigKeyAsWrittenMisfiles | pkg/controller/kieapp/defaults/upgrade.go:186-191 | `kieconfigs-7.5.0-envs` is filed under version "envs" as written, and under "7.5.0" as intended |
| Upgrade.FileConfigMaps | pkg/controller/kieapp/defaults/upgrade.go:185-194 | filing succeeds iff every name has two segments; the from/to lists then hold exactly the maps whose key carries that version, with their data |
| Upgrade.FiledMapNames | pkg/controller/kieapp/defaults/upgrade.go:185-194 | a name is in the filed list iff its original config map exists and files under that name and version |
| Upgrade.FileConfigMapsIsFiledMap | pkg/controller/kieapp/defaults/upgrade.go:185-194 | the loop's lists are the filed maps, independent of iteration order |
| Upgrade.GetConfigVersionListsAsWritten | pkg/controller/kieapp/defaults/upgrade.go:178-198 | lists are built only for supported versions present in the box; as written, versions are read from the aliased slice; the to-list holds exactly the names whose config maps the as-written key files under the target version, and each entry of either list is the data of such a map |
| Upgrade.AsWrittenMissesVersionDirectories | pkg/controller/kieapp/defaults/upgrade.go:186-191 | as written, a config map of the 7.5.0 directory is never filed under 7.5.0 |
| Upgrade.FiledMapOfVersionDirectory | pkg/controller/kieapp/defaults/upgrade.go:186-191 | corrected, the same map is filed under 7.5.0 as `kieconfigs-envs` |
| Upgrade.GetConfigVersionLists | pkg/controller/kieapp/defaults/upgrade.go:178-198 | corrected lists: empty unless both versions are supported and present; otherwise the filed maps, or a panic on a one-segment name |
| Upgrade.ReadLiveConfigs | pkg/controller/kieapp/defaults/upgrade.go:152-162 | the live config maps are read under their original names; the first failing read's error is returned |
| Upgrade.GetConfigVersionDiffs | pkg/controller/kieapp/defaults/upgrade.go:145-175 | unsupported versions allow the upgrade; in a cluster, a read error fails and the upgrade conflicts iff the live diffs differ from the shipped ones; the mock service injects a change; otherwise embedded files allow it |
| Upgrade.UntouchedConfigsAllowUpgrade | pkg/controller/kieapp/defaults/upgrade.go:163-172 | live config maps equal to the shipped ones never block an upgrade |
| Upgrade.ConflictIffSomeConfigDiffers | pkg/controller/kieapp/defaults/upgrade.go:163-172 | a conflict is reported iff some shared config map's diff against the target changed because of live edits |
| Controller.Rank | pkg/controller/kieapp/kieapp_controller.go:414-474 | every kind has a position in the fixed emission order |
| Controller.GetCustomObjectResources | pkg/controller/kieapp/kieapp_controller.go:409-476 | an omitted object yields nothing; otherwise its lists, each tagged with its kind, are emitted in the fixed kind order |
| Controller.ObjectResourcesOfKind | pkg/controller/kieapp/kieapp_controller.go:409-476 | the resources of any one kind are exactly that kind's list, in order (nothing for an omitted object) |
| Controller.ObjectResourcesSorted | pkg/controller/kieapp/kieapp_controller.go:414-474 | the emitted resources are ordered by kind rank |
| Controller.GetKubernetesResources | pkg/controller/kieapp/kieapp_controller.go:379-390 | console, then smart router, then each server, then the others, each flattened as above |
| Controller.ServerResourcesInPlace | pkg/controller/kieapp/kieapp_controller.go:383-385 | each server's resources appear as a contiguous block in server order |
| Controller.SetNamespaces | pkg/controller/kieapp/kieapp_controller.go:95-97 | every requested resource gets the CR's namespace and nothing else changes |
| Controller.BlankSecretData | pkg/controller/kieapp/kieapp_controller.go:168-175 | the copy has the same data keys with every value empty |
| Controller.CompareSecrets | pkg/controller/kieapp/kieapp_controller.go:164-179 | secrets are compared with the stock comparator after blanking their data values |
| Controller.DataValuesIgnored | pkg/controller/kieapp/kieapp_controller.go:164-179 | changing only secret data values never changes the comparison |
| Controller.BlankedSecretsEqualIff | pkg/controller/kieapp/kieapp_controller.go:168-175 | blanked secrets are equal iff they agree everywhere except data values and have the same data keys |
| Controller.ServersDiffer | pkg/controller/kieapp/kieapp_controller.go:189-193 | the loop finds a difference iff some server set from index `i` on differs |
| Controller.HasSpecChanges | pkg/controller/kieapp/kieapp_controller.go:181-196 | the spec has changed iff the two specs differ (the servers loop adds nothing) |
| Controller.UntaggedMeansLatest | pkg/controller/kieapp/kieapp_controller.go:231-236 | a reference without a tag is tagged `latest` |
| Controller.TaggedKept | pkg/controller/kieapp/kieapp_controller.go:231-236 | an `image:tag` reference keeps its image and tag |
| Controller.CreateLocalImageTag | pkg/controller/kieapp/kieapp_controller.go:230-287 | it panics iff the version is empty; the tag name is `image:tag`; insecure comes from the CR registry when given, else from the environment |
| Controller.OrdinaryImageURL | pkg/controller/kieapp/kieapp_controller.go:239-264 | product images come from the configured registry under `<product>-<major>` with name `image:tag` |
| Controller.DatagridImageURL | pkg/controller/kieapp/kieapp_controller.go:252-254 | datagrid images come from the default registry under `jboss-datagrid-7` |
| Controller.AmqBrokerImageURL | pkg/controller/kieapp/kieapp_controller.go:255-257 | AMQ broker images (not also datagrid) come from the default registry under `amq-broker-7`, named `image:tag` |
| Controller.DatabaseImageURL | pkg/controller/kieapp/kieapp_controller.go:258-263 | postgresql and mysql come from the default registry under `rhscl`, named `<image>-<tag digits>-rhel7:latest` |
| Controller.FirstTLSHost | pkg/controller/kieapp/kieapp_controller.go:302-309 | the host of the FIRST TLS route, or empty when there is none |
| Controller.CommonName | pkg/controller/kieapp/kieapp_controller.go:301-314 | with no TLS route the keystore's common name is the application name; with a first TLS route whose host is set, it is that host |
| Controller.GenerateKeystoreSecret | pkg/controller/kieapp/kieapp_controller.go:392-406 | the secret has the given name, the labels `app` and `application` both set to the application name, and one data entry `keystore.jks` holding the keystore generated for the common name and the configured keystore password |
| Controller.WithKeystore | pkg/controller/kieapp/kieapp_controller.go:300-323 | only a non-omitted object without a configured keystore secret gains exactly one secret, named after the role, and that secret is the generated keystore secret whose common name is the host of the object's first TLS route, or the application name; nothing else changes |
| Controller.ServerWithKeystore | pkg/controller/kieapp/kieapp_controller.go:330-350 | a server set without a keystore secret gains exactly one secret named after its deployment, the generated keystore secret whose common name is the host of the server's first TLS route, or the application name; nothing else changes |
| Controller.FirstOmitted | pkg/controller/kieapp/kieapp_controller.go:326-329 | the loop's stopping point: all earlier servers are not omitted, and the one there is |
| Controller.ServersWithKeystores | pkg/controller/kieapp/kieapp_controller.go:326-351 | servers before the first omitted one get their keystore; that one and all later ones are unchanged |
| Controller.SetServerKeystores | pkg/controller/kieapp/kieapp_controller.go:326-351 | the in-place loop over `env.Servers` leaves exactly the keystore-augmented servers |
| Controller.SetEnvironmentProperties | pkg/controller/kieapp/kieapp_controller.go:298-375 | console, servers and smart router get their keystore secrets as above, and the console host is reported |
| Controller.ServerKeystoreRule | pkg/controller/kieapp/kieapp_controller.go:326-351 | a server is untouched iff it is at or after the first omitted one or has a keystore secret; otherwise exactly one named secret is appended |
| Controller.ServerAfterOmittedUntouched | pkg/controller/kieapp/kieapp_controller.go:327-328 | because of the `break`, a live server after an omitted one gets no keystore |
| Controller.TestDataDirectory | pkg/controller/kieapp/kieapp_controller.go:589-595 | a name is a test directory iff its second dash piece is exactly `testdata` |
| Controller.BackupName | pkg/controller/kieapp/kieapp_controller.go:602-607 | the backup name is `<name>-<version>-bak` when the map carries the group annotation, with its value as version, and `<name>-bak` otherwise; either way longer than the map's name |
| Controller.CreateConfigMaps | pkg/controller/kieapp/kieapp_controller.go:586-625 | the loop issues exactly the planned writes, config map by config map |
| Controller.ConfigMapWritesRule | pkg/controller/kieapp/kieapp_controller.go:586-625 | test directories are skipped; a missing map is created as is; when the map exists, every write goes to its backup name, never to the map itself |

## Left out

- The schema upgrade's I/O after the gate is not modelled (`upgrade.go` 46-102): converting the v1 resource to v2, creating it, and moving controller references of deployment configs. Only the decision at 29-44 is modelled.
- `setDefaults`, `GetEnvironment`, `getEnvTemplate`, `loadYaml`, `parseTemplate` and `ConfigMapsFromFile` read and render embedded template files. They are not modelled: their results enter as parameters.
- `ensureImageStream`, `checkImageStreamTag`, `createObj`, `UpdateObj`, `createConfigMap`, `GetRouteHost` and `checkKieServerConfigMap` are client calls. They are left out; their answers enter as parameters, for example `lookup` and `routeHost`.
- The rewriting of image-change trigger namespaces in `getCustomObjectResources` (lines 436-446, 467-472) comes from `ensureImageStream` and is not modelled.
- The controller's `Reconcile` loop, `hasStatusChanges` and `setFailedStatus` only sequence I/O and are not modelled.
- `ConfigureHostname`, `GetServerSet` and `ConsolidateObjects` are not part of this model. `GetServerSet` enters as `serverSet`; the route hostnames and the consolidation are not captured.
- The keystore bytes from `GenerateKeystore` and the passwords from `GeneratePassword` are parameters. Their content is not modelled.
- `Controller.GenerateKeystoreSecret`: the secret's type `Opaque` is not a field of the model, and the fixed alias `jboss` passed to `GenerateKeystore` sits inside the `keystore` parameter, which takes only the common name and the password.
- `createLocalImageTag` writes the environment registry into the CR's registry when that is empty. It also creates the ImageStreamTag through the client. The model computes the tag and URL but does not model these two effects.
- `Controller.CreateConfigMaps`: the model looks up every name in one snapshot of the cluster. It does not model that a backup created earlier in the same loop could be seen by a later lookup.
- `Controller.CreateConfigMaps`: the clearing of `ResourceVersion` and `OwnerReferences` on the backup copy is not modelled.
- `Controller.CreateConfigMaps`: `reflect.DeepEqual` on Data and BinaryData is modelled as value equality, so a nil map and an empty map count as equal here.
- `Controller.TestDataDirectory` is stated for names whose first piece has no dash. The general predicate `IsTestData` follows the source for every name.
- `Controller.HasSpecChanges` is reported at the level of whole specs, because the servers loop (lines 185-194) can only return true when the first test already did. `reflect.DeepEqual` is modelled as value equality, so a nil and an empty list or map count as equal.
- `Merge.DeepMerge` models `mergo.Merge` with override for the fields the model keeps: name, namespace, labels, annotations, the body's field map, data and the TLS flag; its contract states the name, label and field rules. The rest of mergo's reflection-based behaviour (nested structs, slices, zero-value rules per type) is not modelled.
- `Merge.Merge` covers the seven kinds `merge` merges. Roles, stateful sets, image streams and build configs are not merged by the source, and are kept unchanged.
- `Upgrade.GetConfigVersionDiffs` compares the diff maps by value equality, which stands for `cmp.Equal`.
- The text of the diffs is the `diff` parameter. Lemmas that need it to be faithful assume "empty iff equal".
- `Upgrade.GetConfigVersionDiffs` reads and files the corrected way. The as-written filing is kept separately in `Upgrade.GetConfigVersionListsAsWritten`.
- `Upgrade.FileConfigMaps`: a config-map name with fewer than two dash segments makes the source panic. The model reports this as `ok = false` / `Panicked`.
- Logging is not modelled.
- Go's integer width is not modelled. Counts and indices are unbounded.

## Findings

| source | as written | input that shows it | evidently intended | confidence | as-written member | corrected member |
|---|---|---|---|---|---|---|
| pkg/controller/kieapp/helper/reconciliation.go:180 | `created = append(deleted, requested)` replaces `created` with the deleted list plus the current request | existing [a], requested [b, c] (names are identity): created is [a, c], and Reconcile creates a, creates c, deletes a | created collects every unfound request: [b, c] | not executed | Reconciliation.CreatedLoopAsWritten | Reconciliation.CreatedLoop |
| pkg/controller/kieapp/defaults/upgrade.go:186-191 | `append(cmSplit[:1], cmSplit[2:]...)` writes into cmSplit's own backing array, so `cmSplit[1]` then holds the third segment | the embedded map `kieconfigs-7.5.0-envs` is filed under version `envs`, never under 7.5.0 | the version is the second segment of the original name | not executed | Upgrade.GetConfigVersionListsAsWritten | Upgrade.GetConfigVersionLists |
| pkg/controller/kieapp/defaults/defaults.go:113 | every non-empty `servers` list is rejected, so lines 116-132 never run | a spec with `servers` set and `server` unset is rejected | reject only when both `server` and `servers` are given, as the message says | not executed | Defaults.GetServersConfigAsWritten | Defaults.GetServersConfig |

=== FILE: controller.dfy ===
/**
 * The pure slices of `kieapp_controller.go`: flattening custom objects and environments
 * into the ordered list of requested resources, the secret comparator that ignores data
 * values, the spec-change test, local image-stream-tag naming and registry selection,
 * keystore-secret insertion, and the test-directory and backup naming of bundled config maps.
 *
 * Cluster calls (route host lookup, keystore generation, config map reads) enter as
 * function parameters; everything they would write to the cluster is returned as data.
 */
module Controller {
  import opened Wrappers
  import opened KieTypes
  import opened Strings

  // ---------------------------------------------------------------------------------------
  // Requested resources

  /** A resource with the kind its group-version-kind is set to. */
  datatype TypedResource = TypedResource(kind: Kind, resource: Resource)

  /** The number of resource kinds. */
  const KindCount: nat := 11

  /** The kind `getCustomObjectResources` visits `i`-th. */
  function KindAt(i: nat): (k: Kind)
    requires i < KindCount
  {
    match i
    case 0 => PersistentVolumeClaim
    case 1 => ServiceAccount
    case 2 => Secret
    case 3 => Role
    case 4 => RoleBinding
    case 5 => DeploymentConfig
    case 6 => Service
    case 7 => StatefulSet
    case 8 => Route
    case 9 => ImageStream
    case _ => BuildConfig
  }

  /** The position of a kind in that order. */
  function Rank(k: Kind): (r: nat)
    ensures r < KindCount && KindAt(r) == k
  {
    match k
    case PersistentVolumeClaim => 0
    case ServiceAccount => 1
    case Secret => 2
    case Role => 3
    case RoleBinding => 4
    case DeploymentConfig => 5
    case Service => 6
    case StatefulSet => 7
    case Route => 8
    case ImageStream => 9
    case BuildConfig => 10
  }

  lemma RankKindAt(i: nat)
    requires i < KindCount
    ensures Rank(KindAt(i)) == i
  {
  }

  /** The list of kind `k` in a custom object. */
  function ListOf(obj: CustomObject, k: Kind): seq<Resource>
  {
    match k
    case PersistentVolumeClaim => obj.persistentVolumeClaims
    case ServiceAccount => obj.serviceAccounts
    case Secret => obj.secrets
    case Role => obj.roles
    case RoleBinding => obj.roleBindings
    case DeploymentConfig => obj.deploymentConfigs
    case Service => obj.services
    case StatefulSet => obj.statefulSets
    case Route => obj.routes
    case ImageStream => obj.imageStreams
    case BuildConfig => obj.buildConfigs
  }

  function Typed(k: Kind, items: seq<Resource>): (r: seq<TypedResource>)
    ensures |r| == |items| && forall i :: 0 <= i < |r| ==> r[i] == TypedResource(k, items[i])
  {
    seq(|items|, i requires 0 <= i < |items| => TypedResource(k, items[i]))
  }

  /** The lists of the first `n` kinds, one after the other. */
  function Blocks(obj: CustomObject, n: nat): seq<TypedResource>
    requires n <= KindCount
  {
    if n == 0 then [] else Blocks(obj, n - 1) + Typed(KindAt(n - 1), ListOf(obj, KindAt(n - 1)))
  }

  /** What `getCustomObjectResources` returns: nothing for an omitted object, else every list in kind order. */
  function ObjectResources(obj: CustomObject): seq<TypedResource>
  {
    if obj.omit then [] else Blocks(obj, KindCount)
  }

  /** One of the per-kind loops of `getCustomObjectResources`. */
  method AppendKind(allObjects: seq<TypedResource>, k: Kind, items: seq<Resource>) returns (r: seq<TypedResource>)
    ensures r == allObjects + Typed(k, items)
  {
    r := allObjects;
    for index := 0 to |items|
      invariant r == allObjects + Typed(k, items[..index])
    {
      assert Typed(k, items[..index + 1]) == Typed(k, items[..index]) + [TypedResource(k, items[index])];
      r := r + [TypedResource(k, items[index])];
    }
    assert items[..|items|] == items;
  }

  /** `getCustomObjectResources`: its eleven loops, one per kind, in kind order. */
  method GetCustomObjectResources(obj: CustomObject) returns (allObjects: seq<TypedResource>)
    ensures allObjects == ObjectResources(obj)
  {
    allObjects := [];
    if obj.omit {
      return;
    }
    for k := 0 to KindCount
      invariant allObjects == Blocks(obj, k)
    {
      allObjects := AppendKind(allObjects, KindAt(k), ListOf(obj, KindAt(k)));
    }
  }

  /** The resources of kind `k`, in order. */
  function OfKind(s: seq<TypedResource>, k: Kind): seq<Resource>
  {
    if |s| == 0 then []
    else OfKind(s[..|s| - 1], k) + (if s[|s| - 1].kind == k then [s[|s| - 1].resource] else [])
  }

  lemma {:induction false} OfKindAppend(a: seq<TypedResource>, b: seq<TypedResource>, k: Kind)
    ensures OfKind(a + b, k) == OfKind(a, k) + OfKind(b, k)
    decreases |b|
  {
    if |b| > 0 {
      assert (a + b)[..|a + b| - 1] == a + b[..|b| - 1];
      OfKindAppend(a, b[..|b| - 1], k);
    } else {
      assert a + b == a;
    }
  }

  lemma {:induction false} OfKindTyped(k: Kind, items: seq<Resource>, j: Kind)
    ensures OfKind(Typed(k, items), j) == if k == j then items else []
    decreases |items|
  {
    if |items| > 0 {
      var n := |items| - 1;
      assert Typed(k, items)[..n] == Typed(k, items[..n]);
      OfKindTyped(k, items[..n], j);
      assert items[..n] + [items[n]] == items;
    }
  }

  /** The `n`-th kind's list, filtered by kind `k`. */
  lemma BlockOfKind(obj: CustomObject, n: nat, k: Kind)
    requires n < KindCount
    ensures OfKind(Typed(KindAt(n), ListOf(obj, KindAt(n))), k) == if Rank(k) == n then ListOf(obj, k) else []
  {
    OfKindTyped(KindAt(n), ListOf(obj, KindAt(n)), k);
    RankKindAt(n);
  }

  lemma {:induction false} BlocksOfKind(obj: CustomObject, n: nat, k: Kind)
    requires n <= KindCount
    ensures OfKind(Blocks(obj, n), k) == if Rank(k) < n then ListOf(obj, k) else []
  {
    if n > 0 {
      var block := Typed(KindAt(n - 1), ListOf(obj, KindAt(n - 1)));
      OfKindAppend(Blocks(obj, n - 1), block, k);
      BlocksOfKind(obj, n - 1, k);
      BlockOfKind(obj, n - 1, k);
    }
  }

  /** Within each kind, the flattened list keeps the object's own order and drops nothing. */
  lemma ObjectResourcesOfKind(obj: CustomObject, k: Kind)
    ensures OfKind(ObjectResources(obj), k) == if obj.omit then [] else ListOf(obj, k)
  {
    if !obj.omit {
      BlocksOfKind(obj, KindCount, k);
    }
  }

  lemma {:induction false} BlocksSorted(obj: CustomObject, n: nat)
    requires n <= KindCount
    ensures forall i :: 0 <= i < |Blocks(obj, n)| ==> Rank(Blocks(obj, n)[i].kind) < n
    ensures forall i, j :: 0 <= i < j < |Blocks(obj, n)| ==> Rank(Blocks(obj, n)[i].kind) <= Rank(Blocks(obj, n)[j].kind)
  {
    if n > 0 {
      BlocksSorted(obj, n - 1);
      var front := Blocks(obj, n - 1);
      var block := Typed(KindAt(n - 1), ListOf(obj, KindAt(n - 1)));
      var s := Blocks(obj, n);
      assert s == front + block;
      forall i | |front| <= i < |s| ensures Rank(s[i].kind) == n - 1 {
        assert s[i] == block[i - |front|];
        RankKindAt(n - 1);
      }
      forall i | 0 <= i < |front| ensures Rank(s[i].kind) < n - 1 {
        assert s[i] == front[i];
      }
    }
  }

  /** The flattened list is ordered by kind: PVCs, service accounts, secrets, ..., build configs. */
  lemma ObjectResourcesSorted(obj: CustomObject)
    ensures var s := ObjectResources(obj);
      forall i, j :: 0 <= i < j < |s| ==> Rank(s[i].kind) <= Rank(s[j].kind)
  {
    if !obj.omit {
      BlocksSorted(obj, KindCount);
    }
  }

  /** The resources of a list of custom objects, one object after the other. */
  function AllResources(objs: seq<CustomObject>): seq<TypedResource>
  {
    if |objs| == 0 then [] else AllResources(objs[..|objs| - 1]) + ObjectResources(objs[|objs| - 1])
  }

  lemma {:induction false} AllResourcesAppend(a: seq<CustomObject>, b: seq<CustomObject>)
    ensures AllResources(a + b) == AllResources(a) + AllResources(b)
    decreases |b|
  {
    if |b| > 0 {
      assert (a + b)[..|a + b| - 1] == a + b[..|b| - 1];
      AllResourcesAppend(a, b[..|b| - 1]);
    } else {
      assert a + b == a;
    }
  }

  /** The resources `getKubernetesResources` returns for an environment. */
  function EnvironmentResources(env: Environment): seq<TypedResource>
  {
    ObjectResources(env.console) + ObjectResources(env.smartRouter) + AllResources(env.servers) + AllResources(env.others)
  }

  /** The resources of a list of objects, by one loop in list order. */
  method ListResources(objs: seq<CustomObject>, resources: seq<TypedResource>) returns (r: seq<TypedResource>)
    ensures r == resources + AllResources(objs)
  {
    r := resources;
    for i := 0 to |objs|
      invariant r == resources + AllResources(objs[..i])
    {
      assert objs[..i + 1][..i] == objs[..i];
      var objResources := GetCustomObjectResources(objs[i]);
      r := r + objResources;
    }
    assert objs[..|objs|] == objs;
  }

  /** `getKubernetesResources`: console, smart router, each server, then each other object. */
  method GetKubernetesResources(env: Environment) returns (resources: seq<TypedResource>)
    ensures resources == EnvironmentResources(env)
  {
    var console := GetCustomObjectResources(env.console);
    var smartRouter := GetCustomObjectResources(env.smartRouter);
    resources := console + smartRouter;
    resources := ListResources(env.servers, resources);
    resources := ListResources(env.others, resources);
  }

  /** The resources of one server sit between those of the servers before and after it. */
  lemma ServerResourcesInPlace(servers: seq<CustomObject>, i: nat)
    requires i < |servers|
    ensures AllResources(servers) ==
      AllResources(servers[..i]) + ObjectResources(servers[i]) + AllResources(servers[i + 1..])
  {
    var front, back := servers[..i + 1], servers[i + 1..];
    assert front[..|front| - 1] == servers[..i] && front[|front| - 1] == servers[i];
    calc {
      AllResources(servers);
      { SplitAt(servers, i + 1); }
      AllResources(front + back);
      { AllResourcesAppend(front, back); }
      AllResources(front) + AllResources(back);
      (AllResources(servers[..i]) + ObjectResources(servers[i])) + AllResources(back);
    }
  }

  lemma SplitAt<T>(s: seq<T>, k: nat)
    requires k <= |s|
    ensures s == s[..k] + s[k..]
  {
  }

  /** Lines 95-97: every requested resource gets the custom resource's namespace. */
  method SetNamespaces(requested: array<TypedResource>, namespace: string)
    modifies requested
    ensures forall i :: 0 <= i < requested.Length ==>
      requested[i] == old(requested[i]).(resource := old(requested[i]).resource.(namespace := namespace))
  {
    for index := 0 to requested.Length
      invariant forall i :: 0 <= i < index ==>
        requested[i] == old(requested[i]).(resource := old(requested[i]).resource.(namespace := namespace))
      invariant forall i :: index <= i < requested.Length ==> requested[i] == old(requested[i])
    {
      requested[index] := requested[index].(resource := requested[index].resource.(namespace := namespace));
    }
  }

  // ---------------------------------------------------------------------------------------
  // Secret comparison

  /** A copy of a secret with every data value emptied and every key kept. */
  function BlankData(secret: Resource): Resource
  {
    secret.(data := map k | k in secret.data :: [])
  }

  /** The key loop of `ignoreSecretDataValues` over a deep copy of one secret. */
  method BlankSecretData(secret: Resource) returns (copy: Resource)
    ensures copy == BlankData(secret)
  {
    copy := secret;
    var keys := secret.data.Keys;
    while keys != {}
      invariant keys <= secret.data.Keys && copy.data.Keys == secret.data.Keys
      invariant copy.(data := secret.data) == secret
      invariant forall k :: k in copy.data ==> copy.data[k] == if k in keys then secret.data[k] else []
      decreases keys
    {
      var key :| key in keys;
      copy := copy.(data := copy.data[key := []]);
      keys := keys - {key};
    }
    assert copy.data == BlankData(secret).data;
  }

  /** The secret comparator `ignoreSecretDataValues` installs, around the original one `compare`. */
  method CompareSecrets(compare: (Resource, Resource) -> bool, deployed: Resource, requested: Resource) returns (equal: bool)
    ensures equal == compare(BlankData(deployed), BlankData(requested))
  {
    var secret1 := BlankSecretData(deployed);
    var secret2 := BlankSecretData(requested);
    equal := compare(secret1, secret2);
  }

  /** Two secrets that differ at most in data values. */
  predicate SameButDataValues(a: Resource, b: Resource)
  {
    a.(data := b.data) == b && a.data.Keys == b.data.Keys
  }

  /** Changing data values never changes the verdict of the secret comparator. */
  lemma DataValuesIgnored(compare: (Resource, Resource) -> bool, a: Resource, a2: Resource, b: Resource, b2: Resource)
    requires SameButDataValues(a, a2) && SameButDataValues(b, b2)
    ensures compare(BlankData(a), BlankData(b)) == compare(BlankData(a2), BlankData(b2))
  {
    assert BlankData(a).data == BlankData(a2).data;
    assert BlankData(b).data == BlankData(b2).data;
  }

  /** Over plain equality, secrets compare equal iff they agree on everything but data values. */
  lemma BlankedSecretsEqualIff(a: Resource, b: Resource)
    ensures BlankData(a) == BlankData(b) <==> a.(data := map[]) == b.(data := map[]) && a.data.Keys == b.data.Keys
  {
    if a.(data := map[]) == b.(data := map[]) && a.data.Keys == b.data.Keys {
      assert BlankData(a).data == BlankData(b).data;
    }
    if BlankData(a) == BlankData(b) {
      assert a.data.Keys == BlankData(a).data.Keys;
    }
  }

  // ---------------------------------------------------------------------------------------
  // Spec changes

  /** The loop of lines 187-191: some server differs at an index from `i` on. */
  function ServersDiffer(a: seq<KieServerSet>, b: seq<KieServerSet>, i: nat): (r: bool)
    requires |a| == |b| && i <= |a|
    ensures r <==> exists k :: i <= k < |a| && a[k] != b[k]
    decreases |a| - i
  {
    if i == |a| then false
    else if a[i] != b[i] then true
    else ServersDiffer(a, b, i + 1)
  }

  /**
   * `hasSpecChanges`: the specs differ. The server comparison after line 182 only runs
   * on equal specs, where it never finds a difference.
   */
  function HasSpecChanges(instance: KieAppSpec, cached: KieAppSpec): (changed: bool)
    ensures changed <==> instance != cached
  {
    if instance != cached then true
    else if |instance.objects.servers| > 0 then
      if |instance.objects.servers| != |cached.objects.servers| then true
      else ServersDiffer(instance.objects.servers, cached.objects.servers, 0)
    else false
  }

  // ---------------------------------------------------------------------------------------
  // Image stream tags

  /** An image reference split at ":" into image name and tag. */
  datatype TagReference = TagReference(image: string, tag: string)

  /** Lines 216-220 and 231-235: split at ":", a missing tag meaning "latest"; extra parts are ignored. */
  function ParseTagReference(tagRefName: string): TagReference
  {
    var result := Split(tagRefName, ':');
    if |result| == 1 then TagReference(result[0], "latest") else TagReference(result[0], result[1])
  }

  function TagName(ref: TagReference): string
  {
    ref.image + ":" + ref.tag
  }

  /** A reference without ":" names the "latest" tag of that image. */
  lemma UntaggedMeansLatest(tagRefName: string)
    requires ':' !in tagRefName
    ensures TagName(ParseTagReference(tagRefName)) == tagRefName + ":latest"
  {
    SplitNoSeparator(tagRefName, ':');
  }

  /** A tagged reference is kept as it is. */
  lemma TaggedKept(image: string, tag: string)
    requires ':' !in image && ':' !in tag
    ensures ParseTagReference(image + ":" + tag) == TagReference(image, tag)
    ensures TagName(ParseTagReference(image + ":" + tag)) == image + ":" + tag
  {
    assert [image, tag][1..] == [tag];
    assert Join([image, tag], ':') == image + ":" + tag;
    SplitJoin([image, tag], ':');
  }

  /** The image stream tag `createLocalImageTag` creates and the registry image it points at. */
  datatype LocalImageTag = LocalImageTag(tagName: string, registryURL: string, insecure: bool)

  /**
   * The computation in `createLocalImageTag`. `product` is the environment's product,
   * `registryEnv` what REGISTRY holds (the default registry when unset), `insecureEnv` what
   * INSECURE says. None: the CR's version is empty, so reading its first byte panics.
   */
  function CreateLocalImageTag(c: Constants, spec: KieAppSpec, product: string, tagRefName: string,
                               registryEnv: string, insecureEnv: bool): (r: Option<LocalImageTag>)
    ensures r.None? <==> spec.commonConfig.version == ""
    ensures r.Some? ==> r.value.tagName == TagName(ParseTagReference(tagRefName))
    ensures r.Some? ==> r.value.insecure == if spec.imageRegistry.Some? then spec.imageRegistry.value.insecure else insecureEnv
  {
    var ref := ParseTagReference(tagRefName);
    var tagName := TagName(ref);
    if spec.commonConfig.version == "" then None
    else
      var insecure := if spec.imageRegistry.Some? then spec.imageRegistry.value.insecure else insecureEnv;
      var (registryAddress, regContext, imageName) := ImageLocation(c, spec, product, ref, registryEnv);
      Some(LocalImageTag(tagName, registryAddress + "/" + regContext + "/" + imageName, insecure))
  }

  /** Lines 251-263: the registry, the context and the image name the local tag points at. */
  function ImageLocation(c: Constants, spec: KieAppSpec, product: string, ref: TagReference, registryEnv: string)
    : (string, string, string)
    requires spec.commonConfig.version != ""
  {
    if Contains(ref.image, "datagrid") then (c.imageRegistry, "jboss-datagrid-7", TagName(ref))
    else if Contains(ref.image, "amq-broker-7") then (c.imageRegistry, "amq-broker-7", TagName(ref))
    else if IsDatabase(ref.image) then
      (c.imageRegistry, "rhscl", ref.image + "-" + Digits(ref.tag) + "-rhel7:latest")
    else (RegistryOf(spec, registryEnv), product + "-" + spec.commonConfig.version[..1], TagName(ref))
  }

  predicate IsDatabase(image: string)
  {
    image == "postgresql" || image == "mysql"
  }

  /** Images pulled from the default registry whatever the CR says. */
  predicate SharedImage(image: string)
  {
    Contains(image, "datagrid") || Contains(image, "amq-broker-7") || IsDatabase(image)
  }

  /** The CR's registry, or REGISTRY when the CR names none. */
  function RegistryOf(spec: KieAppSpec, registryEnv: string): string
  {
    if spec.imageRegistry.Some? && spec.imageRegistry.value.registry != "" then spec.imageRegistry.value.registry
    else registryEnv
  }

  /**
   * An ordinary image is pulled from the CR's registry (else REGISTRY) under the product
   * and major version, e.g. registry.redhat.io/rhpam-7/rhpam75-businesscentral-openshift:1.0.
   */
  lemma OrdinaryImageURL(c: Constants, spec: KieAppSpec, product: string, image: string, tag: string,
                         registryEnv: string, insecureEnv: bool)
    requires spec.commonConfig.version != "" && ':' !in image && ':' !in tag && !SharedImage(image)
    ensures CreateLocalImageTag(c, spec, product, image + ":" + tag, registryEnv, insecureEnv).value.registryURL
      == RegistryOf(spec, registryEnv) + "/" + product + "-" + spec.commonConfig.version[..1] + "/" + image + ":" + tag
  {
    TaggedKept(image, tag);
    var context := product + "-" + spec.commonConfig.version[..1];
    assert RegistryOf(spec, registryEnv) + "/" + context + "/" + (image + ":" + tag)
      == RegistryOf(spec, registryEnv) + "/" + product + "-" + spec.commonConfig.version[..1] + "/" + image + ":" + tag;
  }

  /** A data grid image comes from the default registry's jboss-datagrid-7 context, under its own tag name. */
  lemma DatagridImageURL(c: Constants, spec: KieAppSpec, product: string, tagRefName: string,
                         registryEnv: string, insecureEnv: bool)
    requires spec.commonConfig.version != "" && Contains(ParseTagReference(tagRefName).image, "datagrid")
    ensures CreateLocalImageTag(c, spec, product, tagRefName, registryEnv, insecureEnv).value.registryURL
      == c.imageRegistry + "/jboss-datagrid-7/" + TagName(ParseTagReference(tagRefName))
  {
  }

  /** A database image comes from rhscl, renamed after the digits of its tag, tag latest. */
  lemma DatabaseImageURL(c: Constants, spec: KieAppSpec, product: string, tagRefName: string,
                         registryEnv: string, insecureEnv: bool)
    requires spec.commonConfig.version != "" && IsDatabase(ParseTagReference(tagRefName).image)
    ensures var ref := ParseTagReference(tagRefName);
      CreateLocalImageTag(c, spec, product, tagRefName, registryEnv, insecureEnv).value.registryURL
        == c.imageRegistry + "/rhscl/" + ref.image + "-" + Digits(ref.tag) + "-rhel7:latest"
  {
    var ref := ParseTagReference(tagRefName);
    DatabaseNotShared(ref.image);
    DatabaseLocation(c, spec, product, ref, registryEnv);
  }

  /** An AMQ broker image comes from the default registry's amq-broker-7 context, under its own tag name. */
  lemma AmqBrokerImageURL(c: Constants, spec: KieAppSpec, product: string, tagRefName: string,
                          registryEnv: string, insecureEnv: bool)
    requires spec.commonConfig.version != ""
    requires !Contains(ParseTagReference(tagRefName).image, "datagrid")
    requires Contains(ParseTagReference(tagRefName).image, "amq-broker-7")
    ensures CreateLocalImageTag(c, spec, product, tagRefName, registryEnv, insecureEnv).value.registryURL
      == c.imageRegistry + "/amq-broker-7/" + TagName(ParseTagReference(tagRefName))
  {
  }

  lemma DatabaseLocation(c: Constants, spec: KieAppSpec, product: string, ref: TagReference, registryEnv: string)
    requires spec.commonConfig.version != ""
    requires !Contains(ref.image, "datagrid") && !Contains(ref.image, "amq-broker-7") && IsDatabase(ref.image)
    ensures ImageLocation(c, spec, product, ref, registryEnv)
      == (c.imageRegistry, "rhscl", ref.image + "-" + Digits(ref.tag) + "-rhel7:latest")
  {
  }

  lemma DatabaseNotShared(image: string)
    requires IsDatabase(image)
    ensures !Contains(image, "datagrid") && !Contains(image, "amq-broker-7")
  {
    NotContainsChar(image, "datagrid", 'd');
    NotContainsChar(image, "amq-broker-7", '7');
  }

  /** A text without some character of `sub` does not contain `sub`. */
  lemma {:induction false} NotContainsChar(s: string, sub: string, ch: char)
    requires ch in sub && ch !in s
    ensures !Contains(s, sub)
    decreases |s|
  {
    if |sub| <= |s| {
      assert s[..|sub|] != sub by {
        var k :| 0 <= k < |sub| && sub[k] == ch;
        assert s[..|sub|][k] == s[k];
      }
      if |s| > 0 {
        NotContainsChar(s[1..], sub, ch);
      }
    }
  }

  // ---------------------------------------------------------------------------------------
  // Keystore secrets

  /** The host of the first route carrying TLS; "" when there is none. */
  function FirstTLSHost(routes: seq<Resource>, routeHost: Resource -> string): (host: string)
    ensures (forall i :: 0 <= i < |routes| ==> !routes[i].tls) ==> host == ""
    ensures (exists i :: 0 <= i < |routes| && routes[i].tls) ==>
      exists i :: 0 <= i < |routes| && routes[i].tls && host == routeHost(routes[i])
        && forall j :: 0 <= j < i ==> !routes[j].tls
  {
    if |routes| == 0 then ""
    else if routes[0].tls then routeHost(routes[0])
    else
      var host := FirstTLSHost(routes[1..], routeHost);
      assert forall i :: 1 <= i < |routes| ==> routes[i] == routes[1..][i - 1];
      host
  }

  /** The keystore's common name: the first TLS route's host, else the application name. */
  function CommonName(spec: KieAppSpec, routes: seq<Resource>, routeHost: Resource -> string): (cn: string)
    ensures (forall i :: 0 <= i < |routes| ==> !routes[i].tls) ==> cn == spec.commonConfig.applicationName
    ensures forall i :: (0 <= i < |routes| && routes[i].tls && routeHost(routes[i]) != ""
      && forall j :: 0 <= j < i ==> !routes[j].tls) ==> cn == routeHost(routes[i])
  {
    var host := FirstTLSHost(routes, routeHost);
    if host == "" then spec.commonConfig.applicationName else host
  }

  function KeystoreSecretName(c: Constants, base: string): string
  {
    c.keystoreSecretBefore + base + c.keystoreSecretAfter
  }

  /** `generateKeystoreSecret`; `keystore` stands for keystore generation from a common name and password. */
  function GenerateKeystoreSecret(spec: KieAppSpec, secretName: string, keystoreCN: string,
                                  keystore: (string, string) -> seq<bv8>): (r: Resource)
    ensures r.name == secretName && r.namespace == "" && !r.tls
    ensures r.labels.Keys == {"app", "application"}
    ensures forall l :: l in r.labels ==> r.labels[l] == spec.commonConfig.applicationName
    ensures r.data.Keys == {"keystore.jks"}
    ensures r.data["keystore.jks"] == keystore(keystoreCN, spec.commonConfig.keyStorePassword)
  {
    var app := spec.commonConfig.applicationName;
    Resource(secretName, "", map["app" := app, "application" := app], map[], map[],
      map["keystore.jks" := keystore(keystoreCN, spec.commonConfig.keyStorePassword)], false)
  }

  /** A console or smart router after keystore insertion; `role` is "businesscentral" or "smartrouter". */
  function WithKeystore(c: Constants, spec: KieAppSpec, obj: CustomObject, keystoreSecret: string, role: string,
                        routeHost: Resource -> string, keystore: (string, string) -> seq<bv8>): (r: CustomObject)
    ensures r.omit == obj.omit && r.(secrets := obj.secrets) == obj
    ensures |r.secrets| == |obj.secrets| + (if !obj.omit && keystoreSecret == "" then 1 else 0)
    ensures r.secrets[..|obj.secrets|] == obj.secrets
    ensures |r.secrets| > |obj.secrets| ==>
      r.secrets[|obj.secrets|].name == KeystoreSecretName(c, spec.commonConfig.applicationName + "-" + role)
    ensures |r.secrets| > |obj.secrets| ==>
      r.secrets[|obj.secrets|] == GenerateKeystoreSecret(spec,
        KeystoreSecretName(c, spec.commonConfig.applicationName + "-" + role), CommonName(spec, obj.routes, routeHost), keystore)
  {
    if obj.omit || keystoreSecret != "" then obj
    else
      var cn := CommonName(spec, obj.routes, routeHost);
      obj.(secrets := obj.secrets + [GenerateKeystoreSecret(spec,
        KeystoreSecretName(c, spec.commonConfig.applicationName + "-" + role), cn, keystore)])
  }

  /** The `GetServerSet` facts the server loop reads: the set's keystore secret and the deployment name. */
  datatype ServerSetInfo = ServerSetInfo(keystoreSecret: string, deploymentName: string)

  /** Server `i` after keystore insertion. */
  function ServerWithKeystore(c: Constants, spec: KieAppSpec, server: CustomObject, info: ServerSetInfo,
                              routeHost: Resource -> string, keystore: (string, string) -> seq<bv8>): (r: CustomObject)
    ensures r.(secrets := server.secrets) == server
    ensures |r.secrets| == |server.secrets| + (if info.keystoreSecret == "" then 1 else 0)
    ensures r.secrets[..|server.secrets|] == server.secrets
    ensures info.keystoreSecret == "" ==> r.secrets[|server.secrets|].name == KeystoreSecretName(c, info.deploymentName)
    ensures info.keystoreSecret == "" ==>
      r.secrets[|server.secrets|] == GenerateKeystoreSecret(spec,
        KeystoreSecretName(c, info.deploymentName), CommonName(spec, server.routes, routeHost), keystore)
  {
    if info.keystoreSecret != "" then server
    else
      server.(secrets := server.secrets + [GenerateKeystoreSecret(spec,
        KeystoreSecretName(c, info.deploymentName), CommonName(spec, server.routes, routeHost), keystore)])
  }

  /** The index of the first omitted server, or the number of servers. */
  function FirstOmitted(servers: seq<CustomObject>): (n: nat)
    ensures n <= |servers| && (n < |servers| ==> servers[n].omit)
    ensures forall j :: 0 <= j < n ==> !servers[j].omit
  {
    if |servers| == 0 || servers[0].omit then 0
    else
      var n := FirstOmitted(servers[1..]);
      assert forall j :: 1 <= j <= n ==> servers[j] == servers[1..][j - 1];
      1 + n
  }

  /** The servers after the loop of lines 323-349. */
  function ServersWithKeystores(c: Constants, spec: KieAppSpec, servers: seq<CustomObject>, serverSet: nat -> ServerSetInfo,
                                routeHost: Resource -> string, keystore: (string, string) -> seq<bv8>): (r: seq<CustomObject>)
    ensures |r| == |servers|
    ensures forall i :: 0 <= i < |r| ==>
      r[i] == if i < FirstOmitted(servers) then ServerWithKeystore(c, spec, servers[i], serverSet(i), routeHost, keystore) else servers[i]
  {
    var n := FirstOmitted(servers);
    seq(|servers|, i requires 0 <= i < |servers| =>
      if i < n then ServerWithKeystore(c, spec, servers[i], serverSet(i), routeHost, keystore) else servers[i])
  }

  /** Lines 323-349: each server up to the first omitted one, written back in place. */
  method SetServerKeystores(c: Constants, spec: KieAppSpec, servers: array<CustomObject>, serverSet: nat -> ServerSetInfo,
                            routeHost: Resource -> string, keystore: (string, string) -> seq<bv8>)
    modifies servers
    ensures servers[..] == ServersWithKeystores(c, spec, old(servers[..]), serverSet, routeHost, keystore)
  {
    ghost var original := servers[..];
    ghost var expected := ServersWithKeystores(c, spec, original, serverSet, routeHost, keystore);
    var i := 0;
    while i < servers.Length
      invariant 0 <= i <= FirstOmitted(original)
      invariant forall j :: 0 <= j < i ==> servers[j] == expected[j]
      invariant forall j :: i <= j < servers.Length ==> servers[j] == original[j]
    {
      var server := servers[i];
      if server.omit {
        break;
      }
      servers[i] := ServerWithKeystore(c, spec, server, serverSet(i), routeHost, keystore);
      assert servers[i] == expected[i];
      i := i + 1;
    }
    assert i == FirstOmitted(original);
    assert servers[..] == expected;
  }

  /** The status console host: https and the TLS route's host, else http and the application name. */
  function ConsoleHost(spec: KieAppSpec, console: CustomObject, routeHost: Resource -> string): Option<string>
  {
    if console.omit then None
    else
      var host := FirstTLSHost(console.routes, routeHost);
      if host == "" then Some("http://" + spec.commonConfig.applicationName) else Some("https://" + host)
  }

  /**
   * The keystore rules of `setEnvironmentProperties`: the console and the smart router get
   * a keystore secret unless omitted or given one; servers get one unless their set names
   * one, and the loop stops at the first omitted server. Returns the environment before
   * `ConsolidateObjects`, and the console host put in the status (None: left as it was).
   */
  method SetEnvironmentProperties(c: Constants, spec: KieAppSpec, env: Environment, serverSet: nat -> ServerSetInfo,
                                  routeHost: Resource -> string, keystore: (string, string) -> seq<bv8>)
    returns (r: Environment, consoleHost: Option<string>)
    ensures consoleHost == ConsoleHost(spec, env.console, routeHost)
    ensures r == env.(
      console := WithKeystore(c, spec, env.console, spec.objects.consoleKeystoreSecret, "businesscentral", routeHost, keystore),
      servers := ServersWithKeystores(c, spec, env.servers, serverSet, routeHost, keystore),
      smartRouter := WithKeystore(c, spec, env.smartRouter, spec.objects.smartRouterKeystoreSecret, "smartrouter", routeHost, keystore))
  {
    r := env;
    consoleHost := ConsoleHost(spec, env.console, routeHost);
    r := r.(console := WithKeystore(c, spec, env.console, spec.objects.consoleKeystoreSecret, "businesscentral", routeHost, keystore));
    var servers := new CustomObject[|env.servers|](i requires 0 <= i < |env.servers| => env.servers[i]);
    assert servers[..] == env.servers;
    SetServerKeystores(c, spec, servers, serverSet, routeHost, keystore);
    r := r.(servers := servers[..]);
    r := r.(smartRouter := WithKeystore(c, spec, env.smartRouter, spec.objects.smartRouterKeystoreSecret, "smartrouter", routeHost, keystore));
  }

  /**
   * Servers before the first omitted one gain exactly one secret, named after their
   * deployment, iff their set names no keystore secret; the omitted server and every later
   * one, omitted or not, are left as they were.
   */
  lemma ServerKeystoreRule(c: Constants, spec: KieAppSpec, servers: seq<CustomObject>, serverSet: nat -> ServerSetInfo,
                           routeHost: Resource -> string, keystore: (string, string) -> seq<bv8>, i: nat)
    requires i < |servers|
    ensures var r := ServersWithKeystores(c, spec, servers, serverSet, routeHost, keystore);
      && (i >= FirstOmitted(servers) || serverSet(i).keystoreSecret != "" <==> r[i] == servers[i])
      && (i < FirstOmitted(servers) && serverSet(i).keystoreSecret == "" ==>
            r[i].secrets == servers[i].secrets + [r[i].secrets[|servers[i].secrets|]]
            && r[i].secrets[|servers[i].secrets|].name == KeystoreSecretName(c, serverSet(i).deploymentName))
  {
    var r := ServersWithKeystores(c, spec, servers, serverSet, routeHost, keystore);
    if i < FirstOmitted(servers) && serverSet(i).keystoreSecret == "" {
      assert r[i].secrets == servers[i].secrets + [r[i].secrets[|servers[i].secrets|]];
      assert |r[i].secrets| != |servers[i].secrets|;
    }
  }

  /** A server after an omitted one gets no keystore secret even when it is not omitted itself. */
  lemma ServerAfterOmittedUntouched(c: Constants, spec: KieAppSpec, a: CustomObject, b: CustomObject,
                                    serverSet: nat -> ServerSetInfo, routeHost: Resource -> string,
                                    keystore: (string, string) -> seq<bv8>)
    requires a.omit && !b.omit
    ensures ServersWithKeystores(c, spec, [a, b], serverSet, routeHost, keystore)[1] == b
  {
    assert FirstOmitted([a, b]) == 0;
  }

  // ---------------------------------------------------------------------------------------
  // Bundled config maps

  datatype ConfigMap = ConfigMap(name: string, annotations: map<string, string>,
                                 data: map<string, string>, binaryData: map<string, seq<bv8>>)

  /** What reading a config map by name finds. */
  datatype Lookup = Found(cm: ConfigMap) | Missing | ReadError

  /** What `CreateConfigMaps` writes to the cluster. */
  datatype ConfigMapWrite = Create(cm: ConfigMap) | Update(cm: ConfigMap)

  /** Line 594-598: maps of a "testdata" directory (second "-"-segment) are not created. */
  predicate IsTestData(name: string)
  {
    var result := Split(name, '-');
    |result| > 1 && result[1] == "testdata"
  }

  /** A config map of the prefix's testdata directory is a test map. */
  lemma TestDataDirectory(prefix: string, rest: string)
    requires '-' !in prefix
    ensures IsTestData(prefix + "-testdata" + rest) <==> |rest| == 0 || rest[0] == '-'
  {
    var piece := "testdata";
    assert prefix + "-testdata" + rest == prefix + ['-'] + (piece + rest);
    SplitAfterPiece(prefix, '-', piece + rest);
    assert '-' !in piece;
    FirstPiece(piece, rest, '-');
  }

  /** The first piece of `p + t` is `p` exactly when `t` is empty or starts with the separator. */
  lemma FirstPiece(p: string, t: string, c: char)
    requires c !in p
    ensures Split(p + t, c)[0] == p <==> |t| == 0 || t[0] == c
  {
    if |t| == 0 {
      FirstPieceAtEnd(p, t, c);
    } else if t[0] == c {
      FirstPieceAtSeparator(p, t, c);
    } else {
      PieceExtends(p, t, c);
    }
  }

  lemma FirstPieceAtEnd(p: string, t: string, c: char)
    requires c !in p && |t| == 0
    ensures Split(p + t, c)[0] == p
  {
    assert p + t == p;
    SplitNoSeparator(p, c);
  }

  lemma FirstPieceAtSeparator(p: string, t: string, c: char)
    requires c !in p && |t| > 0 && t[0] == c
    ensures Split(p + t, c)[0] == p
  {
    assert p + t == p + [c] + t[1..];
    SplitAfterPiece(p, c, t[1..]);
  }

  /** A separator-free start followed by a non-separator makes the first piece longer than that start. */
  lemma {:induction false} PieceExtends(p: string, t: string, c: char)
    requires c !in p && |t| > 0 && t[0] != c
    ensures Split(p + t, c)[0] != p
    decreases |p|
  {
    if |p| == 0 {
      assert p + t == t;
      assert |Split(t, c)[0]| > 0;
    } else {
      assert (p + t)[1..] == p[1..] + t;
      assert c !in p[1..];
      PieceExtends(p[1..], t, c);
      assert Split(p + t, c)[0] == [p[0]] + Split(p[1..] + t, c)[0];
      assert p == [p[0]] + p[1..];
    }
  }

  /** Lines 602-607: name-bak, or name-version-bak when the map carries the operator's group annotation. */
  function BackupName(cm: ConfigMap, group: string): (name: string)
    ensures group in cm.annotations ==> name == cm.name + "-" + cm.annotations[group] + "-bak"
    ensures group !in cm.annotations ==> name == cm.name + "-bak"
    ensures |name| > |cm.name|
  {
    if group in cm.annotations then
      var parts := [cm.name, cm.annotations[group], "bak"];
      var v := cm.annotations[group];
      assert parts[1..] == [v, "bak"] && parts[1..][1..] == ["bak"];
      assert Join(parts[1..], '-') == v + "-bak";
      assert cm.name + "-" + (v + "-bak") == cm.name + "-" + v + "-bak";
      Join(parts, '-')
    else
      var parts := [cm.name, "bak"];
      assert parts[1..] == ["bak"];
      assert Join(parts[1..], '-') == "bak";
      assert cm.name + "-" + "bak" == cm.name + "-bak";
      Join(parts, '-')
  }

  /** The writes `CreateConfigMaps` makes for one bundled config map, given what reads find. */
  function ConfigMapWrites(cm: ConfigMap, group: string, lookup: string -> Lookup): seq<ConfigMapWrite>
  {
    if IsTestData(cm.name) then []
    else match lookup(cm.name)
      case Missing => [Create(cm)]
      case ReadError => []
      case Found(existing) =>
        if existing.data == cm.data && existing.binaryData == cm.binaryData then []
        else
          var backup := existing.(name := BackupName(cm, group));
          match lookup(backup.name)
          case Missing => [Create(backup)]
          case ReadError => []
          case Found(existingBackup) =>
            if backup.data == existingBackup.data && backup.binaryData == existingBackup.binaryData then []
            else [Update(existingBackup.(data := backup.data))]
  }

  function AllConfigMapWrites(cms: seq<ConfigMap>, group: string, lookup: string -> Lookup): seq<ConfigMapWrite>
  {
    if |cms| == 0 then [] else AllConfigMapWrites(cms[..|cms| - 1], group, lookup) + ConfigMapWrites(cms[|cms| - 1], group, lookup)
  }

  /** `CreateConfigMaps`: the loop over the bundled config maps. */
  method CreateConfigMaps(configMaps: seq<ConfigMap>, group: string, lookup: string -> Lookup) returns (writes: seq<ConfigMapWrite>)
    ensures writes == AllConfigMapWrites(configMaps, group, lookup)
  {
    writes := [];
    for i := 0 to |configMaps|
      invariant writes == AllConfigMapWrites(configMaps[..i], group, lookup)
    {
      assert configMaps[..i + 1][..i] == configMaps[..i];
      var configMap := configMaps[i];
      var testDir := false;
      var result := Split(configMap.name, '-');
      if |result| > 1 {
        if result[1] == "testdata" {
          testDir := true;
        }
      }
      if !testDir {
        writes := writes + ConfigMapWrites(configMap, group, lookup);
      }
    }
    assert configMaps[..|configMaps|] == configMaps;
  }

  /**
   * Test maps are never written; a missing map is created as bundled; an existing map with
   * other contents is never overwritten, only backed up under a longer name, so the backup
   * never replaces it.
   */
  lemma ConfigMapWritesRule(cm: ConfigMap, group: string, lookup: string -> Lookup)
    requires forall n :: lookup(n).Found? ==> lookup(n).cm.name == n
    ensures IsTestData(cm.name) ==> ConfigMapWrites(cm, group, lookup) == []
    ensures !IsTestData(cm.name) && lookup(cm.name).Missing? ==> ConfigMapWrites(cm, group, lookup) == [Create(cm)]
    ensures lookup(cm.name).Found? ==>
      forall w :: w in ConfigMapWrites(cm, group, lookup) ==> w.cm.name == BackupName(cm, group) && w.cm.name != cm.name
  {
    if lookup(cm.name).Found? {
      var existing := lookup(cm.name).cm;
      var backup := existing.(name := BackupName(cm, group));
      assert backup.name != cm.name;
    }
  }
}

=== FILE: defaults.dfy ===
/**
 * The template-input defaulting of `defaults/defaults.go`: which config map a template file
 * lives in, filling passwords and application constants, kie-server identifiers and image
 * references, build settings and webhook secrets, and whether templates are read from the
 * operator's embedded files.
 *
 * Random passwords (`shared.GeneratePassword`) and the process environment enter as
 * parameters; the `constants` package enters as a `Constants` record.
 */
module Defaults {
  import opened Wrappers
  import opened KieTypes
  import opened Strings

  datatype ConsoleTemplate = ConsoleTemplate(name: string, imageName: string, probePage: string)

  const EmptyConsoleTemplate := ConsoleTemplate("", "", "")

  datatype BuildTemplate = BuildTemplate(
    from: ObjectReference,
    gitSource: GitSource,
    gitHubWebhookSecret: string,
    genericWebhookSecret: string,
    kieServerContainerDeployment: string,
    mavenMirrorURL: string,
    artifactDir: string)

  const NoReference := ObjectReference("", "", "")
  const EmptyBuildTemplate := BuildTemplate(NoReference, GitSource("", "", ""), "", "", "", "", "")

  datatype ServerTemplate = ServerTemplate(kieServerID: string, from: ObjectReference, build: BuildTemplate)

  /** `getConsoleTemplate`: the console settings of the CR's environment; empty for an unknown one. */
  function GetConsoleTemplate(c: Constants, environment: string): (t: ConsoleTemplate)
    ensures environment !in c.environmentConstants ==> t == EmptyConsoleTemplate
    ensures environment in c.environmentConstants ==>
      var a := c.environmentConstants[environment];
      t.name == a.prefix && t.imageName == a.imageName && t.probePage == a.consoleProbePage
  {
    if environment !in c.environmentConstants then EmptyConsoleTemplate
    else
      var a := c.environmentConstants[environment];
      ConsoleTemplate(a.prefix, a.imageName, a.consoleProbePage)
  }

  // ---------------------------------------------------------------------------------------
  // Images and identifiers

  /** `getDefaultKieServerImage`: the given reference, or the product's kie-server image stream tag. */
  function GetDefaultKieServerImage(c: Constants, config: CommonConfig, from: Option<ObjectReference>): (r: ObjectReference)
    ensures from.Some? ==> r == from.value
    ensures from.None? ==>
      && r.kind == "ImageStreamTag" && r.namespace == c.imageStreamNamespace
      && r.name == config.product + config.version + "-kieserver-openshift:" + c.imageStreamTag
  {
    if from.Some? then from.value
    else
      ObjectReference("ImageStreamTag",
        config.product + config.version + "-kieserver-openshift:" + c.imageStreamTag,
        c.imageStreamNamespace)
  }

  /** The `%v-kieserver-%v` identifier of the `index`-th server of CR `crName`. */
  function KieServerID(crName: string, index: nat): string
  {
    crName + "-kieserver-" + NatToString(index)
  }

  /** Servers of one CR get pairwise distinct identifiers. */
  lemma KieServerIDInjective(crName: string, i: nat, j: nat)
    requires KieServerID(crName, i) == KieServerID(crName, j)
    ensures i == j
  {
    var p := crName + "-kieserver-";
    assert NatToString(i) == KieServerID(crName, i)[|p|..];
    assert NatToString(j) == KieServerID(crName, j)[|p|..];
    NatToStringInjective(i, j);
  }

  /**
   * `getKieServerImageForBuild`: the image stream tag a source build of server `index`
   * produces: the `latest` tag of the stream named like the server of that index in an
   * application's own CR, kept in the CR's own namespace.
   */
  function GetKieServerImageForBuild(config: CommonConfig, index: nat): (r: ObjectReference)
    ensures r.kind == "ImageStreamTag" && r.namespace == ""
    ensures r.name == KieServerID(config.applicationName, index) + ":latest"
  {
    ObjectReference("ImageStreamTag", config.applicationName + "-kieserver-" + NatToString(index) + ":latest", "")
  }

  /** Different servers of one application build to different image stream tags. */
  lemma BuildImagesDistinct(config: CommonConfig, i: nat, j: nat)
    requires i != j
    ensures GetKieServerImageForBuild(config, i) != GetKieServerImageForBuild(config, j)
  {
    if GetKieServerImageForBuild(config, i) == GetKieServerImageForBuild(config, j) {
      var p := config.applicationName + "-kieserver-";
      var a, b := p + NatToString(i) + ":latest", p + NatToString(j) + ":latest";
      assert a[|p|..|a| - 7] == NatToString(i);
      assert b[|p|..|b| - 7] == NatToString(j);
      NatToStringInjective(i, j);
    }
  }

  // ---------------------------------------------------------------------------------------
  // Builds

  /**
   * `getWebhookSecret`: the secret of the first webhook of the requested type; without one,
   * a freshly generated password (`generated`).
   */
  function GetWebhookSecret(webhookType: string, webhooks: seq<WebhookSecret>, generated: string): (secret: string)
    ensures (forall i :: 0 <= i < |webhooks| ==> webhooks[i].webhookType != webhookType) ==> secret == generated
    ensures (exists i :: 0 <= i < |webhooks| && webhooks[i].webhookType == webhookType) ==>
      exists i :: 0 <= i < |webhooks| && webhooks[i].webhookType == webhookType && secret == webhooks[i].secret
        && forall j :: 0 <= j < i ==> webhooks[j].webhookType != webhookType
    decreases |webhooks|
  {
    if |webhooks| == 0 then generated
    else if webhooks[0].webhookType == webhookType then webhooks[0].secret
    else
      var r := GetWebhookSecret(webhookType, webhooks[1..], generated);
      assert forall i :: 1 <= i < |webhooks| ==> webhooks[i] == webhooks[1..][i - 1];
      r
  }

  /**
   * `getBuildConfig`: nothing for a server without a build; otherwise the build's source,
   * maven and artifact settings, its GitHub and generic webhook secrets and its base image.
   */
  function GetBuildConfig(c: Constants, config: CommonConfig, build: Option<BuildObject>,
                          gitHubGenerated: string, genericGenerated: string): (t: BuildTemplate)
    ensures build.None? ==> t == EmptyBuildTemplate
    ensures build.Some? ==>
      && t.gitSource == build.value.gitSource
      && t.gitHubWebhookSecret == GetWebhookSecret("GitHub", build.value.webhooks, gitHubGenerated)
      && t.genericWebhookSecret == GetWebhookSecret("Generic", build.value.webhooks, genericGenerated)
      && t.kieServerContainerDeployment == build.value.kieServerContainerDeployment
      && t.mavenMirrorURL == build.value.mavenMirrorURL
      && t.artifactDir == build.value.artifactDir
      && t.from == GetDefaultKieServerImage(c, config, build.value.from)
  {
    if build.None? then EmptyBuildTemplate
    else
      var b := build.value;
      BuildTemplate(
        GetDefaultKieServerImage(c, config, b.from),
        b.gitSource,
        GetWebhookSecret("GitHub", b.webhooks, gitHubGenerated),
        GetWebhookSecret("Generic", b.webhooks, genericGenerated),
        b.kieServerContainerDeployment,
        b.mavenMirrorURL,
        b.artifactDir)
  }

  // ---------------------------------------------------------------------------------------
  // Server templates

  /** The shared server entry, defaulted to `DefaultKieDeployments` deployments when the CR has none. */
  function DefaultedServer(c: Constants, spec: KieAppSpec): CommonKieServerSet
  {
    if spec.objects.server.Some? then spec.objects.server.value
    else CommonKieServerSet(c.defaultKieDeployments, None)
  }

  /** The number of templates the shared entry yields: its deployments, none when that is negative. */
  function CommonServerCount(c: Constants, spec: KieAppSpec): nat
  {
    var n := DefaultedServer(c, spec).deployments;
    if n < 0 then 0 else n
  }

  /** The template of the `i`-th deployment of the shared server entry. */
  function CommonServerTemplate(c: Constants, crName: string, config: CommonConfig, server: CommonKieServerSet, i: nat): ServerTemplate
  {
    ServerTemplate(KieServerID(crName, i), GetDefaultKieServerImage(c, config, server.from), EmptyBuildTemplate)
  }

  /** The template of `spec.objects.servers[i]`; `generated` gives the two webhook fallbacks. */
  function ServerSetTemplate(c: Constants, crName: string, config: CommonConfig, server: KieServerSet, i: nat,
                             generated: (string, string)): ServerTemplate
  {
    ServerTemplate(
      if |server.name| > 0 then server.name else KieServerID(crName, i),
      if server.build.Some? then GetKieServerImageForBuild(config, i) else GetDefaultKieServerImage(c, config, server.from),
      GetBuildConfig(c, config, server.build, generated.0, generated.1))
  }

  /**
   * Lines 133-151: one template per deployment of the shared server entry, defaulting that
   * entry in the returned spec when it was absent.
   */
  method CommonServerTemplates(c: Constants, crName: string, spec: KieAppSpec, config: CommonConfig)
    returns (servers: seq<ServerTemplate>, newSpec: KieAppSpec)
    ensures newSpec == spec.(objects := spec.objects.(server := Some(DefaultedServer(c, spec))))
    ensures |servers| == CommonServerCount(c, spec)
    ensures forall i :: 0 <= i < |servers| ==>
      servers[i] == CommonServerTemplate(c, crName, config, DefaultedServer(c, spec), i)
  {
    newSpec := spec;
    if newSpec.objects.server.None? {
      newSpec := newSpec.(objects := newSpec.objects.(server := Some(CommonKieServerSet(c.defaultKieDeployments, None))));
    }
    var server := newSpec.objects.server.value;
    servers := [];
    var i := 0;
    while i < server.deployments
      invariant 0 <= i && (i <= server.deployments || i == 0)
      invariant |servers| == i
      invariant forall k :: 0 <= k < i ==> servers[k] == CommonServerTemplate(c, crName, config, server, k)
    {
      servers := servers + [ServerTemplate(KieServerID(crName, i), GetDefaultKieServerImage(c, config, server.from), EmptyBuildTemplate)];
      i := i + 1;
    }
  }

  /** Lines 117-131: one template per entry of `spec.objects.servers`. */
  method ServerSetTemplates(c: Constants, crName: string, spec: KieAppSpec, config: CommonConfig,
                            generated: nat -> (string, string))
    returns (servers: seq<ServerTemplate>)
    ensures |servers| == |spec.objects.servers|
    ensures forall i :: 0 <= i < |servers| ==>
      servers[i] == ServerSetTemplate(c, crName, config, spec.objects.servers[i], i, generated(i))
  {
    servers := [];
    for i := 0 to |spec.objects.servers|
      invariant |servers| == i
      invariant forall k :: 0 <= k < i ==>
        servers[k] == ServerSetTemplate(c, crName, config, spec.objects.servers[k], k, generated(k))
    {
      var server := spec.objects.servers[i];
      var kieServerID := KieServerID(crName, i);
      if |server.name| > 0 {
        kieServerID := server.name;
      }
      var build := GetBuildConfig(c, config, server.build, generated(i).0, generated(i).1);
      var from;
      if server.build.Some? {
        from := GetKieServerImageForBuild(config, i);
      } else {
        from := GetDefaultKieServerImage(c, config, server.from);
      }
      servers := servers + [ServerTemplate(kieServerID, from, build)];
    }
  }

  /** Line 113 as written: any non-empty `servers` list is refused. */
  predicate ServersConfigRejectedAsWritten(spec: KieAppSpec)
  {
    |spec.objects.servers| > 0
  }

  /** The check the error message describes: `server` and `servers` must not both be given. */
  predicate ServersConfigRejected(spec: KieAppSpec)
  {
    |spec.objects.servers| > 0 && spec.objects.server.Some?
  }

  /**
   * `getServersConfig` as written: every spec with a `servers` list is refused, so the
   * per-server branch (lines 116-132) is never taken and the shared entry always decides.
   */
  method GetServersConfigAsWritten(c: Constants, crName: string, spec: KieAppSpec, config: CommonConfig)
    returns (servers: seq<ServerTemplate>, newSpec: KieAppSpec, err: Option<string>)
    ensures err.Some? <==> ServersConfigRejectedAsWritten(spec)
    ensures err.Some? ==> servers == [] && newSpec == spec
    ensures err.None? ==>
      && newSpec == spec.(objects := spec.objects.(server := Some(DefaultedServer(c, spec))))
      && |servers| == CommonServerCount(c, spec)
      && forall i :: 0 <= i < |servers| ==>
        servers[i] == CommonServerTemplate(c, crName, config, DefaultedServer(c, spec), i)
  {
    if |spec.objects.servers| > 0 {
      return [], spec, Some("invalid spec: provide either server or servers object");
    }
    servers, newSpec := CommonServerTemplates(c, crName, spec, config);
    err := None;
  }

  /**
   * `getServersConfig` with the guard its error message describes: a spec giving both
   * `server` and `servers` is refused; a `servers` list yields one template per entry; else
   * the shared entry yields one template per deployment.
   */
  method GetServersConfig(c: Constants, crName: string, spec: KieAppSpec, config: CommonConfig,
                          generated: nat -> (string, string))
    returns (servers: seq<ServerTemplate>, newSpec: KieAppSpec, err: Option<string>)
    ensures err.Some? <==> ServersConfigRejected(spec)
    ensures err.Some? ==> servers == [] && newSpec == spec
    ensures err.None? && |spec.objects.servers| > 0 ==>
      newSpec == spec && |servers| == |spec.objects.servers|
      && forall i :: 0 <= i < |servers| ==>
        servers[i] == ServerSetTemplate(c, crName, config, spec.objects.servers[i], i, generated(i))
    ensures err.None? && |spec.objects.servers| == 0 ==>
      && newSpec == spec.(objects := spec.objects.(server := Some(DefaultedServer(c, spec))))
      && |servers| == CommonServerCount(c, spec)
      && forall i :: 0 <= i < |servers| ==>
        servers[i] == CommonServerTemplate(c, crName, config, DefaultedServer(c, spec), i)
  {
    if |spec.objects.servers| > 0 && spec.objects.server.Some? {
      return [], spec, Some("invalid spec: provide either server or servers object");
    }
    err := None;
    if |spec.objects.servers| != 0 {
      servers := ServerSetTemplates(c, crName, spec, config, generated);
      newSpec := spec;
    } else {
      servers, newSpec := CommonServerTemplates(c, crName, spec, config);
    }
  }

  /** A spec with a `servers` list and no `server` entry is valid, yet refused as written. */
  lemma ServersListAloneRefusedAsWritten(spec: KieAppSpec)
    requires |spec.objects.servers| > 0 && spec.objects.server.None?
    ensures ServersConfigRejectedAsWritten(spec) && !ServersConfigRejected(spec)
  {
  }

  /** The shared-entry templates carry pairwise distinct identifiers. */
  lemma CommonServerIDsDistinct(c: Constants, crName: string, config: CommonConfig, server: CommonKieServerSet, i: nat, j: nat)
    requires i != j
    ensures CommonServerTemplate(c, crName, config, server, i).kieServerID
      != CommonServerTemplate(c, crName, config, server, j).kieServerID
  {
    if KieServerID(crName, i) == KieServerID(crName, j) {
      KieServerIDInjective(crName, i, j);
    }
  }

  /** A server built from source runs the image its own build produces; otherwise its given or the default image. */
  lemma ServerImage(c: Constants, crName: string, config: CommonConfig, server: KieServerSet, i: nat, generated: (string, string))
    ensures var t := ServerSetTemplate(c, crName, config, server, i, generated);
      && (server.build.Some? ==>
            t.from == GetKieServerImageForBuild(config, i)
            && t.build.from == GetDefaultKieServerImage(c, config, server.build.value.from))
      && (server.build.None? && server.from.Some? ==> t.from == server.from.value && t.build == EmptyBuildTemplate)
  {
  }

  // ---------------------------------------------------------------------------------------
  // Passwords

  /** The five passwords `setPasswords` visits, in its order. */
  function Password(config: CommonConfig, i: nat): string
    requires i < 5
  {
    match i
    case 0 => config.keyStorePassword
    case 1 => config.adminPassword
    case 2 => config.controllerPassword
    case 3 => config.mavenPassword
    case _ => config.serverPassword
  }

  function SetPassword(config: CommonConfig, i: nat, value: string): (r: CommonConfig)
    requires i < 5
    ensures Password(r, i) == value
    ensures forall j :: 0 <= j < 5 && j != i ==> Password(r, j) == Password(config, j)
    ensures r.applicationName == config.applicationName && r.version == config.version
      && r.imageTag == config.imageTag && r.product == config.product && r.mavenRepo == config.mavenRepo
  {
    match i
    case 0 => config.(keyStorePassword := value)
    case 1 => config.(adminPassword := value)
    case 2 => config.(controllerPassword := value)
    case 3 => config.(mavenPassword := value)
    case _ => config.(serverPassword := value)
  }

  /** A password slot after `setPasswords`: kept when set, else the trial default or a generated one. */
  function Filled(current: string, isTrialEnv: bool, defaultPassword: string, generated: string): string
  {
    if |current| != 0 then current else if isTrialEnv then defaultPassword else generated
  }

  /** `config` after `setPasswords`; `generate(i)` is the password generated for slot `i`. */
  function FillPasswords(config: CommonConfig, isTrialEnv: bool, defaultPassword: string, generate: nat -> string): CommonConfig
  {
    config.(
      keyStorePassword := Filled(config.keyStorePassword, isTrialEnv, defaultPassword, generate(0)),
      adminPassword := Filled(config.adminPassword, isTrialEnv, defaultPassword, generate(1)),
      controllerPassword := Filled(config.controllerPassword, isTrialEnv, defaultPassword, generate(2)),
      mavenPassword := Filled(config.mavenPassword, isTrialEnv, defaultPassword, generate(3)),
      serverPassword := Filled(config.serverPassword, isTrialEnv, defaultPassword, generate(4)))
  }

  /** `setPasswords`: the loop over the five password slots. */
  method SetPasswords(config: CommonConfig, isTrialEnv: bool, defaultPassword: string, generate: nat -> string)
    returns (r: CommonConfig)
    ensures r == FillPasswords(config, isTrialEnv, defaultPassword, generate)
  {
    r := config;
    for i := 0 to 5
      invariant forall j :: 0 <= j < i ==>
        Password(r, j) == Filled(Password(config, j), isTrialEnv, defaultPassword, generate(j))
      invariant forall j :: i <= j < 5 ==> Password(r, j) == Password(config, j)
      invariant r.applicationName == config.applicationName && r.version == config.version
        && r.imageTag == config.imageTag && r.product == config.product && r.mavenRepo == config.mavenRepo
    {
      if |Password(r, i)| != 0 {
        continue;
      }
      if isTrialEnv {
        r := SetPassword(r, i, defaultPassword);
      } else {
        r := SetPassword(r, i, generate(i));
      }
    }
    assert forall j :: 0 <= j < 5 ==> Password(r, j) == Password(FillPasswords(config, isTrialEnv, defaultPassword, generate), j);
  }

  /** Set passwords are never touched; after the call every password is set (given non-empty fillers). */
  lemma PasswordsFilled(config: CommonConfig, isTrialEnv: bool, defaultPassword: string, generate: nat -> string)
    requires isTrialEnv ==> defaultPassword != ""
    requires !isTrialEnv ==> forall i :: generate(i) != ""
    ensures var r := FillPasswords(config, isTrialEnv, defaultPassword, generate);
      forall i :: 0 <= i < 5 ==>
        Password(r, i) != "" && (Password(config, i) != "" ==> Password(r, i) == Password(config, i))
  {
    var r := FillPasswords(config, isTrialEnv, defaultPassword, generate);
    forall i | 0 <= i < 5
      ensures Password(r, i) != "" && (Password(config, i) != "" ==> Password(r, i) == Password(config, i))
    {
      assert Password(r, i) == Filled(Password(config, i), isTrialEnv, defaultPassword, generate(i));
    }
  }

  /** A second `setPasswords`, whatever it would generate, changes nothing. */
  lemma SetPasswordsIdempotent(config: CommonConfig, isTrialEnv: bool, defaultPassword: string,
                               generate: nat -> string, generateAgain: nat -> string)
    requires isTrialEnv ==> defaultPassword != ""
    requires !isTrialEnv ==> forall i :: generate(i) != ""
    ensures var r := FillPasswords(config, isTrialEnv, defaultPassword, generate);
      FillPasswords(r, isTrialEnv, defaultPassword, generateAgain) == r
  {
    PasswordsFilled(config, isTrialEnv, defaultPassword, generate);
    var r := FillPasswords(config, isTrialEnv, defaultPassword, generate);
    assert Password(r, 0) != "" && Password(r, 1) != "" && Password(r, 2) != "" && Password(r, 3) != "" && Password(r, 4) != "";
  }

  // ---------------------------------------------------------------------------------------
  // Application constants

  /** The spec after `setAppConstants`. */
  function WithAppConstants(c: Constants, spec: KieAppSpec): KieAppSpec
  {
    if spec.environment !in c.environmentConstants then spec
    else
      var a := c.environmentConstants[spec.environment];
      var cc := spec.commonConfig;
      spec.(commonConfig := cc.(
        version := if |cc.version| == 0 then Digits(c.productVersion) else cc.version,
        imageTag := if |cc.imageTag| == 0 then c.imageStreamTag else cc.imageTag,
        product := if |cc.product| == 0 then a.product else cc.product,
        mavenRepo := if |cc.mavenRepo| == 0 then a.mavenRepo else cc.mavenRepo))
  }

  /**
   * `setAppConstants`: for a known environment, fills an empty version with the digits of
   * the product version, and an empty image tag, product and maven repository with their
   * defaults; anything already set, and everything for an unknown environment, is kept.
   */
  method SetAppConstants(c: Constants, spec: KieAppSpec) returns (r: KieAppSpec)
    ensures r == WithAppConstants(c, spec)
  {
    if spec.environment !in c.environmentConstants {
      return spec;
    }
    var appConstants := c.environmentConstants[spec.environment];
    r := spec;
    if |r.commonConfig.version| == 0 {
      r := r.(commonConfig := r.commonConfig.(version := Digits(c.productVersion)));
    }
    if |r.commonConfig.imageTag| == 0 {
      r := r.(commonConfig := r.commonConfig.(imageTag := c.imageStreamTag));
    }
    if |r.commonConfig.product| == 0 {
      r := r.(commonConfig := r.commonConfig.(product := appConstants.product));
    }
    if |r.commonConfig.mavenRepo| == 0 {
      r := r.(commonConfig := r.commonConfig.(mavenRepo := appConstants.mavenRepo));
    }
  }

  /**
   * An unknown environment changes nothing; otherwise only the four constants change, each
   * filled with its default exactly when empty, the rest of the spec and of its common
   * configuration is untouched, and a second call changes nothing.
   */
  lemma AppConstantsOnlyFillEmpty(c: Constants, spec: KieAppSpec)
    ensures spec.environment !in c.environmentConstants ==> WithAppConstants(c, spec) == spec
    ensures var r, cc := WithAppConstants(c, spec), spec.commonConfig;
      && r.(commonConfig := cc) == spec
      && r.commonConfig.(version := cc.version, imageTag := cc.imageTag, product := cc.product, mavenRepo := cc.mavenRepo) == cc
      && (cc.version != "" ==> r.commonConfig.version == cc.version)
      && (cc.imageTag != "" ==> r.commonConfig.imageTag == cc.imageTag)
      && (cc.product != "" ==> r.commonConfig.product == cc.product)
      && (cc.mavenRepo != "" ==> r.commonConfig.mavenRepo == cc.mavenRepo)
      && WithAppConstants(c, r) == r
    ensures spec.environment in c.environmentConstants ==>
      var r, cc, a := WithAppConstants(c, spec), spec.commonConfig, c.environmentConstants[spec.environment];
      && (cc.version == "" ==> r.commonConfig.version == Digits(c.productVersion))
      && (cc.imageTag == "" ==> r.commonConfig.imageTag == c.imageStreamTag)
      && (cc.product == "" ==> r.commonConfig.product == a.product)
      && (cc.mavenRepo == "" ==> r.commonConfig.mavenRepo == a.mavenRepo)
  {
  }

  // ---------------------------------------------------------------------------------------
  // Config map names

  /** The config map and key holding template file `filename`. */
  function ConfigMapNameOf(prefix: string, filename: string): (string, string)
  {
    var parts := Split(filename, '/');
    (Join([prefix] + parts[..|parts| - 1], '-'), parts[|parts| - 1])
  }

  /**
   * `convertToConfigMapName`: the file is the last "/"-segment; the config map name is the
   * prefix followed by "-" and each directory segment.
   */
  method ConvertToConfigMapName(configMapPrefix: string, filename: string) returns (configMapName: string, file: string)
    ensures (configMapName, file) == ConfigMapNameOf(configMapPrefix, filename)
  {
    var name := configMapPrefix;
    var result := Split(filename, '/');
    if |result| > 1 {
      for i := 0 to |result| - 1
        invariant name == Join([configMapPrefix] + result[..i], '-')
      {
        JoinSnoc([configMapPrefix] + result[..i], result[i], '-');
        assert [configMapPrefix] + result[..i + 1] == [configMapPrefix] + result[..i] + [result[i]];
        assert [name, result[i]][1..] == [result[i]];
        assert Join([name, result[i]], '-') == name + ['-'] + result[i];
        name := Join([name, result[i]], '-');
      }
    }
    return name, result[|result| - 1];
  }

  /** A file at the top of the tree lives in the config map named by the prefix alone. */
  lemma TopLevelConfigMap(prefix: string, filename: string)
    requires '/' !in filename
    ensures ConfigMapNameOf(prefix, filename) == (prefix, filename)
  {
    SplitNoSeparator(filename, '/');
  }

  /**
   * Nothing is lost: the directories joined with the file give the path back, and when
   * neither the prefix nor any directory contains "-", splitting the config map name on "-"
   * gives the prefix and the directories.
   */
  lemma ConfigMapNameRecoversPath(prefix: string, filename: string)
    ensures var parts := Split(filename, '/');
      Join(parts[..|parts| - 1] + [ConfigMapNameOf(prefix, filename).1], '/') == filename
    ensures var parts := Split(filename, '/');
      ('-' !in prefix && forall k :: 0 <= k < |parts| - 1 ==> '-' !in parts[k]) ==>
        Split(ConfigMapNameOf(prefix, filename).0, '-') == [prefix] + parts[..|parts| - 1]
  {
    var parts := Split(filename, '/');
    assert parts[..|parts| - 1] + [parts[|parts| - 1]] == parts;
    JoinSplit(filename, '/');
    var dirs := [prefix] + parts[..|parts| - 1];
    if '-' !in prefix && forall k :: 0 <= k < |parts| - 1 ==> '-' !in parts[k] {
      assert forall k :: 0 <= k < |dirs| ==> '-' !in dirs[k] by {
        forall k | 0 <= k < |dirs| ensures '-' !in dirs[k] {
          if k > 0 {
            assert dirs[k] == parts[k - 1];
          }
        }
      }
      SplitJoin(dirs, '-');
    }
  }

  // ---------------------------------------------------------------------------------------
  // Embedded files

  datatype EmbeddedChoice = EmbeddedChoice(opName: string, depNameSpace: string, useEmbedded: bool)

  /**
   * `UseEmbeddedFiles`, with the WATCH_NAMESPACE and OPERATOR_NAME environment variables as
   * parameters: embedded files are used by the mock service, or when either variable is empty.
   */
  function UseEmbeddedFiles(isMockService: bool, namespace: string, name: string): (r: EmbeddedChoice)
    ensures r.useEmbedded <==> isMockService || namespace == "" || name == ""
    ensures r.opName == name && r.depNameSpace == namespace
  {
    if isMockService || namespace == "" || name == "" then EmbeddedChoice(name, namespace, true)
    else EmbeddedChoice(name, namespace, false)
  }
}

=== FILE: kie_types.dfy ===
/**
 * The controller's data: cluster objects with their metadata, the `CustomObject` bag of
 * resource lists, the `Environment` built from it, the custom resource's spec with its
 * `CommonConfig`, and the values of the (unmodelled) `constants` package.
 */
module KieTypes {
  import opened Wrappers

  /**
   * One cluster object, reduced to what the core reads or writes: its identity, its label
   * and annotation maps, an opaque bag of kind-specific settings, a Secret's payload and
   * whether a Route carries a TLS section.
   */
  datatype Resource = Resource(
    name: string,
    namespace: string,
    labels: map<string, string>,
    annotations: map<string, string>,
    fields: map<string, string>,
    data: map<string, seq<bv8>>,
    tls: bool)

  /** The zero value Go's `make` puts in every slot of a fresh slice. */
  const ZeroResource := Resource("", "", map[], map[], map[], map[], false)

  /** The resource kinds a `CustomObject` holds. */
  datatype Kind =
    | PersistentVolumeClaim | ServiceAccount | Secret | Role | RoleBinding | DeploymentConfig
    | Service | StatefulSet | Route | ImageStream | BuildConfig

  /** A named bag of typed resource lists; `omit` says the whole bag is intentionally absent. */
  datatype CustomObject = CustomObject(
    omit: bool,
    persistentVolumeClaims: seq<Resource>,
    serviceAccounts: seq<Resource>,
    secrets: seq<Resource>,
    roles: seq<Resource>,
    roleBindings: seq<Resource>,
    deploymentConfigs: seq<Resource>,
    buildConfigs: seq<Resource>,
    imageStreams: seq<Resource>,
    services: seq<Resource>,
    statefulSets: seq<Resource>,
    routes: seq<Resource>)

  const EmptyObject := CustomObject(false, [], [], [], [], [], [], [], [], [], [], [])

  /** Console, smart router, one object per server deployment, and any others. */
  datatype Environment = Environment(
    console: CustomObject,
    smartRouter: CustomObject,
    servers: seq<CustomObject>,
    others: seq<CustomObject>)

  /** A reference to an image (an ImageStreamTag or a DockerImage). */
  datatype ObjectReference = ObjectReference(kind: string, name: string, namespace: string)

  /** The template inputs shared by every tier. */
  datatype CommonConfig = CommonConfig(
    applicationName: string,
    version: string,
    imageTag: string,
    product: string,
    keyStorePassword: string,
    adminPassword: string,
    controllerPassword: string,
    serverPassword: string,
    mavenRepo: string,
    mavenPassword: string)

  datatype WebhookSecret = WebhookSecret(webhookType: string, secret: string)

  datatype GitSource = GitSource(uri: string, reference: string, contextDir: string)

  /** How to build a server image from source. */
  datatype BuildObject = BuildObject(
    kieServerContainerDeployment: string,
    gitSource: GitSource,
    mavenMirrorURL: string,
    artifactDir: string,
    webhooks: seq<WebhookSecret>,
    from: Option<ObjectReference>)

  /** One entry of `spec.objects.servers`. */
  datatype KieServerSet = KieServerSet(
    deployments: int,
    name: string,
    from: Option<ObjectReference>,
    build: Option<BuildObject>,
    keystoreSecret: string)

  /** The single `spec.objects.server` entry shared by every server deployment. */
  datatype CommonKieServerSet = CommonKieServerSet(deployments: int, from: Option<ObjectReference>)

  datatype KieAppObjects = KieAppObjects(
    consoleKeystoreSecret: string,
    servers: seq<KieServerSet>,
    server: Option<CommonKieServerSet>,
    smartRouterKeystoreSecret: string)

  datatype Upgrades = Upgrades(enabled: bool, minor: bool)

  datatype Registry = Registry(registry: string, insecure: bool)

  /** The custom resource's desired state. */
  datatype KieAppSpec = KieAppSpec(
    environment: string,
    version: string,
    upgrades: Upgrades,
    commonConfig: CommonConfig,
    objects: KieAppObjects,
    imageRegistry: Option<Registry>)

  /** Per-environment values of `constants.EnvironmentConstants`. */
  datatype AppConstants = AppConstants(
    product: string,
    prefix: string,
    imageName: string,
    consoleProbePage: string,
    mavenRepo: string)

  /**
   * The values of the `constants` package the core reads. That package is not part of this
   * model, so every function that needs a constant receives this record.
   * `keystoreSecretBefore`/`keystoreSecretAfter` are the text around the one `%s` of the
   * `KeystoreSecret` format.
   */
  datatype Constants = Constants(
    supportedVersions: seq<string>,
    currentVersion: string,
    configMapPrefix: string,
    defaultPassword: string,
    imageStreamTag: string,
    imageStreamNamespace: string,
    imageRegistry: string,
    productVersion: string,
    defaultKieDeployments: int,
    environmentConstants: map<string, AppConstants>,
    keystoreSecretBefore: string,
    keystoreSecretAfter: string)
}

=== FILE: merge.dfy ===
/**
 * The name-keyed list merge of `defaults/merge.go`, written once over `Resource` instead of
 * once per kind. A baseline list and an overwrite list are combined: baseline items are
 * matched by name to the first overwrite item of the same name; a match is deep-merged into
 * the baseline item and the matched overwrite item is tagged `delete=true`; a baseline item
 * whose match already carries the tag is dropped; overwrite items still untagged are
 * appended. The output slice is allocated beforehand with `combinedSize` slots.
 *
 * Go slices are `array`s here: `mergeObjects` writes the pre-sized output slice through a
 * running index, replaces merged baseline items in place and tags overwrite items in place.
 * An index-out-of-range write, and `make` with a negative length, are Go panics; they are
 * reported through an `ok` result that is false exactly when Go would panic.
 */
module Merge {
  import opened Wrappers
  import opened KieTypes

  /** `obj.GetAnnotations()["delete"] == "true"`; a nil map or a missing key reads as "". */
  predicate IsDeleteTagged(o: Resource)
  {
    "delete" in o.annotations && o.annotations["delete"] == "true"
  }

  /** The tombstone write of lines 209-213: the annotation map (created when nil) gets delete=true. */
  function TagDeleted(o: Resource): (r: Resource)
    ensures IsDeleteTagged(r)
    ensures r.name == o.name && r.labels == o.labels && r.fields == o.fields && r.data == o.data
    ensures r.annotations.Keys == o.annotations.Keys + {"delete"}
    ensures forall k :: k in o.annotations && k != "delete" ==> r.annotations[k] == o.annotations[k]
  {
    o.(annotations := o.annotations["delete" := "true"])
  }

  /**
   * `mergo.Merge(dst, src, mergo.WithOverride)`: a non-empty name or namespace of `src`
   * wins; label, annotation, setting and payload maps are unioned with `src` winning on
   * shared keys; a TLS section present on either side stays present.
   */
  function DeepMerge(dst: Resource, src: Resource): (r: Resource)
    ensures r.name == (if src.name != "" then src.name else dst.name)
    ensures r.labels.Keys == dst.labels.Keys + src.labels.Keys
    ensures forall k :: k in src.labels ==> r.labels[k] == src.labels[k]
    ensures forall k :: k in dst.labels && k !in src.labels ==> r.labels[k] == dst.labels[k]
    ensures r.fields.Keys == dst.fields.Keys + src.fields.Keys
    ensures forall k :: k in src.fields ==> r.fields[k] == src.fields[k]
    ensures forall k :: k in dst.fields && k !in src.fields ==> r.fields[k] == dst.fields[k]
  {
    Resource(
      if src.name != "" then src.name else dst.name,
      if src.namespace != "" then src.namespace else dst.namespace,
      dst.labels + src.labels,
      dst.annotations + src.annotations,
      dst.fields + src.fields,
      dst.data + src.data,
      dst.tls || src.tls)
  }

  /** The position of the first item named `n`, as `findOpenShiftObject` finds it. */
  function IndexOfName(n: string, s: seq<Resource>): (r: Option<nat>)
    ensures r.Some? ==> r.value < |s| && s[r.value].name == n
    ensures r.Some? ==> forall k :: 0 <= k < r.value ==> s[k].name != n
    ensures r.None? ==> forall k :: 0 <= k < |s| ==> s[k].name != n
    decreases |s|
  {
    if |s| == 0 then None
    else
      match IndexOfName(n, s[..|s| - 1])
      case Some(j) => Some(j)
      case None => if s[|s| - 1].name == n then Some(|s| - 1) else None
  }

  predicate UniqueNames(s: seq<Resource>)
  {
    forall i, j :: 0 <= i < j < |s| ==> s[i].name != s[j].name
  }

  predicate SameNames(s: seq<Resource>, t: seq<Resource>)
  {
    |s| == |t| && forall k :: 0 <= k < |s| ==> s[k].name == t[k].name
  }

  /** Lookups by name see only names. */
  lemma IndexOfNameSameNames(n: string, s: seq<Resource>, t: seq<Resource>)
    requires SameNames(s, t)
    ensures IndexOfName(n, s) == IndexOfName(n, t)
  {
    var a, b := IndexOfName(n, s), IndexOfName(n, t);
    if a.Some? && b.Some? {
      assert !(a.value < b.value) && !(b.value < a.value);
    }
  }

  /** The first item named `n` is at `i` when nothing before `i` has that name. */
  lemma IndexOfNameAt(n: string, s: seq<Resource>, i: nat)
    requires i < |s| && s[i].name == n && IndexOfName(n, s[..i]).None?
    ensures IndexOfName(n, s) == Some(i)
  {
    forall k | 0 <= k < i ensures s[k].name != n {
      assert s[..i][k] == s[k];
    }
  }

  // ---------------------------------------------------------------------------------------
  // The algorithm as written, as a function of the two input lists.

  /** Where the baseline pass of `mergeObjects` stands: items written, baseline and overwrite lists as mutated. */
  datatype Pass = Pass(out: seq<Resource>, base: seq<Resource>, over: seq<Resource>)

  /** Writes `v` into slot `k` of `a`, where `a` holds `front + back` and `front` has length `k`. */
  method Put(a: array<Resource>, k: nat, ghost front: seq<Resource>, ghost back: seq<Resource>, v: Resource)
    requires a[..] == front + back && k == |front| && |back| > 0
    modifies a
    ensures a[..] == front + [v] + back[1..]
  {
    ghost var a0 := a[..];
    a[k] := v;
    assert a[..] == a0[k := v];
    WriteAt(a0, front, back, v);
  }

  /**
   * The first loop of `mergeObjects` (lines 196-215) over `bs`: each item is looked up in the
   * overwrite list as the loop has tagged it so far.
   */
  function BaselinePass(bs: seq<Resource>, ov: seq<Resource>): (p: Pass)
    ensures |p.base| == |bs| && SameNames(p.over, ov) && |p.out| <= |bs|
    decreases |bs|
  {
    if |bs| == 0 then Pass([], [], ov)
    else
      var p := BaselinePass(bs[..|bs| - 1], ov);
      var b := bs[|bs| - 1];
      match IndexOfName(b.name, p.over)
      case None => Pass(p.out + [b], p.base + [b], p.over)
      case Some(j) =>
        if IsDeleteTagged(p.over[j]) then Pass(p.out, p.base + [b], p.over)
        else
          var m := DeepMerge(b, p.over[j]);
          Pass(p.out + [m], p.base + [m], p.over[j := TagDeleted(p.over[j])])
  }

  /** The second loop of `mergeObjects` (lines 216-221): the untagged items, in order. */
  function Untagged(s: seq<Resource>): (r: seq<Resource>)
    ensures |r| <= |s|
    ensures forall k :: 0 <= k < |r| ==> !IsDeleteTagged(r[k])
    decreases |s|
  {
    if |s| == 0 then []
    else Untagged(s[..|s| - 1]) + (if IsDeleteTagged(s[|s| - 1]) then [] else [s[|s| - 1]])
  }

  /** Everything `mergeObjects` writes, in slot order. */
  function MergedObjects(bs: seq<Resource>, ov: seq<Resource>): seq<Resource>
  {
    var p := BaselinePass(bs, ov);
    p.out + Untagged(p.over)
  }

  /** How many rounds of the first loop of `mergeObjects` complete within `n` slots. */
  function RoundsWithin(bs: seq<Resource>, ov: seq<Resource>, n: nat): (i: nat)
    ensures i <= |bs|
    ensures i < |bs| ==> |BaselinePass(bs, ov).out| > n
    decreases |bs|
  {
    if |bs| == 0 || |BaselinePass(bs, ov).out| <= n then |bs| else RoundsWithin(bs[..|bs| - 1], ov, n)
  }

  /**
   * The baseline and overwrite lists as the first loop leaves them with `n` slots: the whole
   * pass when it fits, and otherwise the state at the write that overflows, where the
   * failing round has already merged its baseline item but not yet tagged its match.
   */
  function HaltedPass(bs: seq<Resource>, ov: seq<Resource>, n: nat): Pass
  {
    var i := RoundsWithin(bs, ov, n);
    if i == |bs| then BaselinePass(bs, ov)
    else
      var p := BaselinePass(bs[..i], ov);
      Pass(p.out, BaselinePass(bs[..i + 1], ov).base + bs[i + 1..], p.over)
  }

  /** The rounds that fit are the ones before the first round whose write overflows. */
  lemma {:induction false} RoundsWithinIs(bs: seq<Resource>, ov: seq<Resource>, n: nat, i: nat)
    requires i < |bs| && |BaselinePass(bs[..i], ov).out| <= n < |BaselinePass(bs[..i + 1], ov).out|
    ensures RoundsWithin(bs, ov, n) == i
    decreases |bs|
  {
    var pre := bs[..|bs| - 1];
    PassOutGrows(bs, ov, i + 1);
    if i + 1 == |bs| {
      assert bs[..i + 1] == bs && pre == bs[..i];
    } else {
      assert pre[..i] == bs[..i] && pre[..i + 1] == bs[..i + 1];
      RoundsWithinIs(pre, ov, n, i);
    }
  }

  // ---------------------------------------------------------------------------------------
  // combinedSize (lines 177-191)

  /** Overwrite items with no same-name baseline item and no delete tag. */
  function CountUnmatchedLive(bs: seq<Resource>, ov: seq<Resource>): nat
    decreases |ov|
  {
    if |ov| == 0 then 0
    else
      var o := ov[|ov| - 1];
      CountUnmatchedLive(bs, ov[..|ov| - 1])
        + (if IndexOfName(o.name, bs).None? && !IsDeleteTagged(o) then 1 else 0)
  }

  /** Overwrite items with a same-name baseline item and a delete tag. */
  function CountMatchedDeleted(bs: seq<Resource>, ov: seq<Resource>): nat
    decreases |ov|
  {
    if |ov| == 0 then 0
    else
      var o := ov[|ov| - 1];
      CountMatchedDeleted(bs, ov[..|ov| - 1])
        + (if IndexOfName(o.name, bs).Some? && IsDeleteTagged(o) then 1 else 0)
  }

  /** The size `combinedSize` computes. */
  function CombinedCount(bs: seq<Resource>, ov: seq<Resource>): int
  {
    |bs| + CountUnmatchedLive(bs, ov) - CountMatchedDeleted(bs, ov)
  }

  // ---------------------------------------------------------------------------------------
  // The merge stated declaratively, independently of the loops.

  /** What a baseline item becomes: kept, merged with its match, or dropped by a tombstone. */
  function Survivor(b: Resource, ov: seq<Resource>): seq<Resource>
  {
    match IndexOfName(b.name, ov)
    case None => [b]
    case Some(j) => if IsDeleteTagged(ov[j]) then [] else [DeepMerge(b, ov[j])]
  }

  function Survivors(bs: seq<Resource>, ov: seq<Resource>): seq<Resource>
    decreases |bs|
  {
    if |bs| == 0 then [] else Survivors(bs[..|bs| - 1], ov) + Survivor(bs[|bs| - 1], ov)
  }

  /** Overwrite items that are neither tombstones nor matched by a baseline item, in overwrite order. */
  function Additions(bs: seq<Resource>, ov: seq<Resource>): seq<Resource>
    decreases |ov|
  {
    if |ov| == 0 then []
    else
      var o := ov[|ov| - 1];
      Additions(bs, ov[..|ov| - 1])
        + (if !IsDeleteTagged(o) && IndexOfName(o.name, bs).None? then [o] else [])
  }

  /** Surviving or merged baseline items in baseline order, then the additions. */
  function DeclarativeMerge(bs: seq<Resource>, ov: seq<Resource>): seq<Resource>
  {
    Survivors(bs, ov) + Additions(bs, ov)
  }

  /** The overwrite list once every untagged item that a baseline item matches is tagged. */
  function TagMatches(ov: seq<Resource>, bs: seq<Resource>): (r: seq<Resource>)
    ensures SameNames(r, ov)
  {
    seq(|ov|, k requires 0 <= k < |ov| =>
      if !IsDeleteTagged(ov[k]) && IndexOfName(ov[k].name, bs).Some? then TagDeleted(ov[k]) else ov[k])
  }

  // ---------------------------------------------------------------------------------------
  // Lemmas

  lemma UniquePrefix(s: seq<Resource>, n: nat)
    requires UniqueNames(s) && n <= |s|
    ensures UniqueNames(s[..n])
  {
  }

  /** With unique names, the last item's name does not occur earlier. */
  lemma LastNameFresh(s: seq<Resource>)
    requires UniqueNames(s) && |s| > 0
    ensures IndexOfName(s[|s| - 1].name, s[..|s| - 1]).None?
  {
    var pre := s[..|s| - 1];
    assert forall k :: 0 <= k < |pre| ==> pre[k].name != s[|s| - 1].name;
  }

  /**
   * With unique names on both sides, the loop-by-loop baseline pass emits exactly the
   * declarative survivors and leaves the overwrite list tagged exactly where a baseline item
   * matched an untagged item.
   */
  lemma BaselinePassIsDeclarative(bs: seq<Resource>, ov: seq<Resource>)
    requires UniqueNames(bs) && UniqueNames(ov)
    ensures BaselinePass(bs, ov).out == Survivors(bs, ov)
    ensures BaselinePass(bs, ov).over == TagMatches(ov, bs)
  {
    PassOverTagMatches(bs, ov);
    PassOutSurvivors(bs, ov);
  }

  /** The overwrite list after the baseline pass: exactly the untagged matches are tagged. */
  lemma {:induction false} PassOverTagMatches(bs: seq<Resource>, ov: seq<Resource>)
    requires UniqueNames(bs) && UniqueNames(ov)
    ensures BaselinePass(bs, ov).over == TagMatches(ov, bs)
    decreases |bs|
  {
    if |bs| == 0 {
      assert TagMatches(ov, bs) == ov;
    } else {
      var pre, b := bs[..|bs| - 1], bs[|bs| - 1];
      UniquePrefix(bs, |bs| - 1);
      PassOverTagMatches(pre, ov);
      IndexOfNameSameNames(b.name, BaselinePass(pre, ov).over, ov);
      LastNameFresh(bs);
      Snoc(bs);
      TagMatchesStep(ov, pre, b);
    }
  }

  /** What the baseline pass emits: exactly the survivors, in baseline order. */
  lemma {:induction false} PassOutSurvivors(bs: seq<Resource>, ov: seq<Resource>)
    requires UniqueNames(bs) && UniqueNames(ov)
    ensures BaselinePass(bs, ov).out == Survivors(bs, ov)
    decreases |bs|
  {
    if |bs| > 0 {
      var pre, b := bs[..|bs| - 1], bs[|bs| - 1];
      UniquePrefix(bs, |bs| - 1);
      PassOutSurvivors(pre, ov);
      PassOverTagMatches(pre, ov);
      IndexOfNameSameNames(b.name, BaselinePass(pre, ov).over, ov);
      LastNameFresh(bs);
      match IndexOfName(b.name, ov)
      case None =>
      case Some(j) =>
        TagMatchesUnmatchedAt(ov, pre, j);
    }
  }

  /** An overwrite item whose name no baseline item carries is left as it is. */
  lemma TagMatchesUnmatchedAt(ov: seq<Resource>, bs: seq<Resource>, j: nat)
    requires j < |ov| && IndexOfName(ov[j].name, bs).None?
    ensures TagMatches(ov, bs)[j] == ov[j]
  {
  }

  /** One more baseline item, with a new name: `TagMatches` tags its live match, if any. */
  lemma TagMatchesStep(ov: seq<Resource>, pre: seq<Resource>, b: Resource)
    requires IndexOfName(b.name, pre).None? && UniqueNames(ov)
    ensures IndexOfName(b.name, ov).None? ==> TagMatches(ov, pre + [b]) == TagMatches(ov, pre)
    ensures IndexOfName(b.name, ov).Some? ==>
      var j := IndexOfName(b.name, ov).value;
      TagMatches(ov, pre + [b])
        == if IsDeleteTagged(ov[j]) then TagMatches(ov, pre) else TagMatches(ov, pre)[j := TagDeleted(ov[j])]
  {
    TagMatchesSnoc(ov, pre, b);
    var t, t' := TagMatches(ov, pre), TagMatches(ov, pre + [b]);
    match IndexOfName(b.name, ov)
    case None =>
      assert t' == t;
    case Some(j) =>
      TagMatchesUnmatchedAt(ov, pre, j);
      assert forall k :: 0 <= k < |ov| && k != j ==> ov[k].name != b.name;
      if IsDeleteTagged(ov[j]) {
        assert t' == t;
      } else {
        assert t' == t[j := TagDeleted(ov[j])];
      }
  }

  /** A non-empty sequence is its front followed by its last element. */
  lemma Snoc<T>(s: seq<T>)
    requires |s| > 0
    ensures s == s[..|s| - 1] + [s[|s| - 1]]
  {
  }

  /** Adding a baseline item whose name is new tags only the untagged items carrying that name. */
  lemma TagMatchesSnoc(ov: seq<Resource>, pre: seq<Resource>, b: Resource)
    requires IndexOfName(b.name, pre).None?
    ensures |TagMatches(ov, pre + [b])| == |ov|
    ensures forall k :: 0 <= k < |ov| ==>
      TagMatches(ov, pre + [b])[k]
        == if ov[k].name == b.name && !IsDeleteTagged(ov[k]) then TagDeleted(ov[k]) else TagMatches(ov, pre)[k]
  {
    forall k | 0 <= k < |ov|
      ensures IndexOfName(ov[k].name, pre + [b]).Some? <==> IndexOfName(ov[k].name, pre).Some? || ov[k].name == b.name
    {
      IndexOfNameSnoc(ov[k].name, pre, b);
    }
  }

  /** The second loop appends exactly the declarative additions. */
  lemma {:induction false} UntaggedTagMatches(bs: seq<Resource>, ov: seq<Resource>)
    ensures Untagged(TagMatches(ov, bs)) == Additions(bs, ov)
    decreases |ov|
  {
    if |ov| > 0 {
      var pre := ov[..|ov| - 1];
      UntaggedTagMatches(bs, pre);
      assert TagMatches(ov, bs)[..|ov| - 1] == TagMatches(pre, bs);
    }
  }

  /** Theorem: with unique names in each list, `mergeObjects` writes the declarative merge. */
  lemma MergedObjectsIsDeclarative(bs: seq<Resource>, ov: seq<Resource>)
    requires UniqueNames(bs) && UniqueNames(ov)
    ensures MergedObjects(bs, ov) == DeclarativeMerge(bs, ov)
  {
    BaselinePassIsDeclarative(bs, ov);
    UntaggedTagMatches(bs, ov);
  }

  /** Tombstones carrying the name `n`. */
  function TaggedNamed(ov: seq<Resource>, n: string): nat
    decreases |ov|
  {
    if |ov| == 0 then 0
    else
      TaggedNamed(ov[..|ov| - 1], n)
        + (if ov[|ov| - 1].name == n && IsDeleteTagged(ov[|ov| - 1]) then 1 else 0)
  }

  lemma {:induction false} TaggedNamedUnique(ov: seq<Resource>, n: string)
    requires UniqueNames(ov)
    ensures TaggedNamed(ov, n)
      == match IndexOfName(n, ov) case None => 0 case Some(j) => if IsDeleteTagged(ov[j]) then 1 else 0
    decreases |ov|
  {
    if |ov| > 0 {
      var pre := ov[..|ov| - 1];
      UniquePrefix(ov, |ov| - 1);
      TaggedNamedUnique(pre, n);
      match IndexOfName(n, pre)
      case Some(j) =>
        assert pre[j] == ov[j];
      case None =>
    }
  }

  lemma {:induction false} MatchedDeletedGrows(pre: seq<Resource>, b: Resource, ov: seq<Resource>)
    requires IndexOfName(b.name, pre).None?
    ensures CountMatchedDeleted(pre + [b], ov) == CountMatchedDeleted(pre, ov) + TaggedNamed(ov, b.name)
    ensures CountUnmatchedLive(pre, ov) == CountUnmatchedLive(pre + [b], ov) + UntaggedNamed(ov, b.name)
    decreases |ov|
  {
    if |ov| > 0 {
      MatchedDeletedGrows(pre, b, ov[..|ov| - 1]);
      IndexOfNameSnoc(ov[|ov| - 1].name, pre, b);
    }
  }

  /** A name occurs in `pre + [b]` exactly when it occurs in `pre` or is `b`'s. */
  lemma IndexOfNameSnoc(n: string, pre: seq<Resource>, b: Resource)
    ensures IndexOfName(n, pre + [b]).Some? <==> IndexOfName(n, pre).Some? || n == b.name
  {
    assert (pre + [b])[..|pre|] == pre;
  }

  lemma {:induction false} NothingMatchesEmpty(ov: seq<Resource>)
    ensures CountMatchedDeleted([], ov) == 0
    decreases |ov|
  {
    if |ov| > 0 {
      NothingMatchesEmpty(ov[..|ov| - 1]);
    }
  }

  /** Live items carrying the name `n`. */
  function UntaggedNamed(ov: seq<Resource>, n: string): nat
    decreases |ov|
  {
    if |ov| == 0 then 0
    else
      UntaggedNamed(ov[..|ov| - 1], n)
        + (if ov[|ov| - 1].name == n && !IsDeleteTagged(ov[|ov| - 1]) then 1 else 0)
  }

  /** Every tombstone that matches a baseline item removes exactly one baseline item. */
  lemma {:induction false} SurvivorsCount(bs: seq<Resource>, ov: seq<Resource>)
    requires UniqueNames(bs) && UniqueNames(ov)
    ensures |Survivors(bs, ov)| == |bs| - CountMatchedDeleted(bs, ov)
    decreases |bs|
  {
    if |bs| > 0 {
      var pre, b := bs[..|bs| - 1], bs[|bs| - 1];
      UniquePrefix(bs, |bs| - 1);
      SurvivorsCount(pre, ov);
      LastNameFresh(bs);
      assert pre + [b] == bs;
      assert |Survivors(bs, ov)| == |Survivors(pre, ov)| + |Survivor(b, ov)|;
      MatchedDeletedGrows(pre, b, ov);
      TaggedNamedUnique(ov, b.name);
      assert |Survivor(b, ov)| == 1 - TaggedNamed(ov, b.name) by {
        match IndexOfName(b.name, ov)
        case None =>
        case Some(j) =>
      }
    } else {
      NothingMatchesEmpty(ov);
    }
  }

  lemma {:induction false} AdditionsCount(bs: seq<Resource>, ov: seq<Resource>)
    ensures |Additions(bs, ov)| == CountUnmatchedLive(bs, ov)
    decreases |ov|
  {
    if |ov| > 0 {
      AdditionsCount(bs, ov[..|ov| - 1]);
    }
  }

  /**
   * Theorem (the size law): with unique names in each list, the merge has exactly
   * `combinedSize` items, so `mergeObjects` neither writes past the pre-sized slice nor
   * leaves a zero-valued slot.
   */
  lemma CombinedCountIsSize(bs: seq<Resource>, ov: seq<Resource>)
    requires UniqueNames(bs) && UniqueNames(ov)
    ensures CombinedCount(bs, ov) == |DeclarativeMerge(bs, ov)| == |MergedObjects(bs, ov)|
  {
    SurvivorsCount(bs, ov);
    AdditionsCount(bs, ov);
    MergedObjectsIsDeclarative(bs, ov);
  }

  lemma {:induction false} PassOutGrows(bs: seq<Resource>, ov: seq<Resource>, i: nat)
    requires i <= |bs|
    ensures |BaselinePass(bs[..i], ov).out| <= |BaselinePass(bs, ov).out|
    decreases |bs|
  {
    if i < |bs| {
      var pre := bs[..|bs| - 1];
      assert pre[..i] == bs[..i];
      PassOutGrows(pre, ov, i);
    } else {
      assert bs[..i] == bs;
    }
  }

  lemma {:induction false} UntaggedGrows(s: seq<Resource>, k: nat)
    requires k <= |s|
    ensures |Untagged(s[..k])| <= |Untagged(s)|
    decreases |s|
  {
    if k < |s| {
      var pre := s[..|s| - 1];
      assert pre[..k] == s[..k];
      UntaggedGrows(pre, k);
    } else {
      assert s[..k] == s;
    }
  }

  // ---------------------------------------------------------------------------------------
  // The imperative code

  /** `findOpenShiftObject`: the index of the first item named like `obj`, or -1 and nil. */
  method FindOpenShiftObject(obj: Resource, slice: array<Resource>) returns (index: int, found: Option<Resource>)
    ensures IndexOfName(obj.name, slice[..]).None? ==> index == -1 && found.None?
    ensures IndexOfName(obj.name, slice[..]).Some? ==>
      index == IndexOfName(obj.name, slice[..]).value && found == Some(slice[index])
  {
    var i := 0;
    while i < slice.Length
      invariant 0 <= i <= slice.Length
      invariant IndexOfName(obj.name, slice[..i]).None?
    {
      assert slice[..i + 1][..i] == slice[..i];
      if slice[i].name == obj.name {
        IndexOfNameAt(obj.name, slice[..], i);
        return i, Some(slice[i]);
      }
      i := i + 1;
    }
    assert slice[..i] == slice[..];
    return -1, None;
  }

  /** `combinedSize`: baseline length, plus unmatched live overwrite items, minus matched tombstones. */
  method CombinedSize(baseline: array<Resource>, overwrite: array<Resource>) returns (count: int)
    ensures count == baseline.Length
      + CountUnmatchedLive(baseline[..], overwrite[..]) - CountMatchedDeleted(baseline[..], overwrite[..])
  {
    count := 0;
    for i := 0 to overwrite.Length
      invariant count == CountUnmatchedLive(baseline[..], overwrite[..i]) - CountMatchedDeleted(baseline[..], overwrite[..i])
    {
      assert overwrite[..i + 1][..i] == overwrite[..i];
      var obj := overwrite[i];
      var _, found := FindOpenShiftObject(obj, baseline);
      if found.None? && !IsDeleteTagged(obj) {
        count := count + 1;
      } else if found.Some? && IsDeleteTagged(obj) {
        count := count - 1;
      }
    }
    assert overwrite[..overwrite.Length] == overwrite[..];
    count := count + baseline.Length;
  }

  /** Writing slot `|front|` of `front + back` replaces the head of `back`. */
  lemma WriteAt<T>(a: seq<T>, front: seq<T>, back: seq<T>, v: T)
    requires a == front + back && |back| > 0
    ensures a[|front| := v] == front + [v] + back[1..]
  {
    assert a[|front| := v] == front + [v] + back[1..] by {
      assert |a[|front| := v]| == |front + [v] + back[1..]|;
    }
  }

  /**
   * The first loop of `mergeObjects` (lines 196-215): writes `BaselinePass(..).out` from slot
   * 0, merges matched baseline items in place and tags their matches in place; `ok` is false
   * exactly when a write would fall outside `slice`.
   */
  method MergeBaseline(baseline: array<Resource>, overwrite: array<Resource>, slice: array<Resource>)
    returns (sliceIndex: nat, ok: bool)
    requires baseline != overwrite && slice != baseline && slice != overwrite
    modifies baseline, overwrite, slice
    ensures ok <==> |BaselinePass(old(baseline[..]), old(overwrite[..])).out| <= slice.Length
    ensures ok ==>
      var p := BaselinePass(old(baseline[..]), old(overwrite[..]));
      && sliceIndex == |p.out|
      && slice[..] == p.out + old(slice[sliceIndex..])
      && baseline[..] == p.base
      && overwrite[..] == p.over
    ensures !ok ==>
      var p := HaltedPass(old(baseline[..]), old(overwrite[..]), slice.Length);
      baseline[..] == p.base && overwrite[..] == p.over
  {
    ghost var bs, ov, s0 := baseline[..], overwrite[..], slice[..];
    sliceIndex := 0;
    assert bs[..0] == [];
    for i := 0 to baseline.Length
      invariant Round(baseline, overwrite, slice, bs, ov, s0, i, sliceIndex)
    {
      sliceIndex, ok := BaselineRound(baseline, overwrite, slice, i, sliceIndex, bs, ov, s0);
      if !ok {
        PassOutGrows(bs, ov, i + 1);
        RoundsWithinIs(bs, ov, slice.Length, i);
        return;
      }
    }
    assert bs[..baseline.Length] == bs;
    ok := true;
  }

  /** The state of the first loop of `mergeObjects` after `i` rounds. */
  ghost predicate Round(baseline: array<Resource>, overwrite: array<Resource>, slice: array<Resource>,
                        bs: seq<Resource>, ov: seq<Resource>, s0: seq<Resource>, i: nat, sliceIndex: nat)
    reads baseline, overwrite, slice
  {
    && i <= |bs| && |s0| == slice.Length
    && var p := BaselinePass(bs[..i], ov);
    && sliceIndex == |p.out| <= slice.Length
    && slice[..] == p.out + s0[sliceIndex..]
    && baseline[..] == p.base + bs[i..]
    && overwrite[..] == p.over
  }

  /** One round of the first loop: `ok` is false exactly when its write would fall outside `slice`. */
  method BaselineRound(baseline: array<Resource>, overwrite: array<Resource>, slice: array<Resource>,
                       i: nat, sliceIndex: nat, ghost bs: seq<Resource>, ghost ov: seq<Resource>, ghost s0: seq<Resource>)
    returns (next: nat, ok: bool)
    requires baseline != overwrite && slice != baseline && slice != overwrite
    requires Round(baseline, overwrite, slice, bs, ov, s0, i, sliceIndex) && i < |bs|
    modifies baseline, overwrite, slice
    ensures ok ==> Round(baseline, overwrite, slice, bs, ov, s0, i + 1, next)
    ensures !ok ==> |BaselinePass(bs[..i + 1], ov).out| > slice.Length
    ensures !ok ==>
      && baseline[..] == BaselinePass(bs[..i + 1], ov).base + bs[i + 1..]
      && overwrite[..] == BaselinePass(bs[..i], ov).over
  {
    ghost var p := BaselinePass(bs[..i], ov);
    assert bs[..i + 1][..i] == bs[..i];
    ghost var q := BaselinePass(bs[..i + 1], ov);
    assert bs[i..][1..] == bs[i + 1..];
    var obj := baseline[i];
    assert obj == bs[i];
    var j, found := FindOpenShiftObject(obj, overwrite);
    next, ok := sliceIndex, true;
    if found.None? {
      assert q == Pass(p.out + [obj], p.base + [obj], p.over);
      if sliceIndex >= slice.Length {
        assert bs[i..] == [obj] + bs[i + 1..];
        assert baseline[..] == q.base + bs[i + 1..];
        return next, false;
      }
      Put(slice, sliceIndex, p.out, s0[sliceIndex..], obj);
      Put(baseline, i, p.base, bs[i..], obj);
      next := sliceIndex + 1;
    } else if !IsDeleteTagged(found.value) {
      var merged := DeepMerge(obj, found.value);
      assert q == Pass(p.out + [merged], p.base + [merged], p.over[j := TagDeleted(p.over[j])]);
      Put(baseline, i, p.base, bs[i..], merged);
      if sliceIndex >= slice.Length {
        assert baseline[..] == q.base + bs[i + 1..] && overwrite[..] == p.over;
        return next, false;
      }
      Put(slice, sliceIndex, p.out, s0[sliceIndex..], merged);
      next := sliceIndex + 1;
      overwrite[j] := TagDeleted(overwrite[j]);
    } else {
      assert q == Pass(p.out, p.base + [obj], p.over);
      Put(baseline, i, p.base, bs[i..], obj);
    }
  }

  /**
   * The second loop of `mergeObjects` (lines 216-221): appends the untagged overwrite items
   * from slot `start`; `ok` is false exactly when a write would fall outside `slice`.
   */
  method AppendUntagged(overwrite: array<Resource>, slice: array<Resource>, start: nat) returns (ok: bool)
    requires slice != overwrite && start <= slice.Length
    modifies slice
    ensures ok <==> start + |Untagged(overwrite[..])| <= slice.Length
    ensures ok ==>
      slice[..] == old(slice[..start]) + Untagged(overwrite[..]) + old(slice[start + |Untagged(overwrite[..])|..])
  {
    ghost var s0, ov := slice[..], overwrite[..];
    var sliceIndex := start;
    for k := 0 to overwrite.Length
      invariant sliceIndex == start + |Untagged(ov[..k])| <= slice.Length
      invariant slice[..] == s0[..start] + Untagged(ov[..k]) + s0[sliceIndex..]
    {
      assert ov[..k + 1][..k] == ov[..k];
      var obj := overwrite[k];
      if !IsDeleteTagged(obj) {
        assert Untagged(ov[..k + 1]) == Untagged(ov[..k]) + [obj];
        if sliceIndex >= slice.Length {
          UntaggedGrows(ov, k + 1);
          return false;
        }
        ghost var front := s0[..start] + Untagged(ov[..k]);
        Put(slice, sliceIndex, front, s0[sliceIndex..], obj);
        assert s0[sliceIndex..][1..] == s0[sliceIndex + 1..];
        assert front + [obj] == s0[..start] + Untagged(ov[..k + 1]);
        sliceIndex := sliceIndex + 1;
      } else {
        assert Untagged(ov[..k + 1]) == Untagged(ov[..k]);
      }
    }
    assert ov[..overwrite.Length] == ov;
    ok := true;
  }

  /**
   * `mergeObjects`: fills `slice` from slot 0 with `MergedObjects`, replaces each merged
   * baseline item in place and tags each matched overwrite item in place. `ok` is false
   * exactly when a write would fall outside `slice` (a Go panic).
   */
  method MergeObjects(baseline: array<Resource>, overwrite: array<Resource>, slice: array<Resource>) returns (ok: bool)
    requires baseline != overwrite && slice != baseline && slice != overwrite
    modifies baseline, overwrite, slice
    ensures ok <==> |MergedObjects(old(baseline[..]), old(overwrite[..]))| <= slice.Length
    ensures ok ==>
      var m := MergedObjects(old(baseline[..]), old(overwrite[..]));
      var p := BaselinePass(old(baseline[..]), old(overwrite[..]));
      && slice[..|m|] == m
      && slice[|m|..] == old(slice[|m|..])
      && baseline[..] == p.base
      && overwrite[..] == p.over
    ensures !ok ==>
      var p := HaltedPass(old(baseline[..]), old(overwrite[..]), slice.Length);
      baseline[..] == p.base && overwrite[..] == p.over
  {
    ghost var p := BaselinePass(baseline[..], overwrite[..]);
    ghost var s0 := slice[..];
    var sliceIndex;
    sliceIndex, ok := MergeBaseline(baseline, overwrite, slice);
    if !ok {
      return;
    }
    ghost var s1 := slice[..];
    ok := AppendUntagged(overwrite, slice, sliceIndex);
    if ok {
      var m := MergedObjects(old(baseline[..]), old(overwrite[..]));
      assert s1[..sliceIndex] == p.out;
      assert slice[..] == m + s0[|m|..];
    }
  }

  // ---------------------------------------------------------------------------------------
  // The per-kind wrappers and `merge`

  /**
   * What a per-kind wrapper (`mergeServices` and its six siblings) returns: the baseline
   * itself when there is nothing to overwrite, the overwrite list itself when the baseline is
   * empty, and otherwise a slice of `combinedSize` zero values filled by `mergeObjects`.
   * `None` is a Go panic: a negative size, or more items than slots.
   */
  function MergedList(bs: seq<Resource>, ov: seq<Resource>): Option<seq<Resource>>
  {
    if |ov| == 0 then Some(bs)
    else if |bs| == 0 then Some(ov)
    else
      var n := CombinedCount(bs, ov);
      var m := MergedObjects(bs, ov);
      if n < 0 || |m| > n then None else Some(m + Zeros(n - |m|))
  }

  /** The zero values `make` fills a fresh slice with. */
  function Zeros(n: nat): (z: seq<Resource>)
    ensures |z| == n && forall k :: 0 <= k < n ==> z[k] == ZeroResource
  {
    seq(n, _ => ZeroResource)
  }

  /** The overwrite list after a successful per-kind wrapper: tagged only when both lists were non-empty. */
  function TaggedOverwrite(bs: seq<Resource>, ov: seq<Resource>): seq<Resource>
  {
    if |ov| == 0 || |bs| == 0 then ov else BaselinePass(bs, ov).over
  }

  /**
   * Theorem: with unique names in each non-empty list, a per-kind wrapper does not panic
   * and returns exactly the declarative merge, with no zero-valued slot left over.
   */
  lemma MergedListIsDeclarative(bs: seq<Resource>, ov: seq<Resource>)
    requires UniqueNames(bs) && UniqueNames(ov) && |bs| > 0 && |ov| > 0
    ensures MergedList(bs, ov) == Some(DeclarativeMerge(bs, ov))
  {
    CombinedCountIsSize(bs, ov);
    MergedObjectsIsDeclarative(bs, ov);
    var m := MergedObjects(bs, ov);
    assert m + Zeros(0) == m;
  }

  /** Two live overwrite items sharing a name both survive, one slot more than `combinedSize` reserves. */
  lemma DuplicateOverwriteNamesPanic()
    ensures var a := Resource("a", "", map[], map[], map[], map[], false);
      MergedList([a], [a, a]).None?
  {
    var a := Resource("a", "", map[], map[], map[], map[], false);
    var ov := [a, a];
    assert [a][..0] == [] && ov[..1] == [a] && [a][..1] == [a] && [a, a][..0] == [];
    assert IndexOfName("a", [a]) == Some(0);
    assert IndexOfName("a", ov) == Some(0);
    assert BaselinePass([], ov) == Pass([], [], ov);
    var p := BaselinePass([a], ov);
    assert p.over == [TagDeleted(a), a];
    var t := [TagDeleted(a), a];
    assert t[..1] == [TagDeleted(a)] && t[..0] == [];
    assert Untagged(t) == [a];
    assert |MergedObjects([a], ov)| == 2;
    assert CountUnmatchedLive([a], [a]) == 0;
    assert CountUnmatchedLive([a], ov) == 0;
    assert CountMatchedDeleted([a], [a]) == 0;
    assert CountMatchedDeleted([a], ov) == 0;
  }

  /** An empty baseline returns the overwrite list as is, tombstones included. */
  lemma EmptyBaselineKeepsTombstones(ov: seq<Resource>)
    requires |ov| > 0
    ensures MergedList([], ov) == Some(ov)
    ensures (exists k :: 0 <= k < |ov| && IsDeleteTagged(ov[k])) ==> MergedList([], ov) != Some(DeclarativeMerge([], ov))
  {
    if k :| 0 <= k < |ov| && IsDeleteTagged(ov[k]) {
      var d := DeclarativeMerge([], ov);
      if d == ov {
        NoTombstoneInAdditions([], ov, k);
      }
    }
  }

  lemma {:induction false} NoTombstoneInAdditions(bs: seq<Resource>, ov: seq<Resource>, k: nat)
    requires k < |ov| && IsDeleteTagged(ov[k])
    ensures |Additions(bs, ov)| < |ov|
    decreases |ov|
  {
    var pre := ov[..|ov| - 1];
    if k < |ov| - 1 {
      assert pre[k] == ov[k];
      NoTombstoneInAdditions(bs, pre, k);
    } else {
      AdditionsShorter(bs, pre);
    }
  }

  lemma {:induction false} AdditionsShorter(bs: seq<Resource>, ov: seq<Resource>)
    ensures |Additions(bs, ov)| <= |ov|
    decreases |ov|
  {
    if |ov| > 0 {
      AdditionsShorter(bs, ov[..|ov| - 1]);
    }
  }

  /**
   * A per-kind wrapper (`mergeServices` and its six siblings) over the two slices, which are
   * arrays here: it returns the baseline array itself when the overwrite is empty, the
   * overwrite array itself when the baseline is empty, and otherwise a fresh array of
   * `combinedSize` slots filled by `mergeObjects`.
   */
  method MergeList(baseline: array<Resource>, overwrite: array<Resource>) returns (result: array<Resource>, ok: bool)
    requires baseline != overwrite
    modifies baseline, overwrite
    ensures ok <==> MergedList(old(baseline[..]), old(overwrite[..])).Some?
    ensures ok ==> result[..] == MergedList(old(baseline[..]), old(overwrite[..])).value
    ensures ok ==> overwrite[..] == TaggedOverwrite(old(baseline[..]), old(overwrite[..]))
    ensures overwrite.Length == 0 ==> result == baseline && unchanged(baseline)
    ensures overwrite.Length > 0 && baseline.Length == 0 ==> result == overwrite && unchanged(overwrite)
    ensures ok && overwrite.Length > 0 && baseline.Length > 0 ==> fresh(result)
    ensures ok && overwrite.Length > 0 && baseline.Length > 0 ==>
      baseline[..] == BaselinePass(old(baseline[..]), old(overwrite[..])).base
    ensures !ok ==>
      var n := CombinedCount(old(baseline[..]), old(overwrite[..]));
      if n < 0 then unchanged(baseline, overwrite)
      else
        var p := HaltedPass(old(baseline[..]), old(overwrite[..]), n);
        baseline[..] == p.base && overwrite[..] == p.over
  {
    if overwrite.Length == 0 {
      return baseline, true;
    } else if baseline.Length == 0 {
      return overwrite, true;
    }
    result, ok := MergeBoth(baseline, overwrite);
  }

  /** The branch of a per-kind wrapper where both lists are non-empty. */
  method MergeBoth(baseline: array<Resource>, overwrite: array<Resource>) returns (result: array<Resource>, ok: bool)
    requires baseline != overwrite && baseline.Length > 0 && overwrite.Length > 0
    modifies baseline, overwrite
    ensures ok <==> MergedList(old(baseline[..]), old(overwrite[..])).Some?
    ensures ok ==>
      && fresh(result)
      && result[..] == MergedList(old(baseline[..]), old(overwrite[..])).value
      && baseline[..] == BaselinePass(old(baseline[..]), old(overwrite[..])).base
      && overwrite[..] == BaselinePass(old(baseline[..]), old(overwrite[..])).over
    ensures !ok ==>
      var n := CombinedCount(old(baseline[..]), old(overwrite[..]));
      if n < 0 then unchanged(baseline, overwrite)
      else
        var p := HaltedPass(old(baseline[..]), old(overwrite[..]), n);
        baseline[..] == p.base && overwrite[..] == p.over
  {
    ghost var bs, ov := baseline[..], overwrite[..];
    var size := CombinedSize(baseline, overwrite);
    assert size == CombinedCount(bs, ov);
    if size < 0 {
      return overwrite, false;
    }
    result := new Resource[size](_ => ZeroResource);
    assert result[..] == Zeros(size);
    ok := MergeObjects(baseline, overwrite, result);
    if ok {
      var m := MergedObjects(bs, ov);
      assert result[|m|..] == Zeros(size)[|m|..] == Zeros(size - |m|);
      assert result[..] == result[..|m|] + result[|m|..];
    }
  }

  /** A per-kind wrapper on values: the merged list and the overwrite list as the wrapper leaves it. */
  method MergeKind(bs: seq<Resource>, ov: seq<Resource>) returns (merged: seq<Resource>, tagged: seq<Resource>, ok: bool)
    ensures ok <==> MergedList(bs, ov).Some?
    ensures ok ==> merged == MergedList(bs, ov).value && tagged == TaggedOverwrite(bs, ov)
  {
    var baseline := new Resource[|bs|](i requires 0 <= i < |bs| => bs[i]);
    var overwrite := new Resource[|ov|](i requires 0 <= i < |ov| => ov[i]);
    assert baseline[..] == bs && overwrite[..] == ov;
    var result;
    result, ok := MergeList(baseline, overwrite);
    merged, tagged := result[..], overwrite[..];
  }

  /** Every per-kind wrapper `merge` calls succeeds. */
  predicate MergeSucceeds(baseline: CustomObject, overwrite: CustomObject)
  {
    && MergedList(baseline.persistentVolumeClaims, overwrite.persistentVolumeClaims).Some?
    && MergedList(baseline.serviceAccounts, overwrite.serviceAccounts).Some?
    && MergedList(baseline.secrets, overwrite.secrets).Some?
    && MergedList(baseline.roleBindings, overwrite.roleBindings).Some?
    && MergedList(baseline.deploymentConfigs, overwrite.deploymentConfigs).Some?
    && MergedList(baseline.services, overwrite.services).Some?
    && MergedList(baseline.routes, overwrite.routes).Some?
  }

  /**
   * `merge`: the seven merged kinds of `baseline` are replaced by their per-kind merge, in
   * the order the source calls them; roles, build configs, image streams, stateful sets and
   * the `omit` flag are never touched. `tagged` is the overwrite object with its tombstones
   * as the wrappers leave them. `ok` is false when one of the wrappers panics.
   */
  method Merge(baseline: CustomObject, overwrite: CustomObject) returns (merged: CustomObject, tagged: CustomObject, ok: bool)
    ensures ok <==> MergeSucceeds(baseline, overwrite)
    ensures ok ==> merged == baseline.(
      persistentVolumeClaims := MergedList(baseline.persistentVolumeClaims, overwrite.persistentVolumeClaims).value,
      serviceAccounts := MergedList(baseline.serviceAccounts, overwrite.serviceAccounts).value,
      secrets := MergedList(baseline.secrets, overwrite.secrets).value,
      roleBindings := MergedList(baseline.roleBindings, overwrite.roleBindings).value,
      deploymentConfigs := MergedList(baseline.deploymentConfigs, overwrite.deploymentConfigs).value,
      services := MergedList(baseline.services, overwrite.services).value,
      routes := MergedList(baseline.routes, overwrite.routes).value)
    ensures ok ==> tagged == overwrite.(
      persistentVolumeClaims := TaggedOverwrite(baseline.persistentVolumeClaims, overwrite.persistentVolumeClaims),
      serviceAccounts := TaggedOverwrite(baseline.serviceAccounts, overwrite.serviceAccounts),
      secrets := TaggedOverwrite(baseline.secrets, overwrite.secrets),
      roleBindings := TaggedOverwrite(baseline.roleBindings, overwrite.roleBindings),
      deploymentConfigs := TaggedOverwrite(baseline.deploymentConfigs, overwrite.deploymentConfigs),
      services := TaggedOverwrite(baseline.services, overwrite.services),
      routes := TaggedOverwrite(baseline.routes, overwrite.routes))
  {
    merged, tagged := baseline, overwrite;
    var m, t;
    m, t, ok := MergeKind(baseline.persistentVolumeClaims, overwrite.persistentVolumeClaims);
    if !ok { return; }
    merged, tagged := merged.(persistentVolumeClaims := m), tagged.(persistentVolumeClaims := t);
    m, t, ok := MergeKind(baseline.serviceAccounts, overwrite.serviceAccounts);
    if !ok { return; }
    merged, tagged := merged.(serviceAccounts := m), tagged.(serviceAccounts := t);
    m, t, ok := MergeKind(baseline.secrets, overwrite.secrets);
    if !ok { return; }
    merged, tagged := merged.(secrets := m), tagged.(secrets := t);
    m, t, ok := MergeKind(baseline.roleBindings, overwrite.roleBindings);
    if !ok { return; }
    merged, tagged := merged.(roleBindings := m), tagged.(roleBindings := t);
    m, t, ok := MergeKind(baseline.deploymentConfigs, overwrite.deploymentConfigs);
    if !ok { return; }
    merged, tagged := merged.(deploymentConfigs := m), tagged.(deploymentConfigs := t);
    m, t, ok := MergeKind(baseline.services, overwrite.services);
    if !ok { return; }
    merged, tagged := merged.(services := m), tagged.(services := t);
    m, t, ok := MergeKind(baseline.routes, overwrite.routes);
    if !ok { return; }
    merged, tagged := merged.(routes := m), tagged.(routes := t);
  }

  // The services scenario of the merge test.
  const ScenarioS := Resource("svc", "ns", map["source" := "baseline", "baseline" := "true"], map[], map[], map[], false)
  const ScenarioS' := Resource("svc", "ns", map["source" := "overwrite", "overwrite" := "true"], map[], map[], map[], false)
  const ScenarioS2 := ScenarioS.(name := "svc-2")
  const ScenarioS3 := ScenarioS'.(name := "svc-3")
  const ScenarioS4 := ScenarioS.(name := "svc-4")
  const ScenarioS5 := ScenarioS'.(name := "svc-4", annotations := map["delete" := "true"])
  const ScenarioBaseline := [ScenarioS, ScenarioS2, ScenarioS4]
  const ScenarioOverwrite := [ScenarioS', ScenarioS3, ScenarioS5]

  lemma ScenarioSurvivors()
    ensures Survivors(ScenarioBaseline, ScenarioOverwrite) == [DeepMerge(ScenarioS, ScenarioS'), ScenarioS2]
  {
    var bs, ov := ScenarioBaseline, ScenarioOverwrite;
    assert bs[..2] == [ScenarioS, ScenarioS2] && bs[..1] == [ScenarioS] && bs[..0] == [];
    assert ov[..2] == [ScenarioS', ScenarioS3] && ov[..1] == [ScenarioS'];
    assert IndexOfName("svc", ov[..1]) == Some(0);
    assert IndexOfName("svc", ov[..2]) == Some(0);
    assert IndexOfName("svc", ov) == Some(0);
    assert IndexOfName("svc-2", ov).None?;
    assert IndexOfName("svc-4", ov[..2]).None?;
    assert IndexOfName("svc-4", ov) == Some(2);
    assert Survivors([], ov) == [];
    assert Survivors([ScenarioS], ov) == [DeepMerge(ScenarioS, ScenarioS')];
    assert Survivors([ScenarioS, ScenarioS2], ov) == [DeepMerge(ScenarioS, ScenarioS'), ScenarioS2];
  }

  lemma ScenarioAdditions()
    ensures Additions(ScenarioBaseline, ScenarioOverwrite) == [ScenarioS3]
  {
    var bs, ov := ScenarioBaseline, ScenarioOverwrite;
    assert bs[..2] == [ScenarioS, ScenarioS2] && bs[..1] == [ScenarioS];
    assert ov[..2] == [ScenarioS', ScenarioS3] && ov[..1] == [ScenarioS'] && ov[..0] == [];
    assert IndexOfName("svc", bs[..1]) == Some(0);
    assert IndexOfName("svc", bs[..2]) == Some(0);
    assert IndexOfName("svc", bs) == Some(0);
    assert IndexOfName("svc-3", bs).None?;
    assert Additions(bs, ov[..1]) == [];
    assert Additions(bs, ov[..2]) == [ScenarioS3];
  }

  lemma ScenarioMergedLabels()
    ensures var l := DeepMerge(ScenarioS, ScenarioS').labels;
      && l.Keys == {"source", "baseline", "overwrite"}
      && l["source"] == "overwrite" && l["baseline"] == "true" && l["overwrite"] == "true"
  {
    var l := DeepMerge(ScenarioS, ScenarioS').labels;
    assert l == ScenarioS.labels + ScenarioS'.labels;
    assert ScenarioS.labels.Keys == {"source", "baseline"};
    assert ScenarioS'.labels.Keys == {"source", "overwrite"};
  }

  /**
   * The services scenario of the merge test: baseline [s, s-2, s-4], overwrite
   * [s', s-3, s-4 tagged delete] gives three services: s merged with s' (labels of both,
   * overwrite's "source" winning), s-2 unchanged, s-3 appended.
   */
  lemma MergeServicesScenario()
    ensures
      var r := MergedList(ScenarioBaseline, ScenarioOverwrite);
      && r.Some? && |r.value| == 3
      && r.value[0].name == "svc"
      && r.value[0].labels.Keys == {"source", "baseline", "overwrite"}
      && r.value[0].labels["source"] == "overwrite"
      && r.value[0].labels["baseline"] == "true"
      && r.value[0].labels["overwrite"] == "true"
      && r.value[1] == ScenarioS2
      && r.value[2] == ScenarioS3
  {
    assert UniqueNames(ScenarioBaseline) && UniqueNames(ScenarioOverwrite);
    MergedListIsDeclarative(ScenarioBaseline, ScenarioOverwrite);
    ScenarioSurvivors();
    ScenarioAdditions();
    ScenarioMergedLabels();
  }
}

=== FILE: reconciliation.dfy ===
/**
 * The desired-versus-existing diff of `helper/reconciliation.go`. For each object type,
 * `compare` lists the existing objects of the type, pairs them by name with the requested
 * objects, and sorts the requested objects into created, updated and deleted; `Reconcile`
 * then applies creates, updates and deletes type by type, stopping at the first error.
 *
 * `O` stands for a `runtime.Object` interface value, that is, a reference: equality on `O` is
 * pointer identity, which is what the `found` map of `compare` is keyed by. The cluster
 * client and the option callbacks are function values; their side effects on the cluster are
 * not modelled, only the error each call returns.
 */
module Reconciliation {
  import opened Wrappers

  /** The list types `knownType.ListObject` allocates. */
  datatype ListKind = PodList | DeploymentConfigList | BuildConfigList

  /** A list object after `client.List` filled it. */
  datatype FilledList<O> = FilledList(kind: ListKind, items: seq<O>)

  /** The client calls `compare` and the default callbacks make; `Some(e)` is an error. */
  datatype Client<!O> = Client(
    list: (string, ListKind) -> Result<FilledList<O>, string>,
    create: O -> Option<string>,
    update: O -> Option<string>,
    delete: O -> Option<string>)

  /** `Options`: every callback may be nil. */
  datatype Options<!O> = Options(
    listItems: Option<FilledList<O> -> seq<O>>,
    compareItems: Option<(string, O, O) -> bool>,
    getName: Option<(string, O) -> string>,
    getNamespace: Option<(string, O) -> string>,
    createObject: Option<O -> Option<string>>,
    updateObject: Option<O -> Option<string>>,
    deleteObject: Option<O -> Option<string>>)

  /** `reconciliationHelper` once `New` has filled the defaults; `compareItems` can still be nil. */
  datatype Helper<!O> = Helper(
    client: Client<O>,
    listItems: FilledList<O> -> seq<O>,
    compareItems: Option<(string, O, O) -> bool>,
    getName: (string, O) -> string,
    getNamespace: (string, O) -> string,
    createObject: O -> Option<string>,
    updateObject: O -> Option<string>,
    deleteObject: O -> Option<string>)

  /**
   * `New`: refuses a nil client; otherwise every nil callback gets its default (no items,
   * the placeholder name "Name" and namespace "Namespace", or the client's own create,
   * update and delete) and every supplied callback is kept. `CompareItems` is never defaulted.
   */
  method New<O>(client: Option<Client<O>>, options: Options<O>) returns (helper: Result<Helper<O>, string>)
    ensures helper.Failure? <==> client.None?
    ensures helper.Success? ==>
      var h := helper.value;
      && h.client == client.value
      && h.compareItems == options.compareItems
      && (options.listItems.Some? ==> h.listItems == options.listItems.value)
      && (options.listItems.None? ==> forall l :: h.listItems(l) == [])
      && (options.getName.Some? ==> h.getName == options.getName.value)
      && (options.getName.None? ==> forall t, o :: h.getName(t, o) == "Name")
      && (options.getNamespace.Some? ==> h.getNamespace == options.getNamespace.value)
      && (options.getNamespace.None? ==> forall t, o :: h.getNamespace(t, o) == "Namespace")
      && h.createObject == (if options.createObject.Some? then options.createObject.value else client.value.create)
      && h.updateObject == (if options.updateObject.Some? then options.updateObject.value else client.value.update)
      && h.deleteObject == (if options.deleteObject.Some? then options.deleteObject.value else client.value.delete)
  {
    if client.None? {
      return Failure("Cannot create a reconciliation helper without a client");
    }
    var c := client.value;
    var opts := options;
    if opts.listItems.None? {
      opts := opts.(listItems := Some((l: FilledList<O>) => []));
    }
    if opts.getName.None? {
      opts := opts.(getName := Some((t: string, o: O) => "Name"));
    }
    if opts.getNamespace.None? {
      opts := opts.(getNamespace := Some((t: string, o: O) => "Namespace"));
    }
    if opts.createObject.None? {
      opts := opts.(createObject := Some(c.create));
    }
    if opts.updateObject.None? {
      opts := opts.(updateObject := Some(c.update));
    }
    if opts.deleteObject.None? {
      opts := opts.(deleteObject := Some(c.delete));
    }
    return Success(Helper(c, opts.listItems.value, opts.compareItems, opts.getName.value,
      opts.getNamespace.value, opts.createObject.value, opts.updateObject.value, opts.deleteObject.value));
  }

  /** `knownType.ListObject`: the list type of a known object type; `None` is the panic on any other. */
  function ListObject(t: string): (r: Option<ListKind>)
    ensures r == Some(PodList) <==> t == "Pod"
    ensures r == Some(DeploymentConfigList) <==> t == "DeploymentConfig"
    ensures r == Some(BuildConfigList) <==> t == "BuildConfig"
    ensures r.None? <==> t !in {"Pod", "DeploymentConfig", "BuildConfig"}
  {
    if t == "Pod" then Some(PodList)
    else if t == "DeploymentConfig" then Some(DeploymentConfigList)
    else if t == "BuildConfig" then Some(BuildConfigList)
    else None
  }

  datatype Changes<O> = Changes(created: seq<O>, updated: seq<O>, deleted: seq<O>)

  // ---------------------------------------------------------------------------------------
  // The classification of one type, as functions of the two lists.

  /** The requested objects named like `e` (the inner loop's `found[requested] = true`). */
  function MatchedBy<O(==)>(h: Helper<O>, t: string, e: O, rs: seq<O>): set<O>
    decreases |rs|
  {
    if |rs| == 0 then {}
    else
      MatchedBy(h, t, e, rs[..|rs| - 1])
        + (if h.getName(t, e) == h.getName(t, rs[|rs| - 1]) then {rs[|rs| - 1]} else {})
  }

  /** The `found` map after the nested loops, as a set. */
  function Found<O(==)>(h: Helper<O>, t: string, es: seq<O>, rs: seq<O>): set<O>
    decreases |es|
  {
    if |es| == 0 then {} else Found(h, t, es[..|es| - 1], rs) + MatchedBy(h, t, es[|es| - 1], rs)
  }

  /** What the inner loop appends to `updated` for existing object `e`. */
  function UpdatedFor<O>(h: Helper<O>, t: string, e: O, rs: seq<O>): seq<O>
    decreases |rs|
  {
    if |rs| == 0 then []
    else
      var r := rs[|rs| - 1];
      UpdatedFor(h, t, e, rs[..|rs| - 1])
        + (if h.getName(t, e) == h.getName(t, r) && h.compareItems.Some? && !h.compareItems.value(t, e, r)
           then [r] else [])
  }

  function Updated<O>(h: Helper<O>, t: string, es: seq<O>, rs: seq<O>): seq<O>
    decreases |es|
  {
    if |es| == 0 then [] else Updated(h, t, es[..|es| - 1], rs) + UpdatedFor(h, t, es[|es| - 1], rs)
  }

  function Deleted<O(==)>(h: Helper<O>, t: string, es: seq<O>, rs: seq<O>): seq<O>
    decreases |es|
  {
    if |es| == 0 then []
    else
      var e := es[|es| - 1];
      Deleted(h, t, es[..|es| - 1], rs) + (if MatchedBy(h, t, e, rs) == {} then [e] else [])
  }

  /** The `created` loop as written: each unfound object replaces `created` with `deleted ++ [it]`. */
  function CreatedAsWritten<O(==)>(deleted: seq<O>, rs: seq<O>, found: set<O>): seq<O>
    decreases |rs|
  {
    if |rs| == 0 then []
    else if rs[|rs| - 1] !in found then deleted + [rs[|rs| - 1]]
    else CreatedAsWritten(deleted, rs[..|rs| - 1], found)
  }

  /** The `created` loop as intended: every unfound requested object, in requested order. */
  function Created<O(==)>(rs: seq<O>, found: set<O>): seq<O>
    decreases |rs|
  {
    if |rs| == 0 then [] else Created(rs[..|rs| - 1], found) + (if rs[|rs| - 1] !in found then [rs[|rs| - 1]] else [])
  }

  /**
   * The changes `compare` computes for one type, with `created` built as line 180 writes it
   * (`asWritten`) or as intended; `None` is the panic of calling a nil `CompareItems`, which
   * happens exactly when some pair of existing and requested objects shares a name.
   */
  function TypeChanges<O(==)>(h: Helper<O>, t: string, es: seq<O>, rs: seq<O>, asWritten: bool): Option<Changes<O>>
  {
    if h.compareItems.None? && Found(h, t, es, rs) != {} then None
    else
      var found, deleted := Found(h, t, es, rs), Deleted(h, t, es, rs);
      var created := if asWritten then CreatedAsWritten(deleted, rs, found) else Created(rs, found);
      Some(Changes(created, Updated(h, t, es, rs), deleted))
  }

  // ---------------------------------------------------------------------------------------
  // What the classification means

  predicate SameName<O>(h: Helper<O>, t: string, a: O, b: O)
  {
    h.getName(t, a) == h.getName(t, b)
  }

  lemma {:induction false} MatchedByExactly<O>(h: Helper<O>, t: string, e: O, rs: seq<O>, r: O)
    ensures r in MatchedBy(h, t, e, rs) <==> r in rs && SameName(h, t, e, r)
    decreases |rs|
  {
    if |rs| > 0 {
      MatchedByExactly(h, t, e, rs[..|rs| - 1], r);
      assert rs == rs[..|rs| - 1] + [rs[|rs| - 1]];
    }
  }

  /** A requested object is found exactly when some existing object shares its name. */
  lemma {:induction false} FoundExactly<O>(h: Helper<O>, t: string, es: seq<O>, rs: seq<O>, r: O)
    ensures r in Found(h, t, es, rs) <==> r in rs && exists e :: e in es && SameName(h, t, e, r)
    decreases |es|
  {
    if |es| > 0 {
      var pre, e := es[..|es| - 1], es[|es| - 1];
      FoundExactly(h, t, pre, rs, r);
      MatchedByExactly(h, t, e, rs, r);
      assert es == pre + [e];
      if r in rs && (exists x :: x in es && SameName(h, t, x, r)) {
        var x :| x in es && SameName(h, t, x, r);
        if x != e {
          assert x in pre;
        }
      }
    }
  }

  /** `deleted` holds exactly the existing objects no requested object is named like, in existing order. */
  lemma {:induction false} DeletedExactly<O>(h: Helper<O>, t: string, es: seq<O>, rs: seq<O>, x: O)
    ensures x in Deleted(h, t, es, rs) <==> x in es && forall r :: r in rs ==> !SameName(h, t, x, r)
    ensures |Deleted(h, t, es, rs)| <= |es|
    decreases |es|
  {
    if |es| > 0 {
      var pre, e := es[..|es| - 1], es[|es| - 1];
      DeletedExactly(h, t, pre, rs, x);
      assert es == pre + [e];
      if MatchedBy(h, t, e, rs) != {} {
        var r :| r in MatchedBy(h, t, e, rs);
        MatchedByExactly(h, t, e, rs, r);
      } else {
        forall r | r in rs ensures !SameName(h, t, e, r) {
          MatchedByExactly(h, t, e, rs, r);
        }
      }
    }
  }

  /** As intended, `created` holds exactly the requested objects no existing object is named like. */
  lemma CreatedExactly<O>(h: Helper<O>, t: string, es: seq<O>, rs: seq<O>, r: O)
    ensures r in Created(rs, Found(h, t, es, rs)) <==> r in rs && forall e :: e in es ==> !SameName(h, t, e, r)
  {
    FoundExactly(h, t, es, rs, r);
    CreatedMembers(rs, Found(h, t, es, rs), r);
  }

  lemma {:induction false} CreatedMembers<O>(rs: seq<O>, found: set<O>, r: O)
    ensures r in Created(rs, found) <==> r in rs && r !in found
    decreases |rs|
  {
    if |rs| > 0 {
      CreatedMembers(rs[..|rs| - 1], found, r);
      assert rs == rs[..|rs| - 1] + [rs[|rs| - 1]];
    }
  }

  /** `updated` holds a requested object exactly when it is named like an existing object that compares unequal to it. */
  lemma {:induction false} UpdatedExactly<O>(h: Helper<O>, t: string, es: seq<O>, rs: seq<O>, r: O)
    requires h.compareItems.Some?
    ensures r in Updated(h, t, es, rs) <==>
      r in rs && exists e :: e in es && SameName(h, t, e, r) && !h.compareItems.value(t, e, r)
    decreases |es|
  {
    if |es| > 0 {
      var pre, e := es[..|es| - 1], es[|es| - 1];
      UpdatedExactly(h, t, pre, rs, r);
      UpdatedForExactly(h, t, e, rs, r);
      assert es == pre + [e];
      if r in rs && exists x :: x in es && SameName(h, t, x, r) && !h.compareItems.value(t, x, r) {
        var x :| x in es && SameName(h, t, x, r) && !h.compareItems.value(t, x, r);
        if x != e {
          assert x in pre;
        }
      }
    }
  }

  lemma {:induction false} UpdatedForExactly<O>(h: Helper<O>, t: string, e: O, rs: seq<O>, r: O)
    requires h.compareItems.Some?
    ensures r in UpdatedFor(h, t, e, rs) <==> r in rs && SameName(h, t, e, r) && !h.compareItems.value(t, e, r)
    decreases |rs|
  {
    if |rs| > 0 {
      UpdatedForExactly(h, t, e, rs[..|rs| - 1], r);
      assert rs == rs[..|rs| - 1] + [rs[|rs| - 1]];
    }
  }

  /** Pairs that compare equal add nothing: with a comparator that always says equal, nothing is updated. */
  lemma {:induction false} EqualPairsNotUpdated<O>(h: Helper<O>, t: string, es: seq<O>, rs: seq<O>)
    requires h.compareItems.Some? && forall a, b :: h.compareItems.value(t, a, b)
    ensures Updated(h, t, es, rs) == []
    decreases |es|
  {
    if |es| > 0 {
      EqualPairsNotUpdated(h, t, es[..|es| - 1], rs);
      UpdatedForEmpty(h, t, es[|es| - 1], rs);
    }
  }

  lemma {:induction false} UpdatedForEmpty<O>(h: Helper<O>, t: string, e: O, rs: seq<O>)
    requires h.compareItems.Some? && forall a, b :: h.compareItems.value(t, a, b)
    ensures UpdatedFor(h, t, e, rs) == []
    decreases |rs|
  {
    if |rs| > 0 {
      UpdatedForEmpty(h, t, e, rs[..|rs| - 1]);
    }
  }

  /** When the cluster holds exactly the requested objects, every request is found. */
  lemma EveryRequestFound<O>(h: Helper<O>, t: string, rs: seq<O>)
    ensures forall r :: r in rs ==> r in Found(h, t, rs, rs)
  {
    forall r | r in rs ensures r in Found(h, t, rs, rs) {
      assert SameName(h, t, r, r);
      FoundExactly(h, t, rs, rs, r);
    }
  }

  /**
   * The steady state: when the cluster already holds exactly the requested objects and the
   * comparator finds each object equal to itself, there is nothing to create, update or
   * delete, with `created` as written or as intended.
   */
  lemma NothingToDoWhenInSync<O>(h: Helper<O>, t: string, rs: seq<O>, asWritten: bool)
    requires h.compareItems.Some?
    requires forall i, j :: 0 <= i < j < |rs| ==> !SameName(h, t, rs[i], rs[j])
    requires forall o :: h.compareItems.value(t, o, o)
    ensures TypeChanges(h, t, rs, rs, asWritten) == Some(Changes([], [], []))
  {
    var found, deleted, updated := Found(h, t, rs, rs), Deleted(h, t, rs, rs), Updated(h, t, rs, rs);
    assert deleted == [] by {
      if deleted != [] {
        DeletedExactly(h, t, rs, rs, deleted[0]);
      }
    }
    assert updated == [] by {
      if updated != [] {
        UpdatedExactly(h, t, rs, rs, updated[0]);
        assert false;
      }
    }
    if asWritten {
      EveryRequestFound(h, t, rs);
      CreatedAsWrittenShape(deleted, rs, found);
    } else {
      var created := Created(rs, found);
      if created != [] {
        CreatedExactly(h, t, rs, rs, created[0]);
      }
    }
  }

  /**
   * As written, `created` is `deleted` plus the last unfound requested object, or empty:
   * with existing [a] and requested [b, c], none sharing a name, it is [a, c] where [b, c]
   * is meant; `a` would be created although it exists and `b` never would be.
   */
  lemma CreatedAsWrittenCounterexample()
    ensures var h := NamesAreIdentity(["a"]);
      && CreatedAsWritten(Deleted(h, "Pod", ["a"], ["b", "c"]), ["b", "c"], Found(h, "Pod", ["a"], ["b", "c"])) == ["a", "c"]
      && Created(["b", "c"], Found(h, "Pod", ["a"], ["b", "c"])) == ["b", "c"]
  {
    var rs: seq<string> := ["b", "c"];
    CounterexampleClassified();
    assert rs[..1] == ["b"] && rs[..0] == [];
    assert CreatedAsWritten(["a"], rs, {}) == ["a", "c"];
    assert Created(rs[..1], {}) == ["b"];
  }

  /** In that input nothing is found or updated, and "a" is deleted. */
  lemma CounterexampleClassified()
    ensures var h := NamesAreIdentity(["a"]);
      && Found(h, "Pod", ["a"], ["b", "c"]) == {}
      && Deleted(h, "Pod", ["a"], ["b", "c"]) == ["a"]
      && Updated(h, "Pod", ["a"], ["b", "c"]) == []
  {
    var h := NamesAreIdentity(["a"]);
    var rs: seq<string> := ["b", "c"];
    var es: seq<string> := ["a"];
    assert h.getName("Pod", "a") == "a" && h.getName("Pod", "b") == "b" && h.getName("Pod", "c") == "c";
    assert es[..0] == [] && rs[..1] == ["b"] && rs[..0] == [];
    assert MatchedBy(h, "Pod", "a", rs[..1]) == {};
    assert MatchedBy(h, "Pod", "a", rs) == {};
    assert UpdatedFor(h, "Pod", "a", rs[..1]) == [];
  }

  /**
   * A helper over string objects that are their own names and equal only to themselves, with
   * callbacks that succeed, in a cluster whose every list holds `existing`.
   */
  function NamesAreIdentity(existing: seq<string>): Helper<string>
  {
    var ok := (o: string) => None;
    Helper(Client((ns: string, k: ListKind) => Success(FilledList(k, existing)), ok, ok, ok),
      (l: FilledList<string>) => l.items, Some((t: string, a: string, b: string) => a == b),
      (t: string, o: string) => o, (t: string, o: string) => "", ok, ok, ok)
  }

  /** `created` as written is empty exactly when every requested object was found, and otherwise ends in an unfound one. */
  lemma {:induction false} CreatedAsWrittenShape<O>(deleted: seq<O>, rs: seq<O>, found: set<O>)
    ensures CreatedAsWritten(deleted, rs, found) == [] <==> forall r :: r in rs ==> r in found
    ensures CreatedAsWritten(deleted, rs, found) != [] ==>
      exists k :: 0 <= k < |rs| && rs[k] !in found && CreatedAsWritten(deleted, rs, found) == deleted + [rs[k]]
        && forall j :: k < j < |rs| ==> rs[j] in found
    decreases |rs|
  {
    if |rs| > 0 {
      var pre := rs[..|rs| - 1];
      CreatedAsWrittenShape(deleted, pre, found);
      assert rs == pre + [rs[|rs| - 1]];
      if rs[|rs| - 1] in found && CreatedAsWritten(deleted, pre, found) != [] {
        var k :| 0 <= k < |pre| && pre[k] !in found && CreatedAsWritten(deleted, pre, found) == deleted + [pre[k]]
          && forall j :: k < j < |pre| ==> pre[j] in found;
        assert rs[k] == pre[k];
      }
    }
  }

  /** As written, a non-empty `created` is the whole of `deleted` followed by one more object. */
  predicate CreatedOverDeleted<O(==)>(c: Changes<O>)
  {
    c.created != [] ==> |c.created| == |c.deleted| + 1 && c.created[..|c.deleted|] == c.deleted
  }

  /**
   * For one type, as written: `created` is empty exactly when every requested object was
   * found, and otherwise repeats every object marked for deletion before one unfound request.
   */
  lemma TypeChangesAsWrittenShape<O>(h: Helper<O>, t: string, es: seq<O>, rs: seq<O>)
    requires TypeChanges(h, t, es, rs, true).Some?
    ensures var c := TypeChanges(h, t, es, rs, true).value;
      && (c.created == [] <==> forall r :: r in rs ==> r in Found(h, t, es, rs))
      && CreatedOverDeleted(c)
  {
    var c := TypeChanges(h, t, es, rs, true).value;
    CreatedAsWrittenShape(c.deleted, rs, Found(h, t, es, rs));
  }

  // ---------------------------------------------------------------------------------------
  // compare

  lemma FoundGrows<O>(h: Helper<O>, t: string, es: seq<O>, rs: seq<O>, i: nat)
    requires i <= |es|
    ensures Found(h, t, es[..i], rs) <= Found(h, t, es, rs)
    decreases |es|
  {
    if i < |es| {
      assert es[..|es| - 1][..i] == es[..i];
      FoundGrows(h, t, es[..|es| - 1], rs, i);
    } else {
      assert es[..i] == es;
    }
  }

  /**
   * The inner loop of `compare` (lines 163-173) for existing object `existing`: the requested
   * objects it matches by name and those among them that compare unequal; `panicked` is the
   * call of a nil `CompareItems`, which happens at the first match.
   */
  method MatchExisting<O(==)>(h: Helper<O>, t: string, existing: O, requestedObjects: seq<O>)
    returns (existingFound: bool, updated: seq<O>, found: set<O>, panicked: bool)
    ensures panicked <==> h.compareItems.None? && MatchedBy(h, t, existing, requestedObjects) != {}
    ensures !panicked ==>
      && found == MatchedBy(h, t, existing, requestedObjects)
      && (existingFound <==> found != {})
      && updated == UpdatedFor(h, t, existing, requestedObjects)
  {
    var rs := requestedObjects;
    existingFound, updated, found, panicked := false, [], {}, false;
    for k := 0 to |rs|
      invariant found == MatchedBy(h, t, existing, rs[..k])
      invariant existingFound <==> found != {}
      invariant updated == UpdatedFor(h, t, existing, rs[..k])
      invariant h.compareItems.None? ==> found == {}
    {
      assert rs[..k + 1][..k] == rs[..k];
      var requested := rs[k];
      if h.getName(t, existing) == h.getName(t, requested) {
        existingFound := true;
        found := found + {requested};
        if h.compareItems.None? {
          MatchedByGrows(h, t, existing, rs, k + 1);
          return existingFound, updated, found, true;
        }
        if !h.compareItems.value(t, existing, requested) {
          updated := updated + [requested];
        }
      }
    }
    assert rs[..|rs|] == rs;
  }

  lemma {:induction false} MatchedByGrows<O>(h: Helper<O>, t: string, e: O, rs: seq<O>, k: nat)
    requires k <= |rs|
    ensures MatchedBy(h, t, e, rs[..k]) <= MatchedBy(h, t, e, rs)
    decreases |rs|
  {
    if k < |rs| {
      assert rs[..|rs| - 1][..k] == rs[..k];
      MatchedByGrows(h, t, e, rs[..|rs| - 1], k);
    } else {
      assert rs[..k] == rs;
    }
  }

  /** The `created` loop of lines 178-182 with `created` extended, as intended. */
  method CreatedLoop<O(==)>(requestedObjects: seq<O>, found: set<O>) returns (created: seq<O>)
    ensures created == Created(requestedObjects, found)
  {
    var rs := requestedObjects;
    created := [];
    for k := 0 to |rs|
      invariant created == Created(rs[..k], found)
    {
      assert rs[..k + 1][..k] == rs[..k];
      if rs[k] !in found {
        created := created + [rs[k]];
      }
    }
    assert rs[..|rs|] == rs;
  }

  /**
   * The nested loops of `compare` (lines 160-182) for one type, with the `created` loop as
   * written or as intended; `None` is the nil-`CompareItems` panic.
   */
  method TypeChangesOf<O(==)>(h: Helper<O>, t: string, existingObjects: seq<O>, requestedObjects: seq<O>, asWritten: bool)
    returns (changes: Option<Changes<O>>)
    ensures changes == TypeChanges(h, t, existingObjects, requestedObjects, asWritten)
  {
    var es, rs := existingObjects, requestedObjects;
    var deleted: seq<O>, updated: seq<O>, found: set<O> := [], [], {};
    for i := 0 to |es|
      invariant deleted == Deleted(h, t, es[..i], rs)
      invariant updated == Updated(h, t, es[..i], rs)
      invariant found == Found(h, t, es[..i], rs)
      invariant h.compareItems.None? ==> found == {}
    {
      assert es[..i + 1][..i] == es[..i];
      var existing := es[i];
      var existingFound, updatedHere, foundHere, panicked := MatchExisting(h, t, existing, rs);
      if panicked {
        FoundGrows(h, t, es, rs, i + 1);
        return None;
      }
      updated, found := updated + updatedHere, found + foundHere;
      if !existingFound {
        deleted := deleted + [existing];
      }
    }
    assert es[..|es|] == es;
    var created;
    if asWritten {
      created := CreatedLoopAsWritten(deleted, rs, found);
    } else {
      created := CreatedLoop(rs, found);
    }
    return Some(Changes(created, updated, deleted));
  }

  /** The `created` loop of lines 178-182 as written: `created = append(deleted, requested)`. */
  method CreatedLoopAsWritten<O(==)>(deleted: seq<O>, requestedObjects: seq<O>, found: set<O>) returns (created: seq<O>)
    ensures created == CreatedAsWritten(deleted, requestedObjects, found)
  {
    var rs := requestedObjects;
    created := [];
    for k := 0 to |rs|
      invariant created == CreatedAsWritten(deleted, rs[..k], found)
    {
      assert rs[..k + 1][..k] == rs[..k];
      if rs[k] !in found {
        created := deleted + [rs[k]];
      }
    }
    assert rs[..|rs|] == rs;
  }

  /** The outcome of `compare`: one change set per listed type, a List error, or a panic. */
  datatype Compared<O> = Changed(changes: map<string, Changes<O>>) | ListFailed(err: string) | Panicked

  /** What `compare` returns for the types `ts` in order, in namespace `ns`. */
  function CompareSpec<O(==)>(h: Helper<O>, ts: seq<string>, ns: string, requested: map<string, seq<O>>, asWritten: bool): Compared<O>
    decreases |ts|
  {
    if |ts| == 0 then Changed(map[])
    else
      match CompareSpec(h, ts[..|ts| - 1], ns, requested, asWritten)
      case ListFailed(e) => ListFailed(e)
      case Panicked => Panicked
      case Changed(m) =>
        var t := ts[|ts| - 1];
        match ListObject(t)
        case None => Panicked
        case Some(kind) =>
          match h.client.list(ns, kind)
          case Failure(e) => ListFailed(e)
          case Success(list) =>
            var rs := if t in requested then requested[t] else [];
            match TypeChanges(h, t, h.listItems(list), rs, asWritten)
            case None => Panicked
            case Some(c) => Changed(m[t := c])
  }

  /** A successful `compare` has one change set for each listed type and no other. */
  lemma {:induction false} CompareKeys<O>(h: Helper<O>, ts: seq<string>, ns: string, requested: map<string, seq<O>>, asWritten: bool)
    ensures CompareSpec(h, ts, ns, requested, asWritten).Changed? ==>
      CompareSpec(h, ts, ns, requested, asWritten).changes.Keys == set t | t in ts
    decreases |ts|
  {
    if |ts| > 0 {
      CompareKeys(h, ts[..|ts| - 1], ns, requested, asWritten);
      assert ts == ts[..|ts| - 1] + [ts[|ts| - 1]];
    }
  }

  /** As written, every change set `compare` returns has the shape `CreatedOverDeleted`. */
  lemma {:induction false} CompareAsWrittenShape<O>(h: Helper<O>, ts: seq<string>, ns: string, requested: map<string, seq<O>>)
    ensures CompareSpec(h, ts, ns, requested, true).Changed? ==>
      forall t :: t in CompareSpec(h, ts, ns, requested, true).changes ==>
        CreatedOverDeleted(CompareSpec(h, ts, ns, requested, true).changes[t])
    decreases |ts|
  {
    if |ts| > 0 {
      CompareAsWrittenShape(h, ts[..|ts| - 1], ns, requested);
      var t := ts[|ts| - 1];
      if CompareSpec(h, ts, ns, requested, true).Changed? {
        var list := h.client.list(ns, ListObject(t).value).value;
        var rs := if t in requested then requested[t] else [];
        TypeChangesAsWrittenShape(h, t, h.listItems(list), rs);
      }
    }
  }

  /** `compare`: the loop over object types (lines 149-186). */
  method Compare<O(==)>(h: Helper<O>, objectTypes: seq<string>, namespace: string, requested: map<string, seq<O>>,
                         asWritten: bool)
    returns (result: Compared<O>)
    ensures result == CompareSpec(h, objectTypes, namespace, requested, asWritten)
  {
    var allChanges: map<string, Changes<O>> := map[];
    for i := 0 to |objectTypes|
      invariant CompareSpec(h, objectTypes[..i], namespace, requested, asWritten) == Changed(allChanges)
    {
      result := CompareType(h, objectTypes, namespace, requested, i, allChanges, asWritten);
      if !result.Changed? {
        FailureSticks(h, objectTypes, namespace, requested, i + 1, asWritten);
        return;
      }
      allChanges := result.changes;
    }
    assert objectTypes[..|objectTypes|] == objectTypes;
    return Changed(allChanges);
  }

  /** One round of `compare`'s loop: lists the `i`-th type and adds its changes. */
  method CompareType<O(==)>(h: Helper<O>, objectTypes: seq<string>, namespace: string, requested: map<string, seq<O>>,
                            i: nat, allChanges: map<string, Changes<O>>, asWritten: bool)
    returns (result: Compared<O>)
    requires i < |objectTypes| && CompareSpec(h, objectTypes[..i], namespace, requested, asWritten) == Changed(allChanges)
    ensures result == CompareSpec(h, objectTypes[..i + 1], namespace, requested, asWritten)
  {
    assert objectTypes[..i + 1][..i] == objectTypes[..i];
    var objectType := objectTypes[i];
    var kind := ListObject(objectType);
    if kind.None? {
      return Panicked;
    }
    var list := h.client.list(namespace, kind.value);
    if list.Failure? {
      return ListFailed(list.error);
    }
    var existingObjects := h.listItems(list.value);
    var requestedObjects := if objectType in requested then requested[objectType] else [];
    var theseChanges := TypeChangesOf(h, objectType, existingObjects, requestedObjects, asWritten);
    if theseChanges.None? {
      return Panicked;
    }
    return Changed(allChanges[objectType := theseChanges.value]);
  }

  /** Once a prefix of the types fails, the whole `compare` fails the same way. */
  lemma {:induction false} FailureSticks<O>(h: Helper<O>, ts: seq<string>, ns: string, requested: map<string, seq<O>>,
                                            i: nat, asWritten: bool)
    requires 0 < i <= |ts| && !CompareSpec(h, ts[..i], ns, requested, asWritten).Changed?
    ensures CompareSpec(h, ts, ns, requested, asWritten) == CompareSpec(h, ts[..i], ns, requested, asWritten)
    decreases |ts|
  {
    if i < |ts| {
      assert ts[..|ts| - 1][..i] == ts[..i];
      FailureSticks(h, ts[..|ts| - 1], ns, requested, i, asWritten);
    } else {
      assert ts[..i] == ts;
    }
  }

  // ---------------------------------------------------------------------------------------
  // Reconcile

  datatype Op<O> = Create(obj: O) | Update(obj: O) | Delete(obj: O)

  /** The error the callback for `op` returns. */
  function Outcome<O>(h: Helper<O>, op: Op<O>): Option<string>
  {
    match op
    case Create(o) => h.createObject(o)
    case Update(o) => h.updateObject(o)
    case Delete(o) => h.deleteObject(o)
  }

  /** All creates, then all updates, then all deletes of one type. */
  function TypePlan<O>(c: Changes<O>): (ops: seq<Op<O>>)
    ensures |ops| == |c.created| + |c.updated| + |c.deleted|
  {
    seq(|c.created|, i requires 0 <= i < |c.created| => Create(c.created[i]))
      + seq(|c.updated|, i requires 0 <= i < |c.updated| => Update(c.updated[i]))
      + seq(|c.deleted|, i requires 0 <= i < |c.deleted| => Delete(c.deleted[i]))
  }

  /** The calls `Reconcile` makes when nothing fails, visiting the types in `order`. */
  function Plan<O>(changes: map<string, Changes<O>>, order: seq<string>): seq<Op<O>>
    requires forall t :: t in order ==> t in changes
    decreases |order|
  {
    if |order| == 0 then [] else Plan(changes, order[..|order| - 1]) + TypePlan(changes[order[|order| - 1]])
  }

  /** Performing `ops` in order and stopping after the first one that fails: the calls made and the error. */
  function Apply<O>(h: Helper<O>, ops: seq<Op<O>>): (r: (seq<Op<O>>, Option<string>))
    decreases |ops|
  {
    if |ops| == 0 then ([], None)
    else
      var (applied, err) := Apply(h, ops[..|ops| - 1]);
      if err.Some? then (applied, err) else (applied + [ops[|ops| - 1]], Outcome(h, ops[|ops| - 1]))
  }

  /**
   * Abort on first error: the calls made are a prefix of the plan, every call but the last
   * succeeded, the error returned is the last call's, and with no error the whole plan ran.
   */
  lemma {:induction false} ApplyStopsAtFirstError<O>(h: Helper<O>, ops: seq<Op<O>>)
    ensures var (applied, err) := Apply(h, ops);
      && applied <= ops
      && (forall k :: 0 <= k < |applied| - 1 ==> Outcome(h, applied[k]).None?)
      && (err.None? <==> applied == ops && forall k :: 0 <= k < |ops| ==> Outcome(h, ops[k]).None?)
      && (err.Some? ==> |applied| > 0 && err == Outcome(h, applied[|applied| - 1]))
    decreases |ops|
  {
    if |ops| > 0 {
      var pre := ops[..|ops| - 1];
      ApplyStopsAtFirstError(h, pre);
      var (applied, err) := Apply(h, pre);
      if err.Some? {
        assert applied != ops by {
          assert |applied| <= |pre| < |ops|;
        }
      } else {
        assert ops == pre + [ops[|ops| - 1]];
      }
    }
  }

  lemma {:induction false} ApplyAfterError<O>(h: Helper<O>, ops: seq<Op<O>>, more: seq<Op<O>>)
    requires Apply(h, ops).1.Some?
    ensures Apply(h, ops + more) == Apply(h, ops)
    decreases |more|
  {
    if |more| > 0 {
      var m := more[..|more| - 1];
      ApplyAfterError(h, ops, m);
      assert (ops + more)[..|ops + more| - 1] == ops + m;
    } else {
      assert ops + more == ops;
    }
  }

  lemma {:induction false} ApplyAfterSuccess<O>(h: Helper<O>, ops: seq<Op<O>>, more: seq<Op<O>>)
    requires Apply(h, ops) == (ops, None)
    ensures Apply(h, ops + more) == (ops + Apply(h, more).0, Apply(h, more).1)
    decreases |more|
  {
    if |more| > 0 {
      var m := more[..|more| - 1];
      ApplyAfterSuccess(h, ops, m);
      assert (ops + more)[..|ops + more| - 1] == ops + m;
      var x := Apply(h, m).0;
      assert ops + x + [more[|more| - 1]] == ops + (x + [more[|more| - 1]]);
    } else {
      assert ops + more == ops;
    }
  }

  /** Performing the calls of `ops[..n + 1]`, the last of which returned `err`. */
  lemma ApplyStep<O>(h: Helper<O>, ops: seq<Op<O>>, n: nat, applied: seq<Op<O>>, err: Option<string>)
    requires n < |ops| && (applied, None) == Apply(h, ops[..n]) && err == Outcome(h, ops[n])
    ensures (applied + [ops[n]], err) == Apply(h, ops[..n + 1])
    ensures err.Some? ==> Apply(h, ops) == (applied + [ops[n]], err)
  {
    assert ops[..n + 1][..n] == ops[..n];
    if err.Some? {
      ApplyAfterError(h, ops[..n + 1], ops[n + 1..]);
      assert ops[..n + 1] + ops[n + 1..] == ops;
    }
  }

  /** The plan for one type: its creations, then its updates, then its deletions. */
  lemma TypePlanAt<O>(c: Changes<O>, n: nat)
    requires n < |c.created| + |c.updated| + |c.deleted|
    ensures n < |c.created| ==> TypePlan(c)[n] == Create(c.created[n])
    ensures |c.created| <= n < |c.created| + |c.updated| ==> TypePlan(c)[n] == Update(c.updated[n - |c.created|])
    ensures |c.created| + |c.updated| <= n ==> TypePlan(c)[n] == Delete(c.deleted[n - |c.created| - |c.updated|])
  {
  }

  /** The three loops of `Reconcile` (lines 127-144) for one type's changes. */
  method ApplyChanges<O>(h: Helper<O>, typeChanges: Changes<O>) returns (applied: seq<Op<O>>, err: Option<string>)
    ensures (applied, err) == Apply(h, TypePlan(typeChanges))
  {
    applied, err := CreateLoop(h, typeChanges);
    if err.Some? {
      return;
    }
    applied, err := UpdateLoop(h, typeChanges, applied);
    if err.Some? {
      return;
    }
    applied, err := DeleteLoop(h, typeChanges, applied);
  }

  /** The creation loop (lines 127-132): the plan's creations, up to the first error. */
  method CreateLoop<O>(h: Helper<O>, typeChanges: Changes<O>) returns (applied: seq<Op<O>>, err: Option<string>)
    ensures err.None? ==> (applied, err) == Apply(h, TypePlan(typeChanges)[..|typeChanges.created|])
    ensures err.Some? ==> (applied, err) == Apply(h, TypePlan(typeChanges))
  {
    ghost var ops := TypePlan(typeChanges);
    applied, err := [], None;
    for k := 0 to |typeChanges.created|
      invariant (applied, None) == Apply(h, ops[..k]) && err.None?
    {
      TypePlanAt(typeChanges, k);
      err := h.createObject(typeChanges.created[k]);
      ApplyStep(h, ops, k, applied, err);
      applied := applied + [Create(typeChanges.created[k])];
      if err.Some? {
        return;
      }
    }
  }

  /** The update loop (lines 133-138), after the creations went through. */
  method UpdateLoop<O>(h: Helper<O>, typeChanges: Changes<O>, applied0: seq<Op<O>>) returns (applied: seq<Op<O>>, err: Option<string>)
    requires (applied0, None) == Apply(h, TypePlan(typeChanges)[..|typeChanges.created|])
    ensures err.None? ==> (applied, err) == Apply(h, TypePlan(typeChanges)[..|typeChanges.created| + |typeChanges.updated|])
    ensures err.Some? ==> (applied, err) == Apply(h, TypePlan(typeChanges))
  {
    ghost var ops := TypePlan(typeChanges);
    ghost var n := |typeChanges.created|;
    applied, err := applied0, None;
    for k := 0 to |typeChanges.updated|
      invariant (applied, None) == Apply(h, ops[..n + k]) && err.None?
    {
      TypePlanAt(typeChanges, n + k);
      err := h.updateObject(typeChanges.updated[k]);
      ApplyStep(h, ops, n + k, applied, err);
      applied := applied + [Update(typeChanges.updated[k])];
      if err.Some? {
        return;
      }
    }
  }

  /** The deletion loop (lines 139-144), after the creations and updates went through. */
  method DeleteLoop<O>(h: Helper<O>, typeChanges: Changes<O>, applied0: seq<Op<O>>) returns (applied: seq<Op<O>>, err: Option<string>)
    requires (applied0, None) == Apply(h, TypePlan(typeChanges)[..|typeChanges.created| + |typeChanges.updated|])
    ensures (applied, err) == Apply(h, TypePlan(typeChanges))
  {
    ghost var ops := TypePlan(typeChanges);
    ghost var n := |typeChanges.created| + |typeChanges.updated|;
    applied, err := applied0, None;
    for k := 0 to |typeChanges.deleted|
      invariant (applied, None) == Apply(h, ops[..n + k]) && err.None?
    {
      TypePlanAt(typeChanges, n + k);
      err := h.deleteObject(typeChanges.deleted[k]);
      ApplyStep(h, ops, n + k, applied, err);
      applied := applied + [Delete(typeChanges.deleted[k])];
      if err.Some? {
        return;
      }
    }
    assert ops[..n + |typeChanges.deleted|] == ops;
  }

  /**
   * `Reconcile`: runs `compare` and, when it succeeds, performs its changes type by type in
   * `order` (the order Go's map iteration happens to pick, any arrangement of the listed
   * types), returning at the first callback error. `applied` is the sequence of callbacks made.
   */
  method Reconcile<O(==)>(h: Helper<O>, objectTypes: seq<string>, namespace: string, requested: map<string, seq<O>>,
                          order: seq<string>, asWritten: bool)
    returns (panicked: bool, err: Option<string>, applied: seq<Op<O>>)
    requires forall t :: t in order <==> t in objectTypes
    requires forall i, j :: 0 <= i < j < |order| ==> order[i] != order[j]
    ensures panicked <==> CompareSpec(h, objectTypes, namespace, requested, asWritten).Panicked?
    ensures CompareSpec(h, objectTypes, namespace, requested, asWritten).ListFailed? ==>
      err == Some(CompareSpec(h, objectTypes, namespace, requested, asWritten).err) && applied == []
    ensures CompareSpec(h, objectTypes, namespace, requested, asWritten).Changed? ==>
      var changes := CompareSpec(h, objectTypes, namespace, requested, asWritten).changes;
      (forall t :: t in order ==> t in changes) && (applied, err) == Apply(h, Plan(changes, order))
  {
    var compared := Compare(h, objectTypes, namespace, requested, asWritten);
    if compared.Panicked? {
      return true, None, [];
    } else if compared.ListFailed? {
      return false, Some(compared.err), [];
    }
    var changes := compared.changes;
    CompareKeys(h, objectTypes, namespace, requested, asWritten);
    panicked, err, applied := false, None, [];
    for i := 0 to |order|
      invariant (applied, None) == Apply(h, Plan(changes, order[..i])) && err.None?
    {
      assert order[..i + 1][..i] == order[..i];
      ghost var before := Plan(changes, order[..i]);
      ApplyStopsAtFirstError(h, before);
      var typeApplied;
      typeApplied, err := ApplyChanges(h, changes[order[i]]);
      ApplyAfterSuccess(h, before, TypePlan(changes[order[i]]));
      applied := applied + typeApplied;
      if err.Some? {
        PlanSplits(changes, order, i + 1);
        ApplyAfterError(h, Plan(changes, order[..i + 1]), TypePlanRest(changes, order, i + 1));
        return;
      }
    }
    assert order[..|order|] == order;
  }

  /** The calls planned for the types from position `i` of `order` on. */
  function TypePlanRest<O>(changes: map<string, Changes<O>>, order: seq<string>, i: nat): seq<Op<O>>
    requires i <= |order| && forall t :: t in order ==> t in changes
    decreases |order| - i
  {
    if i == |order| then [] else TypePlan(changes[order[i]]) + TypePlanRest(changes, order, i + 1)
  }

  /** The plan splits at any type boundary. */
  lemma {:induction false} PlanSplits<O>(changes: map<string, Changes<O>>, order: seq<string>, i: nat)
    requires i <= |order| && forall t :: t in order ==> t in changes
    ensures Plan(changes, order) == Plan(changes, order[..i]) + TypePlanRest(changes, order, i)
    decreases |order| - i
  {
    if i < |order| {
      PlanSplits(changes, order, i + 1);
      var front, step := order[..i + 1], TypePlan(changes[order[i]]);
      assert front[..i] == order[..i] && front[i] == order[i];
      assert Plan(changes, front) == Plan(changes, order[..i]) + step;
      assert TypePlanRest(changes, order, i) == step + TypePlanRest(changes, order, i + 1);
    } else {
      assert order[..i] == order;
    }
  }

  /** Every call planned for a type in `order` is in the plan. */
  lemma {:induction false} PlanContains<O>(changes: map<string, Changes<O>>, order: seq<string>, t: string, op: Op<O>)
    requires forall u :: u in order ==> u in changes
    requires t in order && op in TypePlan(changes[t])
    ensures op in Plan(changes, order)
    decreases |order|
  {
    var last := order[|order| - 1];
    if last != t {
      assert order == order[..|order| - 1] + [last];
      PlanContains(changes, order[..|order| - 1], t, op);
    }
  }

  /**
   * The consequence of line 180 for `Reconcile`: as written, when a type has an existing
   * object nobody requested and a requested object that does not exist yet, a run without
   * errors calls `CreateObject` on the object it also deletes.
   */
  lemma ReconcileAsWrittenRecreatesDeleted<O>(h: Helper<O>, objectTypes: seq<string>, namespace: string,
                                              requested: map<string, seq<O>>, order: seq<string>, t: string, x: O)
    requires forall u :: u in order <==> u in objectTypes
    requires CompareSpec(h, objectTypes, namespace, requested, true).Changed?
    // always true, by CompareKeys; stated so that the plan below is defined
    requires forall u :: u in order ==> u in CompareSpec(h, objectTypes, namespace, requested, true).changes
    requires t in order
    requires var c := CompareSpec(h, objectTypes, namespace, requested, true).changes[t];
      c.created != [] && x in c.deleted
    requires Apply(h, Plan(CompareSpec(h, objectTypes, namespace, requested, true).changes, order)).1.None?
    ensures var applied := Apply(h, Plan(CompareSpec(h, objectTypes, namespace, requested, true).changes, order)).0;
      Create(x) in applied && Delete(x) in applied
  {
    var changes := CompareSpec(h, objectTypes, namespace, requested, true).changes;
    CompareAsWrittenShape(h, objectTypes, namespace, requested);
    TypePlanRecreates(changes[t], x);
    PlanContains(changes, order, t, Create(x));
    PlanContains(changes, order, t, Delete(x));
    ApplyStopsAtFirstError(h, Plan(changes, order));
  }

  /** A type plan of that shape creates every object it deletes. */
  lemma TypePlanRecreates<O>(c: Changes<O>, x: O)
    requires CreatedOverDeleted(c) && c.created != [] && x in c.deleted
    ensures Create(x) in TypePlan(c) && Delete(x) in TypePlan(c)
  {
    var j :| 0 <= j < |c.deleted| && c.deleted[j] == x;
    assert c.created[j] == c.created[..|c.deleted|][j];
    TypePlanAt(c, j);
    TypePlanAt(c, |c.created| + |c.updated| + j);
  }

  /**
   * The same input at the level of `Reconcile`: with "a" in the cluster and "b", "c" requested,
   * as written the calls are create "a", create "c", delete "a"; as intended they are create
   * "b", create "c", delete "a".
   */
  lemma ReconcileAsWrittenCounterexample()
    ensures var h, req := NamesAreIdentity(["a"]), map["Pod" := ["b", "c"]];
      && CompareSpec(h, ["Pod"], "ns", req, true) == Changed(map["Pod" := Changes(["a", "c"], [], ["a"])])
      && Apply(h, Plan(map["Pod" := Changes(["a", "c"], [], ["a"])], ["Pod"])) == ([Create("a"), Create("c"), Delete("a")], None)
      && CompareSpec(h, ["Pod"], "ns", req, false) == Changed(map["Pod" := Changes(["b", "c"], [], ["a"])])
      && Apply(h, Plan(map["Pod" := Changes(["b", "c"], [], ["a"])], ["Pod"])) == ([Create("b"), Create("c"), Delete("a")], None)
  {
    var h, req := NamesAreIdentity(["a"]), map["Pod" := ["b", "c"]];
    CounterexampleChanges();
    var ts: seq<string> := ["Pod"];
    assert ts[..0] == [];
    assert h.listItems(h.client.list("ns", PodList).value) == ["a"];
    CounterexamplePlan(h, Changes(["a", "c"], [], ["a"]));
    CounterexamplePlan(h, Changes(["b", "c"], [], ["a"]));
    assert TypePlan(Changes(["a", "c"], [], ["a"])) == [Create("a"), Create("c"), Delete("a")];
    assert TypePlan(Changes(["b", "c"], [], ["a"])) == [Create("b"), Create("c"), Delete("a")];
  }

  /** The changes for the type "Pod" in that input, as written and as intended. */
  lemma CounterexampleChanges()
    ensures TypeChanges(NamesAreIdentity(["a"]), "Pod", ["a"], ["b", "c"], true) == Some(Changes(["a", "c"], [], ["a"]))
    ensures TypeChanges(NamesAreIdentity(["a"]), "Pod", ["a"], ["b", "c"], false) == Some(Changes(["b", "c"], [], ["a"]))
  {
    CreatedAsWrittenCounterexample();
    CounterexampleClassified();
  }

  /** With callbacks that always succeed, the plan for the single type "Pod" runs in full. */
  lemma CounterexamplePlan(h: Helper<string>, c: Changes<string>)
    requires forall o :: h.createObject(o).None? && h.updateObject(o).None? && h.deleteObject(o).None?
    ensures Apply(h, Plan(map["Pod" := c], ["Pod"])) == (TypePlan(c), None)
  {
    var ts: seq<string> := ["Pod"];
    assert ts[..0] == [];
    assert Plan(map["Pod" := c], ts) == TypePlan(c);
    ApplyStopsAtFirstError(h, TypePlan(c));
  }
}

=== FILE: strings.dfy ===
/**
 * The few pieces of Go's `strings`, `strconv` and `regexp` packages the controller uses,
 * on `string = seq<char>`: `strings.Split`/`strings.Join` with a one-character separator,
 * `strings.Contains`, the "[0-9]+" matches concatenated, and decimal formatting of a `nat`.
 */
module Strings {

  /** `strings.Split(s, string(c))`: never empty; "" splits into [""]. */
  function Split(s: string, c: char): (parts: seq<string>)
    ensures |parts| >= 1
    decreases |s|
  {
    if |s| == 0 then [""]
    else
      var rest := Split(s[1..], c);
      if s[0] == c then [""] + rest else [[s[0]] + rest[0]] + rest[1..]
  }

  /** `strings.Join(parts, string(c))`. */
  function Join(parts: seq<string>, c: char): string
    decreases |parts|
  {
    if |parts| == 0 then ""
    else if |parts| == 1 then parts[0]
    else parts[0] + [c] + Join(parts[1..], c)
  }

  /** Joining the pieces of a split restores the original text. */
  lemma {:induction false} JoinSplit(s: string, c: char)
    ensures Join(Split(s, c), c) == s
    decreases |s|
  {
    if |s| > 0 {
      var rest := Split(s[1..], c);
      JoinSplit(s[1..], c);
      if s[0] == c {
        assert Split(s, c) == [""] + rest;
        assert ([""] + rest)[1..] == rest;
      } else {
        var parts := Split(s, c);
        assert parts == [[s[0]] + rest[0]] + rest[1..];
        if |rest| > 1 {
          assert parts[1..] == rest[1..];
          assert Join(rest, c) == rest[0] + [c] + Join(rest[1..], c);
        }
      }
    }
  }

  /** No piece of a split contains the separator. */
  lemma {:induction false} SplitPiecesFree(s: string, c: char)
    ensures forall k :: 0 <= k < |Split(s, c)| ==> c !in Split(s, c)[k]
    decreases |s|
  {
    if |s| > 0 {
      SplitPiecesFree(s[1..], c);
    }
  }

  /** A text without the separator splits into itself alone. */
  lemma {:induction false} SplitNoSeparator(s: string, c: char)
    requires c !in s
    ensures Split(s, c) == [s]
    decreases |s|
  {
    if |s| > 0 {
      assert c !in s[1..];
      SplitNoSeparator(s[1..], c);
      assert [s[0]] + s[1..] == s;
    }
  }

  /** A text with the separator splits into at least two pieces. */
  lemma {:induction false} SplitWithSeparator(s: string, c: char)
    requires c in s
    ensures |Split(s, c)| >= 2
    decreases |s|
  {
    if s[0] != c {
      assert c in s[1..];
      SplitWithSeparator(s[1..], c);
    }
  }

  lemma {:induction false} SplitAfterPiece(p: string, c: char, t: string)
    requires c !in p
    ensures Split(p + [c] + t, c) == [p] + Split(t, c)
    decreases |p|
  {
    if |p| == 0 {
      assert p + [c] + t == [c] + t;
      assert ([c] + t)[1..] == t;
    } else {
      assert (p + [c] + t)[1..] == p[1..] + [c] + t;
      assert c !in p[1..];
      SplitAfterPiece(p[1..], c, t);
      assert [p[0]] + p[1..] == p;
    }
  }

  /** Splitting a join of separator-free pieces gives the pieces back. */
  lemma {:induction false} SplitJoin(parts: seq<string>, c: char)
    requires |parts| >= 1
    requires forall k :: 0 <= k < |parts| ==> c !in parts[k]
    ensures Split(Join(parts, c), c) == parts
    decreases |parts|
  {
    if |parts| == 1 {
      SplitNoSeparator(parts[0], c);
    } else {
      SplitJoin(parts[1..], c);
      SplitAfterPiece(parts[0], c, Join(parts[1..], c));
      assert [parts[0]] + parts[1..] == parts;
    }
  }

  /** `strings.Contains(s, sub)`. */
  predicate Contains(s: string, sub: string)
    decreases |s|
  {
    if |sub| > |s| then false
    else s[..|sub|] == sub || (|s| > 0 && Contains(s[1..], sub))
  }

  predicate IsDigit(ch: char)
  {
    '0' <= ch <= '9'
  }

  /** `strings.Join(regexp.MustCompile("[0-9]+").FindAllString(s, -1), "")`: the digits of `s`, in order. */
  function Digits(s: string): (r: string)
    ensures forall k :: 0 <= k < |r| ==> IsDigit(r[k])
    ensures |r| <= |s|
  {
    if |s| == 0 then ""
    else (if IsDigit(s[0]) then [s[0]] else "") + Digits(s[1..])
  }

  /** Decimal text of a natural number, as `fmt.Sprintf("%v", n)` prints it. */
  function NatToString(n: nat): (r: string)
    ensures |r| >= 1
    ensures forall k :: 0 <= k < |r| ==> IsDigit(r[k])
  {
    if n < 10 then [DigitChar(n)] else NatToString(n / 10) + [DigitChar(n % 10)]
  }

  function DigitChar(d: nat): (ch: char)
    requires d < 10
    ensures IsDigit(ch)
  {
    (d + '0' as int) as char
  }

  /** Reads decimal text back (the inverse of `NatToString`). */
  function DecimalValue(s: string): nat
    decreases |s|
  {
    if |s| == 0 then 0
    else
      var ch := s[|s| - 1];
      DecimalValue(s[..|s| - 1]) * 10 + (if IsDigit(ch) then ch as int - '0' as int else 0)
  }

  lemma {:induction false} DecimalValueOfNatToString(n: nat)
    ensures DecimalValue(NatToString(n)) == n
    decreases n
  {
    if n >= 10 {
      DecimalValueOfNatToString(n / 10);
      var s := NatToString(n / 10) + [DigitChar(n % 10)];
      assert s[..|s| - 1] == NatToString(n / 10);
    }
  }

  /** Distinct numbers print differently. */
  lemma NatToStringInjective(a: nat, b: nat)
    requires NatToString(a) == NatToString(b)
    ensures a == b
  {
    DecimalValueOfNatToString(a);
    DecimalValueOfNatToString(b);
  }

  /** Joining one more piece appends the separator and the piece. */
  lemma {:induction false} JoinSnoc(parts: seq<string>, x: string, c: char)
    requires |parts| >= 1
    ensures Join(parts + [x], c) == Join(parts, c) + [c] + x
    decreases |parts|
  {
    if |parts| > 1 {
      JoinSnoc(parts[1..], x, c);
      assert (parts + [x])[1..] == parts[1..] + [x];
    }
  }
}

=== FILE: upgrade.dfy ===
/**
 * Product-version gating and the configuration-conflict check of `defaults/upgrade.go`:
 * supported-version membership, major/minor/micro splitting, the upgrade decision, diffing
 * config maps between two product versions, and the rule that the live config maps must
 * differ from the target version exactly as the bundled defaults do.
 *
 * `cmp.Diff` enters as a function parameter `diff`; the bundled config directory (a packr
 * box) as `hasDir` and `cmList`; reading a live config map as `getCM`.
 */
module Upgrade {
  import opened Wrappers
  import opened KieTypes
  import opened Strings
  import Defaults

  /** The data of one config map file group: the list of its `Data` maps. */
  type ConfigData = seq<map<string, string>>

  // ---------------------------------------------------------------------------------------
  // Versions

  /** `CheckVersion`: the loop over `SupportedVersions`. */
  function CheckVersion(supportedVersions: seq<string>, productVersion: string): (supported: bool)
    ensures supported <==> productVersion in supportedVersions
  {
    if |supportedVersions| == 0 then false
    else if supportedVersions[0] == productVersion then true
    else CheckVersion(supportedVersions[1..], productVersion)
  }

  /** `n` copies of "0". */
  function Padding(n: nat): (r: seq<string>)
    ensures |r| == n
  {
    if n == 0 then [] else Padding(n - 1) + ["0"]
  }

  /** The "."-segments of a version, padded with "0" to at least three. */
  function PaddedVersion(productVersion: string): (version: seq<string>)
    ensures |version| >= 3
  {
    var parts := Split(productVersion, '.');
    if |parts| >= 3 then parts else parts + Padding(3 - |parts|)
  }

  /** Major, minor and micro part of a version. */
  function VersionParts(productVersion: string): (string, string, string)
  {
    var version := PaddedVersion(productVersion);
    (version[0], version[1], version[2])
  }

  /** `MajorMinorMicro`: split on "." and append "0" until there are three parts. */
  method MajorMinorMicro(productVersion: string) returns (major: string, minor: string, micro: string)
    ensures (major, minor, micro) == VersionParts(productVersion)
  {
    var parts := Split(productVersion, '.');
    var version := parts;
    while |version| < 3
      invariant |parts| <= |version| && (|parts| < 3 ==> |version| <= 3) && (|parts| >= 3 ==> version == parts)
      invariant version == parts + Padding(|version| - |parts|)
      decreases 3 - |version|
    {
      version := version + ["0"];
    }
    assert version == PaddedVersion(productVersion);
    return version[0], version[1], version[2];
  }

  /** A dotted version with three or more parts gives its first three; later parts are ignored. */
  lemma {:induction false} VersionPartsOfDotted(major: string, minor: string, micro: string, rest: seq<string>)
    requires '.' !in major && '.' !in minor && '.' !in micro
    requires forall k :: 0 <= k < |rest| ==> '.' !in rest[k]
    ensures VersionParts(Join([major, minor, micro] + rest, '.')) == (major, minor, micro)
  {
    var parts := [major, minor, micro] + rest;
    assert forall k :: 0 <= k < |parts| ==> '.' !in parts[k] by {
      forall k | 0 <= k < |parts| ensures '.' !in parts[k] {
        if k >= 3 {
          assert parts[k] == rest[k - 3];
        }
      }
    }
    SplitJoin(parts, '.');
  }

  /** A version with two parts gets micro "0". */
  lemma VersionPartsOfMajorMinor(major: string, minor: string)
    requires '.' !in major && '.' !in minor
    ensures VersionParts(major + "." + minor) == (major, minor, "0")
  {
    var parts := [major, minor];
    assert parts[1..] == [minor];
    assert Join(parts, '.') == major + "." + minor;
    SplitJoin(parts, '.');
    assert Padding(1) == ["0"];
  }

  /** `getMinorImageVersion`: major and minor concatenated. */
  method GetMinorImageVersion(productVersion: string) returns (r: string)
    ensures r == VersionParts(productVersion).0 + VersionParts(productVersion).1
  {
    var major, minor, _ := MajorMinorMicro(productVersion);
    r := major + minor;
  }

  /** "7.5.1" gives image version "75". */
  lemma MinorImageVersion751()
    ensures VersionParts("7.5.1").0 + VersionParts("7.5.1").1 == "75"
  {
    assert Join(["7", "5", "1"], '.') == "7.5.1";
    VersionPartsOfDotted("7", "5", "1", []);
    assert ["7", "5", "1"] + [] == ["7", "5", "1"];
  }

  // ---------------------------------------------------------------------------------------
  // Upgrade decision

  datatype UpgradeDecision = UpgradeDecision(minor: bool, micro: bool, err: Option<string>)

  /**
   * `checkProductUpgrade`, on a spec whose defaults are already set: an unsupported version
   * is an error; a supported version other than the current one, with upgrades enabled,
   * allows micro upgrades and minor ones when asked for; otherwise neither.
   */
  function CheckProductUpgrade(c: Constants, operatorVersion: string, spec: KieAppSpec): (r: UpgradeDecision)
    ensures r.err.Some? <==> spec.version !in c.supportedVersions
    ensures r.micro <==> spec.version in c.supportedVersions && spec.version != c.currentVersion && spec.upgrades.enabled
    ensures r.minor <==> r.micro && spec.upgrades.minor
  {
    if CheckVersion(c.supportedVersions, spec.version) then
      if spec.version != c.currentVersion && spec.upgrades.enabled then
        UpgradeDecision(spec.upgrades.minor, spec.upgrades.enabled, None)
      else UpgradeDecision(false, false, None)
    else
      UpgradeDecision(false, false, Some("Product version " + spec.version + " is not allowed in operator version "
        + operatorVersion + ". The following versions are allowed - [" + Join(c.supportedVersions, ' ') + "]"))
  }

  /** Where `UpgradingSchema` goes after reading the v1 resource. */
  datatype SchemaGate = Stop(requeue: bool, err: Option<string>) | Continue

  datatype LookupError = NotFound | LookupFailed(message: string)

  /**
   * Lines 29-44 of `UpgradingSchema`, with the v1 resource's version (or the lookup error) as
   * input: nothing to do without a v1 resource; a lookup failure is retried; a non-empty
   * unsupported version is left alone; an empty or supported one goes on to the upgrade.
   */
  function SchemaUpgradeGate(c: Constants, v1Version: Result<string, LookupError>): (r: SchemaGate)
    ensures r.Continue? <==> v1Version.Success? && (v1Version.value == "" || v1Version.value in c.supportedVersions)
    ensures v1Version.Success? && r.Stop? ==> r == Stop(false, None)
    ensures v1Version == Failure(NotFound) ==> r == Stop(false, None)
    ensures v1Version.Failure? && v1Version.error.LookupFailed? ==> r == Stop(true, Some(v1Version.error.message))
  {
    match v1Version
    case Failure(NotFound) => Stop(false, None)
    case Failure(LookupFailed(message)) => Stop(true, Some(message))
    case Success(version) =>
      if version != "" && !CheckVersion(c.supportedVersions, version) then Stop(false, None)
      else Continue
  }

  // ---------------------------------------------------------------------------------------
  // Config diffs

  /** What `configDiffs` returns: for each name in both lists whose data differ, their diff. */
  function ConfigDiffsOf(cmFromList: map<string, ConfigData>, cmToList: map<string, ConfigData>,
                         diff: (ConfigData, ConfigData) -> string): map<string, string>
  {
    map n | n in cmFromList && n in cmToList && diff(cmFromList[n], cmToList[n]) != "" :: diff(cmFromList[n], cmToList[n])
  }

  /** `configDiffs`: the loop over the from-list in map order. */
  method ConfigDiffs(cmFromList: map<string, ConfigData>, cmToList: map<string, ConfigData>,
                     diff: (ConfigData, ConfigData) -> string)
    returns (configDiffs: map<string, string>)
    ensures configDiffs == ConfigDiffsOf(cmFromList, cmToList, diff)
  {
    configDiffs := map[];
    var remaining := cmFromList.Keys;
    while remaining != {}
      invariant remaining <= cmFromList.Keys
      invariant forall n :: n in configDiffs <==>
        n in cmFromList && n !in remaining && n in cmToList && diff(cmFromList[n], cmToList[n]) != ""
      invariant forall n :: n in configDiffs ==> configDiffs[n] == diff(cmFromList[n], cmToList[n])
      decreases remaining
    {
      var cmName :| cmName in remaining;
      if cmName in cmToList {
        var d := diff(cmFromList[cmName], cmToList[cmName]);
        if d != "" {
          configDiffs := configDiffs[cmName := d];
        }
      }
      remaining := remaining - {cmName};
    }
  }

  /**
   * With `cmp.Diff` semantics (empty exactly for equal inputs), a name is reported iff it is
   * in both lists with different data; names on one side only are never reported.
   */
  lemma ConfigDiffsAreChanges(cmFromList: map<string, ConfigData>, cmToList: map<string, ConfigData>,
                              diff: (ConfigData, ConfigData) -> string, n: string)
    requires forall x, y :: diff(x, y) == "" <==> x == y
    ensures n in ConfigDiffsOf(cmFromList, cmToList, diff) <==>
      n in cmFromList && n in cmToList && cmFromList[n] != cmToList[n]
    ensures ConfigDiffsOf(cmFromList, cmToList, diff).Keys <= cmFromList.Keys * cmToList.Keys
  {
  }

  /**
   * Two from-lists over the same names give the same diffs against a to-list exactly when
   * every shared name diffs alike.
   */
  lemma SameDiffsIff(a: map<string, ConfigData>, b: map<string, ConfigData>,
                                        cmToList: map<string, ConfigData>, diff: (ConfigData, ConfigData) -> string)
    requires a.Keys == b.Keys
    ensures ConfigDiffsOf(a, cmToList, diff) == ConfigDiffsOf(b, cmToList, diff) <==>
      forall n :: n in a && n in cmToList ==> diff(a[n], cmToList[n]) == diff(b[n], cmToList[n])
  {
    var da, db := ConfigDiffsOf(a, cmToList, diff), ConfigDiffsOf(b, cmToList, diff);
    if da == db {
      forall n | n in a && n in cmToList
        ensures diff(a[n], cmToList[n]) == diff(b[n], cmToList[n])
      {
        if diff(a[n], cmToList[n]) != "" {
          assert n in da;
        }
      }
    }
  }

  // ---------------------------------------------------------------------------------------
  // Filing bundled config maps under a version

  /** The entry name of a bundled config map and the version it is filed under. */
  datatype ConfigKey = ConfigKey(name: string, version: string)

  /** The config map name with its second "-"-segment (the version) removed. */
  function StrippedName(cmName: string): string
    requires |Split(cmName, '-')| >= 2
  {
    var cmSplit := Split(cmName, '-');
    Join(cmSplit[..1] + cmSplit[2..], '-')
  }

  /** Line 155: the config map name of entry `name` for `version`. */
  function OriginalName(name: string, version: string): string
  {
    var nameSplit := Split(name, '-');
    Join([nameSplit[0], version] + nameSplit[1..], '-')
  }

  /**
   * The backing array of `cmSplit` after `append(cmSplit[:1], cmSplit[2:]...)`: the prefix
   * `cmSplit[:1]` has room for the whole array, so the appended segments overwrite
   * `cmSplit[1:]` in place.
   */
  function SplitAfterAppend(cmSplit: seq<string>): (r: seq<string>)
    requires |cmSplit| >= 2
    ensures |r| == |cmSplit|
  {
    cmSplit[..1] + cmSplit[2..] + cmSplit[|cmSplit| - 1..]
  }

  /**
   * Lines 186-191 as written: the version compared is `cmSplit[1]` read after the in-place
   * append, i.e. the third segment whenever there is one. A name with fewer than two
   * segments makes `cmSplit[2:]` panic (None).
   */
  function ConfigKeyAsWritten(cmName: string): Option<ConfigKey>
  {
    var cmSplit := Split(cmName, '-');
    if |cmSplit| < 2 then None
    else Some(ConfigKey(StrippedName(cmName), SplitAfterAppend(cmSplit)[1]))
  }

  /** Lines 186-191 as intended: the version is the second segment of the original name. */
  function ConfigKeyOf(cmName: string): Option<ConfigKey>
  {
    var cmSplit := Split(cmName, '-');
    if |cmSplit| < 2 then None
    else Some(ConfigKey(StrippedName(cmName), cmSplit[1]))
  }

  /** Line 155 undoes the filing: the entry name and version give back the config map name. */
  lemma OriginalNameRoundTrip(cmName: string)
    requires ConfigKeyOf(cmName).Some?
    ensures OriginalName(ConfigKeyOf(cmName).value.name, ConfigKeyOf(cmName).value.version) == cmName
  {
    var cmSplit := Split(cmName, '-');
    var rest := cmSplit[..1] + cmSplit[2..];
    SplitPiecesFree(cmName, '-');
    assert forall k :: 0 <= k < |rest| ==> '-' !in rest[k] by {
      forall k | 0 <= k < |rest| ensures '-' !in rest[k] {
        if k >= 1 {
          assert rest[k] == cmSplit[k + 1];
        }
      }
    }
    SplitJoin(rest, '-');
    assert [rest[0], cmSplit[1]] + rest[1..] == cmSplit;
    JoinSplit(cmName, '-');
  }

  /** Distinct config maps never share an entry name and version. */
  lemma ConfigKeyInjective(a: string, b: string)
    requires ConfigKeyOf(a).Some? && ConfigKeyOf(a) == ConfigKeyOf(b)
    ensures a == b
  {
    OriginalNameRoundTrip(a);
    OriginalNameRoundTrip(b);
  }

  /**
   * The bundled layout names a config map prefix-version-directory, e.g.
   * "kieconfigs-7.5.0-envs"; as written it is filed under version "envs", so it is never
   * compared, while the intended reading files it under "7.5.0".
   */
  lemma ConfigKeyAsWrittenMisfiles()
    ensures ConfigKeyAsWritten("kieconfigs-7.5.0-envs") == Some(ConfigKey("kieconfigs-envs", "envs"))
    ensures ConfigKeyOf("kieconfigs-7.5.0-envs") == Some(ConfigKey("kieconfigs-envs", "7.5.0"))
  {
    var parts := ["kieconfigs", "7.5.0", "envs"];
    assert Join(parts, '-') == "kieconfigs-7.5.0-envs";
    assert '-' !in parts[0] && '-' !in parts[1] && '-' !in parts[2];
    SplitJoin(parts, '-');
    assert parts[..1] + parts[2..] == ["kieconfigs", "envs"];
    assert Join(["kieconfigs", "envs"], '-') == "kieconfigs-envs";
  }

  /**
   * The loop of `getConfigVersionLists` over the bundled config maps (in map order), filing
   * each under the entry name `key` gives it when its version is `fromVersion` or
   * `toVersion`; `ok` is false when some name has too few segments (a panic).
   */
  method FileConfigMaps(cmList: map<string, ConfigData>, fromVersion: string, toVersion: string,
                        key: string -> Option<ConfigKey>)
    returns (fromList: map<string, ConfigData>, toList: map<string, ConfigData>, ok: bool)
    ensures ok <==> forall k :: k in cmList ==> key(k).Some?
    ensures ok ==> forall n :: n in fromList <==> exists k :: k in cmList && key(k) == Some(ConfigKey(n, fromVersion))
    ensures ok ==> forall n :: n in toList <==> exists k :: k in cmList && key(k) == Some(ConfigKey(n, toVersion))
    ensures ok ==> forall n :: n in fromList ==>
      exists k :: k in cmList && key(k) == Some(ConfigKey(n, fromVersion)) && fromList[n] == cmList[k]
    ensures ok ==> forall n :: n in toList ==>
      exists k :: k in cmList && key(k) == Some(ConfigKey(n, toVersion)) && toList[n] == cmList[k]
  {
    fromList, toList := map[], map[];
    var remaining := cmList.Keys;
    while remaining != {}
      invariant remaining <= cmList.Keys
      invariant forall k :: k in cmList && k !in remaining ==> key(k).Some?
      invariant forall n :: n in fromList <==>
        exists k :: k in cmList && k !in remaining && key(k) == Some(ConfigKey(n, fromVersion))
      invariant forall n :: n in toList <==>
        exists k :: k in cmList && k !in remaining && key(k) == Some(ConfigKey(n, toVersion))
      invariant forall n :: n in fromList ==>
        exists k :: k in cmList && key(k) == Some(ConfigKey(n, fromVersion)) && fromList[n] == cmList[k]
      invariant forall n :: n in toList ==>
        exists k :: k in cmList && key(k) == Some(ConfigKey(n, toVersion)) && toList[n] == cmList[k]
      decreases remaining
    {
      var cmName :| cmName in remaining;
      var filed := key(cmName);
      if filed.None? {
        return fromList, toList, false;
      }
      if filed.value.version == fromVersion {
        fromList := fromList[filed.value.name := cmList[cmName]];
      }
      if filed.value.version == toVersion {
        toList := toList[filed.value.name := cmList[cmName]];
      }
      remaining := remaining - {cmName};
    }
    ok := true;
  }

  /** The bundled config maps of `version`, keyed by entry name. */
  function FiledMap(cmList: map<string, ConfigData>, version: string): (m: map<string, ConfigData>)
  {
    map n | n in (set k | k in cmList && ConfigKeyOf(k).Some? && ConfigKeyOf(k).value.version == version :: ConfigKeyOf(k).value.name)
      :: if OriginalName(n, version) in cmList then cmList[OriginalName(n, version)] else []
  }

  /** Every filed entry is the bundled config map line 155 names. */
  lemma FiledMapNames(cmList: map<string, ConfigData>, version: string, n: string)
    ensures n in FiledMap(cmList, version) <==>
      OriginalName(n, version) in cmList && ConfigKeyOf(OriginalName(n, version)) == Some(ConfigKey(n, version))
    ensures n in FiledMap(cmList, version) ==> FiledMap(cmList, version)[n] == cmList[OriginalName(n, version)]
  {
    if n in FiledMap(cmList, version) {
      var k :| k in cmList && ConfigKeyOf(k).Some? && ConfigKeyOf(k).value.version == version && ConfigKeyOf(k).value.name == n;
      OriginalNameRoundTrip(k);
    }
  }

  /** When the versions are supported and bundled, the corrected filing loop yields `FiledMap`. */
  lemma FileConfigMapsIsFiledMap(cmList: map<string, ConfigData>, version: string, filed: map<string, ConfigData>)
    requires forall n :: n in filed <==> exists k :: k in cmList && ConfigKeyOf(k) == Some(ConfigKey(n, version))
    requires forall n :: n in filed ==>
      exists k :: k in cmList && ConfigKeyOf(k) == Some(ConfigKey(n, version)) && filed[n] == cmList[k]
    ensures filed == FiledMap(cmList, version)
  {
    var m := FiledMap(cmList, version);
    forall n | n in filed
      ensures n in m && m[n] == filed[n]
    {
      var k :| k in cmList && ConfigKeyOf(k) == Some(ConfigKey(n, version)) && filed[n] == cmList[k];
      OriginalNameRoundTrip(k);
      FiledMapNames(cmList, version, n);
    }
    forall n | n in m
      ensures n in filed
    {
      FiledMapNames(cmList, version, n);
    }
  }

  /** Whether some bundled config map name makes the filing loop panic. */
  predicate FilingPanics(cmList: map<string, ConfigData>)
  {
    exists k :: k in cmList && |Split(k, '-')| < 2
  }

  /** Whether `getConfigVersionLists` looks into the bundle at all. */
  predicate ListsFiled(c: Constants, fromVersion: string, toVersion: string, hasDir: string -> bool)
  {
    fromVersion in c.supportedVersions && toVersion in c.supportedVersions && hasDir(fromVersion) && hasDir(toVersion)
  }

  /**
   * `getConfigVersionLists` as written: empty lists unless both versions are supported and
   * bundled; otherwise each config map filed by `ConfigKeyAsWritten`.
   */
  method GetConfigVersionListsAsWritten(c: Constants, fromVersion: string, toVersion: string,
                                        hasDir: string -> bool, cmList: map<string, ConfigData>)
    returns (fromList: map<string, ConfigData>, toList: map<string, ConfigData>, ok: bool)
    ensures !ListsFiled(c, fromVersion, toVersion, hasDir) ==> fromList == map[] && toList == map[] && ok
    ensures ListsFiled(c, fromVersion, toVersion, hasDir) ==> (ok <==> !FilingPanics(cmList))
    ensures ListsFiled(c, fromVersion, toVersion, hasDir) && ok ==>
      forall n :: n in fromList <==> exists k :: k in cmList && ConfigKeyAsWritten(k) == Some(ConfigKey(n, fromVersion))
    ensures ListsFiled(c, fromVersion, toVersion, hasDir) && ok ==>
      forall n :: n in toList <==> exists k :: k in cmList && ConfigKeyAsWritten(k) == Some(ConfigKey(n, toVersion))
    ensures ListsFiled(c, fromVersion, toVersion, hasDir) && ok ==> forall n :: n in fromList ==>
      exists k :: k in cmList && ConfigKeyAsWritten(k) == Some(ConfigKey(n, fromVersion)) && fromList[n] == cmList[k]
    ensures ListsFiled(c, fromVersion, toVersion, hasDir) && ok ==> forall n :: n in toList ==>
      exists k :: k in cmList && ConfigKeyAsWritten(k) == Some(ConfigKey(n, toVersion)) && toList[n] == cmList[k]
  {
    fromList, toList, ok := map[], map[], true;
    if CheckVersion(c.supportedVersions, fromVersion) && CheckVersion(c.supportedVersions, toVersion) {
      if hasDir(fromVersion) && hasDir(toVersion) {
        fromList, toList, ok := FileConfigMaps(cmList, fromVersion, toVersion, ConfigKeyAsWritten);
      }
    }
  }

  /** A version directory holding files: as written, none of its config maps is filed under its version. */
  lemma AsWrittenMissesVersionDirectories(cmList: map<string, ConfigData>, n: string)
    requires cmList.Keys == {"kieconfigs-7.5.0-envs"}
    ensures !exists k :: k in cmList && ConfigKeyAsWritten(k) == Some(ConfigKey(n, "7.5.0"))
  {
    ConfigKeyAsWrittenMisfiles();
  }

  /** Filed as intended, the same directory's config map is found under its version. */
  lemma FiledMapOfVersionDirectory(cmList: map<string, ConfigData>)
    requires cmList.Keys == {"kieconfigs-7.5.0-envs"}
    ensures FiledMap(cmList, "7.5.0").Keys == {"kieconfigs-envs"}
  {
    ConfigKeyAsWrittenMisfiles();
    var m := FiledMap(cmList, "7.5.0");
    OriginalNameRoundTrip("kieconfigs-7.5.0-envs");
    FiledMapNames(cmList, "7.5.0", "kieconfigs-envs");
    forall n | n in m ensures n == "kieconfigs-envs" {
      FiledMapNames(cmList, "7.5.0", n);
      var k := OriginalName(n, "7.5.0");
      assert k == "kieconfigs-7.5.0-envs";
    }
  }

  /**
   * `getConfigVersionLists` as intended: empty lists unless both versions are supported and
   * bundled; otherwise the bundled config maps of each version, keyed by entry name.
   */
  method GetConfigVersionLists(c: Constants, fromVersion: string, toVersion: string,
                               hasDir: string -> bool, cmList: map<string, ConfigData>)
    returns (fromList: map<string, ConfigData>, toList: map<string, ConfigData>, ok: bool)
    ensures !ListsFiled(c, fromVersion, toVersion, hasDir) ==> fromList == map[] && toList == map[] && ok
    ensures ListsFiled(c, fromVersion, toVersion, hasDir) ==> (ok <==> !FilingPanics(cmList))
    ensures ListsFiled(c, fromVersion, toVersion, hasDir) && ok ==>
      fromList == FiledMap(cmList, fromVersion) && toList == FiledMap(cmList, toVersion)
  {
    fromList, toList, ok := map[], map[], true;
    if CheckVersion(c.supportedVersions, fromVersion) && CheckVersion(c.supportedVersions, toVersion) {
      if hasDir(fromVersion) && hasDir(toVersion) {
        fromList, toList, ok := FileConfigMaps(cmList, fromVersion, toVersion, ConfigKeyOf);
        if ok {
          FileConfigMapsIsFiledMap(cmList, fromVersion, fromList);
          FileConfigMapsIsFiledMap(cmList, toVersion, toList);
        }
      }
    }
  }

  // ---------------------------------------------------------------------------------------
  // The conflict rule

  datatype DiffOutcome = Allowed | Conflict(message: string) | Failed(error: string) | Panicked

  /** The live config maps of the from-version: each entry's config map read from the cluster. */
  function LiveConfigs(fromList: map<string, ConfigData>, fromVersion: string, namespace: string,
                       getCM: (string, string) -> Result<map<string, string>, string>): map<string, ConfigData>
    requires forall n :: n in fromList ==> getCM(OriginalName(n, fromVersion), namespace).Success?
  {
    map n | n in fromList :: [getCM(OriginalName(n, fromVersion), namespace).value]
  }

  function ConflictMessage(fromVersion: string): string
  {
    "Can't upgrade, potential configuration conflicts in your " + fromVersion + " ConfigMap(s)"
  }

  /** The conflict rule: the compared diffs must equal the bundled ones. */
  function Verdict(diffs: map<string, string>, cmDiffs: map<string, string>, fromVersion: string): DiffOutcome
  {
    if diffs == cmDiffs then Allowed else Conflict(ConflictMessage(fromVersion))
  }

  /**
   * Lines 152-162: read the live config map of every from-entry (in map order); the first
   * failed read is returned.
   */
  method ReadLiveConfigs(fromList: map<string, ConfigData>, fromVersion: string, namespace: string,
                         getCM: (string, string) -> Result<map<string, string>, string>)
    returns (cmFromList: map<string, ConfigData>, err: Option<string>)
    ensures err.None? <==> forall n :: n in fromList ==> getCM(OriginalName(n, fromVersion), namespace).Success?
    ensures err.None? ==> cmFromList == LiveConfigs(fromList, fromVersion, namespace, getCM)
    ensures err.Some? ==> exists n :: n in fromList && getCM(OriginalName(n, fromVersion), namespace) == Failure(err.value)
  {
    cmFromList := map[];
    var remaining := fromList.Keys;
    while remaining != {}
      invariant remaining <= fromList.Keys
      invariant cmFromList.Keys == fromList.Keys - remaining
      invariant forall n :: n in cmFromList ==>
        getCM(OriginalName(n, fromVersion), namespace).Success?
        && cmFromList[n] == [getCM(OriginalName(n, fromVersion), namespace).value]
      decreases remaining
    {
      var name :| name in remaining;
      var nameSplit := Split(name, '-');
      var cmName := Join([nameSplit[0], fromVersion] + nameSplit[1..], '-');
      var currentCM := getCM(cmName, namespace);
      if currentCM.Failure? {
        return cmFromList, Some(currentCM.error);
      }
      cmFromList := cmFromList[name := [currentCM.value]];
      remaining := remaining - {name};
    }
    err := None;
  }

  /**
   * `getConfigVersionDiffs`, with the corrected filing: nothing to check unless both
   * versions are supported; otherwise the diffs of the bundled from-version against the
   * to-version must equal those of the compared from-configs, which are the live config maps
   * when running in a cluster, the bundled ones with "common.yaml" changed for the mock
   * service, and the bundled ones themselves otherwise.
   */
  method GetConfigVersionDiffs(c: Constants, fromVersion: string, toVersion: string,
                               hasDir: string -> bool, cmList: map<string, ConfigData>,
                               diff: (ConfigData, ConfigData) -> string,
                               isMockService: bool, watchNamespace: string, operatorName: string,
                               getCM: (string, string) -> Result<map<string, string>, string>)
    returns (r: DiffOutcome)
    ensures !(fromVersion in c.supportedVersions && toVersion in c.supportedVersions) ==> r == Allowed
    ensures ListsFiled(c, fromVersion, toVersion, hasDir) && FilingPanics(cmList) ==> r == Panicked
    ensures (&& fromVersion in c.supportedVersions && toVersion in c.supportedVersions
             && !(ListsFiled(c, fromVersion, toVersion, hasDir) && FilingPanics(cmList))) ==>
      var fromList := if hasDir(fromVersion) && hasDir(toVersion) then FiledMap(cmList, fromVersion) else map[];
      var toList := if hasDir(fromVersion) && hasDir(toVersion) then FiledMap(cmList, toVersion) else map[];
      var diffs := ConfigDiffsOf(fromList, toList, diff);
      var embedded := Defaults.UseEmbeddedFiles(isMockService, watchNamespace, operatorName);
      && (!embedded.useEmbedded ==>
            if forall n :: n in fromList ==> getCM(OriginalName(n, fromVersion), watchNamespace).Success? then
              r == Verdict(diffs, ConfigDiffsOf(LiveConfigs(fromList, fromVersion, watchNamespace, getCM), toList, diff), fromVersion)
            else
              r.Failed? && exists n :: n in fromList && getCM(OriginalName(n, fromVersion), watchNamespace) == Failure(r.error))
      && (embedded.useEmbedded && isMockService ==>
            r == Verdict(diffs, ConfigDiffsOf(fromList[c.configMapPrefix := [map["common.yaml" := "changed"]]], toList, diff), fromVersion))
      && (embedded.useEmbedded && !isMockService ==> r == Allowed)
  {
    if !(CheckVersion(c.supportedVersions, fromVersion) && CheckVersion(c.supportedVersions, toVersion)) {
      return Allowed;
    }
    var fromList, toList, ok := GetConfigVersionLists(c, fromVersion, toVersion, hasDir, cmList);
    if !ok {
      return Panicked;
    }
    var diffs := ConfigDiffs(fromList, toList, diff);
    var cmDiffs := diffs;
    var embedded := Defaults.UseEmbeddedFiles(isMockService, watchNamespace, operatorName);
    if !embedded.useEmbedded {
      var cmFromList, err := ReadLiveConfigs(fromList, fromVersion, embedded.depNameSpace, getCM);
      if err.Some? {
        return Failed(err.value);
      }
      cmDiffs := ConfigDiffs(cmFromList, toList, diff);
    } else if isMockService {
      fromList := fromList[c.configMapPrefix := [map["common.yaml" := "changed"]]];
      cmDiffs := ConfigDiffs(fromList, toList, diff);
    }
    r := Verdict(diffs, cmDiffs, fromVersion);
  }

  /**
   * Untouched live config maps never block an upgrade: when every live config map holds
   * exactly the bundled data, the compared diffs are the bundled ones.
   */
  lemma UntouchedConfigsAllowUpgrade(fromList: map<string, ConfigData>, toList: map<string, ConfigData>,
                                     fromVersion: string, namespace: string,
                                     getCM: (string, string) -> Result<map<string, string>, string>,
                                     diff: (ConfigData, ConfigData) -> string)
    requires forall n :: n in fromList ==>
      getCM(OriginalName(n, fromVersion), namespace).Success?
      && fromList[n] == [getCM(OriginalName(n, fromVersion), namespace).value]
    ensures Verdict(ConfigDiffsOf(fromList, toList, diff),
                    ConfigDiffsOf(LiveConfigs(fromList, fromVersion, namespace, getCM), toList, diff), fromVersion) == Allowed
  {
    assert LiveConfigs(fromList, fromVersion, namespace, getCM) == fromList;
  }

  /**
   * A live upgrade is refused exactly when some entry present in both versions diffs
   * differently against the to-version live than bundled.
   */
  lemma ConflictIffSomeConfigDiffers(fromList: map<string, ConfigData>, toList: map<string, ConfigData>,
                                     fromVersion: string, namespace: string,
                                     getCM: (string, string) -> Result<map<string, string>, string>,
                                     diff: (ConfigData, ConfigData) -> string)
    requires forall n :: n in fromList ==> getCM(OriginalName(n, fromVersion), namespace).Success?
    ensures var live := LiveConfigs(fromList, fromVersion, namespace, getCM);
      Verdict(ConfigDiffsOf(fromList, toList, diff), ConfigDiffsOf(live, toList, diff), fromVersion).Conflict? <==>
        exists n :: n in fromList && n in toList && diff(fromList[n], toList[n]) != diff(live[n], toList[n])
  {
    var live := LiveConfigs(fromList, fromVersion, namespace, getCM);
    SameDiffsIff(fromList, live, toList, diff);
  }
}

=== FILE: wrappers.dfy ===
/** Option and Result values used for the source's nil returns, errors and panics. */
module Wrappers {

  datatype Option<+T> = None | Some(value: T)

  datatype Result<+T, +E> = Success(value: T) | Failure(error: E)
}
